=== FILE: README.md ===
# Church administration console: a Dafny model of its page logic

The repository is a React admin console for a church organisation. It covers conferences, districts, clergy, staff, lay officers, finance, events, reports, bulk SMS, users and settings. All of its data is mock data held in component state. The interesting logic sits in the pages' and modals' event handlers, and each of them is a small, pure step over that state.

This project models those handlers. Each page or modal gets one Dafny module. Its local state is an immutable datatype, and each handler is a pure function from state to state. Three conventions apply throughout:

- `setTimeout` delays are collapsed into one step, except in the delete confirmation dialog, where the delay is a separate step.
- Values the handlers read from the outside arrive as parameters: `Date.now()` ids, `Math.random()` draws, the clock's year and route parameters.
- A navigation is modelled as the route string it would go to.

Shared modules hold what the pages repeat:

- `KeyedList`: append, prepend, replace-by-id and delete-by-id.
- `Seqs`: filter, find and counting.
- `Text`: split, join, case mapping, `padStart` and status labels.
- `Numbers`: `parseInt` without a radix, as section 15.1.2.2 of ECMA-262 5.1 defines it, and integer `toString`, as section 9.8.1 (ToString applied to the Number type) defines it.
- `Calendar`: the day arithmetic of section 15.9.1 of ECMA-262 5.1, and the `Date` constructor of section 15.9.3.1 with its two-digit-year rule.
- `Ui`: badge variants.

Each operation is paired with a property: an inverse or round trip, an invariant it keeps, or a reference definition it agrees with.

## Model

| member | source | states |
|---|---|---|
| Seqs.Filter | src/pages/Events.tsx:75-79 | `filter` keeps exactly the elements the predicate accepts, never more elements than it was given |
| Seqs.FilterCounts | src/pages/Events.tsx:75-79 | `filter` keeps every occurrence of an accepted element and none of a rejected one |
| Seqs.FindIndex | src/pages/Events.tsx:114 | the index found holds the first element that satisfies the predicate; None exactly when none does |
| Seqs.Find | src/pages/Events.tsx:114 | `find` returns an element of the list that satisfies the predicate, and `undefined` exactly when none does |
| Seqs.FindIsFirstOfFilter | src/pages/Events.tsx:81-84 | `find` succeeds exactly when `filter` is non-empty, and then returns the head of the filtered list |
| Seqs.FilterAppend | src/pages/Events.tsx:75-79 | `filter` distributes over concatenation, so it keeps the original order |
| Seqs.FilterKeepsAll | src/pages/Events.tsx:115 | a predicate that accepts every element returns the list unchanged |
| Seqs.FilterDropsAll | src/pages/Events.tsx:115 | a predicate that rejects every element returns the empty list |
| Seqs.FilterSplitsLength | src/pages/Events.tsx:115 | each element goes to exactly one of `filter(p)` and `filter(!p)` |
| Seqs.FilterIdempotent | src/pages/Events.tsx:128 | filtering a second time with the same predicate changes nothing |
| KeyedList.Append | src/pages/Users.tsx:41 | `[...xs, x]` has one more record, at the end, with the earlier records untouched |
| KeyedList.Prepend | src/pages/finance/Payments.tsx:26 | `[x, ...xs]` has one more record, at the front, with the earlier records following in order |
| KeyedList.ReplaceById | src/pages/Events.tsx:106 | replace-by-id keeps the length, puts the new record at every position with its key and leaves every other position alone |
| KeyedList.ReplaceKeepsKeys | src/pages/Users.tsx:54 | replacing keeps each position's key |
| KeyedList.ReplaceUnknownIsIdentity | src/pages/members/StaffDetails.tsx:40 | replacing a record whose key is absent leaves the list as it was |
| KeyedList.ReplaceWithSelfIsIdentity | src/pages/members/LayOfficerDetails.tsx:40 | with unique keys, saving a record unchanged leaves the list as it was |
| KeyedList.ReplaceIdempotent | src/pages/members/ClergyDetails.tsx:41 | saving the same record twice is the same as saving it once |
| KeyedList.ReplaceThenFind | src/pages/members/ClergyDetails.tsx:25-41 | after a save, looking the key up succeeds exactly when the key was present before, and then finds the saved record |
| KeyedList.DeleteById | src/pages/Events.tsx:115 | a record survives delete-by-id exactly when its key differs, and the length drops by the number of records with the key |
| KeyedList.FilterSamePredicate | src/pages/Reports.tsx:151 | two predicates that agree on every record filter alike |
| KeyedList.DeleteAppend | src/pages/Reports.tsx:151 | delete-by-id distributes over concatenation, so survivors keep their order |
| KeyedList.DeleteSingleton | src/pages/Reports.tsx:151 | on one record, delete keeps it exactly when its key differs |
| KeyedList.DeleteUnknownIsIdentity | src/pages/administration/BulkSMS.tsx:60 | deleting a key no record carries leaves the list unchanged |
| KeyedList.DeleteAround | src/pages/Events.tsx:115 | deleting the key that only the middle record carries removes just that record |
| KeyedList.DeleteUniqueShortensByOne | src/pages/Events.tsx:115 | with unique keys, deleting a record's key removes exactly that record and shortens the list by one |
| KeyedList.DeleteIdempotent | src/pages/Reports.tsx:151 | deleting twice by the same key is the same as deleting once |
| KeyedList.FindById | src/pages/members/StaffDetails.tsx:24 | `find` by id returns a record of the list with that key, and `undefined` exactly when no record has it |
| KeyedList.FindByIdUnique | src/pages/members/LayOfficerDetails.tsx:24 | with unique keys, looking a record's key up finds that record |
| KeyedList.ReplaceThenFindById | src/pages/members/StaffDetails.tsx:24-40 | after saving a record whose key is present, looking the key up finds the saved record |
| Text.Split | src/pages/members/StaffDetails.tsx:63 | `split` on one character gives at least one part; no part holds the separator; every character of a part comes from the string |
| Text.JoinSplit | src/pages/Users.tsx:131 | joining the parts of a split with the same separator gives the string back |
| Text.JoinSplitAtSeparator | src/pages/Users.tsx:131 | the split-join round trip holds for a string that starts with the separator once it holds for the rest |
| Text.JoinSplitAtOther | src/pages/Users.tsx:131 | the split-join round trip holds for a string that starts with another character once it holds for the rest |
| Text.SplitWithoutSeparator | src/pages/members/StaffDetails.tsx:63 | a string without the separator splits into itself alone |
| Text.SplitAtFirst | src/pages/members/StaffDetails.tsx:63 | splitting at the first separator gives the word before it, then the split of the rest |
| Text.SplitTwoWords | src/pages/members/StaffDetails.tsx:138 | two words joined by one separator split into exactly those two words |
| Text.SplitAtSeparator | src/pages/members/StaffDetails.tsx:63 | a string that holds the separator splits into at least two parts |
| Text.LastPart | src/pages/members/ClergyDetails.tsx:67 | `split(sep).slice(-1)[0]` never holds the separator |
| Text.LastPartAfterSeparator | src/pages/members/ClergyDetails.tsx:67 | the last part is the text after the last separator |
| Text.LastPartWithoutSeparator | src/pages/members/ClergyDetails.tsx:67 | a string without the separator is its own last part |
| Text.FirstChars | src/pages/Users.tsx:131 | `map(n => n[0]).join('')` has one character per non-empty part, the first character of that part |
| Text.Initials | src/pages/Users.tsx:131 | one initial per non-empty word, in order: the i-th character is the first letter of the i-th non-empty word, so none is a space |
| Text.InitialsOfTwoWords | src/pages/Users.tsx:131 | the initials of a two-word name are the first letters of the two words |
| Text.Lower | src/components/modals/DeleteConfirmModal.tsx:37 | `toLowerCase` keeps the length and lowers each character |
| Text.Capitalize | src/pages/finance/Payments.tsx:131 | `charAt(0).toUpperCase() + slice(1)` keeps the length, upper-cases an ASCII first letter and keeps the rest |
| Text.CapitalizeIdempotent | src/pages/finance/Payments.tsx:131 | capitalising a capitalised label changes nothing |
| Text.CapitalizeUndo | src/pages/finance/Payments.tsx:131 | a label whose status starts with a lower-case ASCII letter gives the status back when its first letter is lowered |
| Text.Repeat | src/components/modals/AddPaymentModal.tsx:27 | `n` copies of the filler character |
| Text.PadStart | src/components/modals/AddPaymentModal.tsx:27 | `padStart` leaves a long enough string alone; otherwise it reaches the target length with filler in front and the string at the end |
| Text.StartsWithTransitive | src/components/layout/Sidebar.tsx:50 | a prefix of a prefix is a prefix |
| Text.StartsWithExtend | src/components/layout/Sidebar.tsx:50 | extending a path at the end keeps every prefix it had |
| Numbers.TrimStart | src/components/modals/EditEventModal.tsx:60 | parseInt's white-space skip returns a suffix of its input |
| Numbers.TrimStartSkipsWhiteSpace | src/components/modals/EditEventModal.tsx:60 | the skip removes white space only, and stops at the first other character |
| Numbers.DigitPrefixLength | src/components/modals/EditEventModal.tsx:60 | the digit run parseInt reads is no longer than the string |
| Numbers.DigitPrefixIsLongest | src/components/modals/EditEventModal.tsx:60 | the run read is made of digits and cannot be extended |
| Numbers.ParseIntOrZero | src/components/modals/EditEventModal.tsx:60 | `parseInt(s)` with the fallback 0 is 0 when parseInt gives NaN and the parsed value otherwise |
| Numbers.DigitChar | src/components/modals/AddPaymentModal.tsx:27 | a digit below 10 prints as a decimal digit character of that value |
| Numbers.NatToString | src/components/modals/AddPaymentModal.tsx:27 | the numeral of a natural number is never empty |
| Numbers.NatToStringIsDecimal | src/components/modals/AddPaymentModal.tsx:27 | the numeral is made of decimal digits and starts with 0 only for zero itself |
| Numbers.IntToString | src/pages/members/ClergyDetails.tsx:157 | `toString` of an integer is never empty |
| Numbers.IntToStringShape | src/pages/members/ClergyDetails.tsx:157 | a non-negative integer prints as digits; a negative one as a minus sign followed by digits |
| Numbers.NatToStringValue | src/components/modals/AddPaymentModal.tsx:27 | the numeral of n denotes n |
| Numbers.ParseMagnitudeDecimal | src/pages/members/ClergyDetails.tsx:157 | a string of decimal digits is read whole, in radix 10 |
| Numbers.ParseDecimal | src/pages/members/ClergyDetails.tsx:157 | `parseInt` of a decimal string is the number it denotes |
| Numbers.ParseNegativeDecimal | src/pages/members/ClergyDetails.tsx:157 | `parseInt` of a minus sign followed by decimal digits is the negated number |
| Numbers.ParseIntOfIntToString | src/pages/members/ClergyDetails.tsx:157 | round trip: `parseInt(n.toString())` is n for every integer |
| Numbers.ParseIntOfNatural | src/pages/members/ClergyDetails.tsx:157 | round trip for natural numbers |
| Numbers.ParseIntOfNegative | src/pages/members/ClergyDetails.tsx:157 | round trip for negative integers |
| Numbers.NegativeNumeralValue | src/pages/members/ClergyDetails.tsx:157 | the digits after the minus sign denote the magnitude |
| Numbers.LeadingZeroValue | src/components/modals/AddPaymentModal.tsx:27 | a leading zero does not change the value of a digit string |
| Numbers.LeadingZerosValue | src/components/modals/AddPaymentModal.tsx:27 | any number of leading zeros leaves the value of a digit string alone |
| Numbers.ZeroRun | src/components/modals/AddPaymentModal.tsx:27 | k zero digits |
| Numbers.NumeralBelowThousand | src/components/modals/AddPaymentModal.tsx:27 | a number below 1000 has at most three digits, so padding to three never truncates |
| Ui.StatusLabel | src/pages/members/StaffDetails.tsx:69 | the status badge label has the status's length, its first character upper-cased (ASCII letters only) and the rest unchanged |
| Ui.StatusLabelRoundTrip | src/pages/members/LayOfficerDetails.tsx:69 | a lower-case status is recovered from its label by lowering the first letter |
| Ui.StatusLabelIdempotent | src/pages/finance/Collections.tsx:128 | labelling a label changes nothing |
| Ui.ActiveBadge | src/pages/members/StaffDetails.tsx:68-69 | the profile badge is success exactly for "active" and default otherwise, labelled with the capitalised status; the lay officer and clergy profiles use the same rule |
| Calendar.LeapYearRule | src/pages/Events.tsx:51-53 | the year length used by the Date arithmetic behind `getDaysInMonth` has 366 days exactly when the year is divisible by 4 and not by 100, or by 400 |
| Calendar.DayFromYearStep | src/pages/Events.tsx:51-53 | consecutive years start DaysInYear days apart, so the closed-form day count behind `new Date` agrees with the year lengths |
| Calendar.DayFromYearMonotone | src/pages/Events.tsx:51-57 | a later year starts on a later day number |
| Calendar.MonthLength | src/pages/Events.tsx:51-53 | every month has 28 to 31 days, and February has 29 exactly in a leap year |
| Calendar.MonthStartStep | src/pages/Events.tsx:51-53 | the month-start table of the Date arithmetic agrees with the month lengths, and its last entry is the year length |
| Calendar.MonthStep | src/pages/Events.tsx:63-65 | the first of the following month comes MonthLength days after the first of this month, across a year end too |
| Calendar.WeekDayAfterMonth | src/pages/Events.tsx:55-57 | the first of the next month falls MonthLength days of the week after the first of this month |
| Calendar.WeekDayShift | src/pages/Events.tsx:55-57 | moving k days moves the day of the week k places round the week |
| Calendar.WithinYear | src/pages/Events.tsx:51-53 | a valid date's day number lies between the first day of its year and the first day of the next |
| Calendar.EarlierYearEarlierDay | src/pages/Events.tsx:51-53 | every day of an earlier year comes before every day of a later year |
| Calendar.SameYear | src/pages/Events.tsx:51-53 | two valid dates with the same day number are in the same year |
| Calendar.SameYearSameMonth | src/pages/Events.tsx:51-53 | within one year, equal day offsets mean the same month and date |
| Calendar.DayNumberInjective | src/pages/Events.tsx:51-57 | two valid dates with the same day number are the same date, so `getFullYear`, `getMonth` and `getDate` are well defined |
| Calendar.NormalizeDay | src/pages/Events.tsx:51-53 | a date outside its month is carried into a valid date with the same day number; a date already in range is left alone |
| Calendar.ShiftIntoPrevMonth | src/pages/Events.tsx:51-53 | a date below 1 names the same day as the date a previous-month length higher in the previous month |
| Calendar.ShiftIntoNextMonth | src/pages/Events.tsx:51-53 | a date past the month's end names the same day as the date a month length lower in the next month |
| Calendar.Normalize | src/pages/Events.tsx:59-73 | for any integers (the time-value range limit is left out), `new Date(year, month, date)` reads back as a valid date whose day number is MakeDay(year, month, date) |
| Calendar.NewDate | src/pages/Events.tsx:36 | the Date constructor gives a valid date whose day number is MakeDay of the year read through the two-digit rule |
| Calendar.NormalizeValid | src/pages/Events.tsx:36 | a date already in range comes back unchanged from the constructor |
| Calendar.DayZeroIsLastOfPreviousMonth | src/pages/Events.tsx:51-53 | date 0 of month m + 1 is the last day of month m, in every month including December |
| Calendar.FirstOfMonth | src/pages/Events.tsx:59-73 | day 1 of any month number is day 1 of that month carried into the year |
| Calendar.CarryForward | src/pages/Events.tsx:63-65 | one month forward from December carries into January of the next year; otherwise the year stays |
| Calendar.CarryBack | src/pages/Events.tsx:59-61 | one month back from January carries into December of the previous year; otherwise the year stays |
| EventsPage.Initial | src/pages/Events.tsx:36-43 | the page opens on 1 January 2024, a valid date, with the given events, every modal closed and nothing selected |
| EventsPage.DaysInMonth | src/pages/Events.tsx:51-53 | the corrected month length is 28 to 31, 29 in February exactly in a leap year, 30 exactly in April, June, September and November |
| EventsPage.FirstDayOfMonth | src/pages/Events.tsx:55-57 | the weekday of the first of the month is between 0 (Sunday) and 6 |
| EventsPage.PreviousMonth | src/pages/Events.tsx:59-61 | the corrected previous month is a displayed month whose month index is one less |
| EventsPage.NextMonth | src/pages/Events.tsx:63-65 | the corrected next month is a displayed month whose month index is one more |
| EventsPage.PreviousYear | src/pages/Events.tsx:67-69 | the corrected previous year keeps the month and lowers the year by one |
| EventsPage.NextYear | src/pages/Events.tsx:71-73 | the corrected next year keeps the month and raises the year by one |
| EventsPage.MonthIndexInjective | src/pages/Events.tsx:59-65 | a displayed month is determined by its month index |
| EventsPage.NavigationRoundTrips | src/pages/Events.tsx:59-73 | next month undoes previous month and the reverse; next year undoes previous year and the reverse |
| EventsPage.MonthsForward | src/pages/Events.tsx:63-65 | any number of next-month presses leaves a displayed month |
| EventsPage.MonthsForwardCounts | src/pages/Events.tsx:63-65 | n next-month presses advance the month index by n |
| EventsPage.TwelveMonthsAreAYear | src/pages/Events.tsx:63-73 | twelve next-month presses equal one next-year press |
| EventsPage.NextMonthStartsAfterThisOne | src/pages/Events.tsx:51-65 | the next month's first weekday is this month's first weekday plus its length, modulo 7 |
| EventsPage.OpeningMonth | src/pages/Events.tsx:36 | 1 January 2024 was a Monday and February 2024 has 29 days |
| EventsPage.DaysInMonthAsWritten | src/pages/Events.tsx:51-53 | `getDaysInMonth` as written returns the month length of the year read through the two-digit rule |
| EventsPage.FirstDayOfMonthAsWritten | src/pages/Events.tsx:55-57 | `getFirstDayOfMonth` as written returns the weekday of day 1 of the month in the year read through the two-digit rule |
| EventsPage.PreviousMonthAsWritten | src/pages/Events.tsx:59-61 | `goToPreviousMonth` as written lands on the corrected previous month of the year read through the two-digit rule |
| EventsPage.NextMonthAsWritten | src/pages/Events.tsx:63-65 | `goToNextMonth` as written lands on the corrected next month of the year read through the two-digit rule |
| EventsPage.PreviousYearAsWritten | src/pages/Events.tsx:67-69 | `goToPreviousYear` as written lands on the same month of the previous year read through the two-digit rule |
| EventsPage.NextYearAsWritten | src/pages/Events.tsx:71-73 | `goToNextYear` as written lands on the same month of the next year read through the two-digit rule |
| EventsPage.PreviousYearFromYear100 | src/pages/Events.tsx:67-69 | from January of year 100, the previous-year button lands in January 1999 |
| EventsPage.MonthRoundTripFromYear100 | src/pages/Events.tsx:59-65 | from January of year 100, previous month then next month lands in January 2000 |
| EventsPage.FebruaryOfYearZero | src/pages/Events.tsx:51-53 | year 0 is a leap year, but the code as written gives its February 28 days |
| EventsPage.AsWrittenAgreesAwayFromTwoDigitYears | src/pages/Events.tsx:51-73 | away from years -1 to 100, every calendar helper as written agrees with the corrected one |
| EventsPage.AsWrittenGridAgrees | src/pages/Events.tsx:51-57 | outside years 0 to 99, month length and first weekday as written agree with the corrected ones |
| EventsPage.AsWrittenNavigationAgrees | src/pages/Events.tsx:59-73 | away from years -1 to 100, the four navigation buttons as written agree with the corrected ones |
| EventsPage.DaysInMonthAsWrittenRange | src/pages/Events.tsx:51-53 | `getDaysInMonth` as written is 28 to 31, and 29 in February exactly when the two-digit-read year is a leap year |
| EventsPage.CalendarGrid | src/pages/Events.tsx:175-191 | the grid holds FirstDayOfMonth blank cells, then the days 1 to DaysInMonth in order, at most 37 cells |
| EventsPage.GridCells | src/pages/Events.tsx:175-180 | `blanks` empty cells are followed by the day numbers 1 to `days`, each in its own position |
| EventsPage.EventsForDay | src/pages/Events.tsx:75-79 | an event is listed for a day exactly when it is on that day, month and year; it is listed as often as it occurs; every listed event has a position |
| EventsPage.EventsForDayKeepsOrder | src/pages/Events.tsx:75-79 | the events of a day keep list order: the lookup distributes over concatenation |
| EventsPage.DayClick | src/pages/Events.tsx:81-88 | a day click always records the day; with events that day it opens the view on the first one, otherwise nothing else changes |
| EventsPage.DayClickOpensFirstEventOfDay | src/pages/Events.tsx:81-88 | the event a day click opens is on that day and is the first such event in the list |
| EventsPage.ViewEvent | src/pages/Events.tsx:90-93 | the view modal opens on the event and nothing else changes |
| EventsPage.EditEvent | src/pages/Events.tsx:95-98 | the edit modal opens on the event and nothing else changes |
| EventsPage.DeleteEvent | src/pages/Events.tsx:100-103 | the delete modal opens on the event and nothing else changes |
| EventsPage.SaveEvent | src/pages/Events.tsx:105-111 | the saved event replaces every entry with its id, position by position; the length and the rest of the state stay |
| EventsPage.ConfirmDelete | src/pages/Events.tsx:113-121 | an event survives exactly when its id differs; an unknown id changes nothing; the rest of the state stays |
| EventsPage.ConfirmDeleteOfUniqueId | src/pages/Events.tsx:113-121 | with unique ids, deleting an event's id removes that event alone and keeps the order |
| EventsPage.Upcoming | src/pages/Events.tsx:128 | an event is in the upcoming list exactly when its status is "upcoming" |
| EventsPage.GoToPreviousMonth | src/pages/Events.tsx:59-61 | the corrected handler moves to a displayed month whose next month is the current one; nothing else changes |
| EventsPage.GoToNextMonth | src/pages/Events.tsx:63-65 | the corrected handler moves to a displayed month whose previous month is the current one; nothing else changes |
| EventsPage.GoToPreviousYear | src/pages/Events.tsx:67-69 | the corrected handler moves to the same month of the year before; nothing else changes |
| EventsPage.GoToNextYear | src/pages/Events.tsx:71-73 | the corrected handler moves to the same month of the year after; nothing else changes |
| BulkSms.Initial | src/pages/administration/BulkSMS.tsx:24-34 | the page opens on the compose tab with the given templates, empty fields and the editor closed |
| BulkSms.SelectTab | src/pages/administration/BulkSMS.tsx:128-140 | a tab button selects its tab and changes nothing else |
| BulkSms.SendSms | src/pages/administration/BulkSMS.tsx:36-51 | a send with an empty recipient or message changes nothing; a send with both clears both fields; nothing else changes |
| BulkSms.SendTwiceRejectsSecond | src/pages/administration/BulkSMS.tsx:36-51 | right after a successful send, a second send is rejected and changes nothing |
| BulkSms.UseTemplate | src/pages/administration/BulkSMS.tsx:53-57 | using a template puts its content in the message and switches to the compose tab; nothing else changes |
| BulkSms.DeleteTemplate | src/pages/administration/BulkSMS.tsx:59-62 | a template survives exactly when its id differs; an unknown id changes nothing; nothing else changes |
| BulkSms.DeleteTemplateKeepsOrder | src/pages/administration/BulkSMS.tsx:59-62 | deleting keeps the surviving templates in their order |
| BulkSms.ResetEditor | src/pages/administration/BulkSMS.tsx:86-90 | the editor is closed and emptied; the tab, the templates and the compose fields stay |
| BulkSms.SaveTemplate | src/pages/administration/BulkSMS.tsx:64-91 | an empty name or content changes nothing; an update rewrites name and content of the templates with the current id and keeps every id and position; a create appends a template whose id is the printed clock reading; both reset the editor |
| BulkSms.PrepareEdit | src/pages/administration/BulkSMS.tsx:93-98 | the editor opens on the template's id, name and content; the list and the compose fields stay |
| BulkSms.Cancel | src/pages/administration/BulkSMS.tsx:263-268 | the Cancel button closes and empties the editor and keeps the list |
| BulkSms.EditRoundTrip | src/pages/administration/BulkSMS.tsx:64-98 | with unique non-empty ids, opening a template and saving it unchanged leaves the list as it was |
| BulkSms.UpdateKeepsIds | src/pages/administration/BulkSMS.tsx:71-74 | an update keeps every template's id in its position |
| BulkSms.SaveAfterResetIsRejected | src/pages/administration/BulkSMS.tsx:66-69 | after a successful save or a cancel, saving again is rejected with no change |
| SettingsPage.Initial | src/pages/Settings.tsx:11-34 | the page opens with no payment section expanded, an empty password form and every password hidden |
| SettingsPage.ToggleSection | src/pages/Settings.tsx:127 | a section header click expands the section exactly when it was collapsed, and no other section is expanded afterwards; nothing else changes |
| SettingsPage.AtMostOneSection | src/pages/Settings.tsx:14 | at most one payment section is expanded at a time |
| SettingsPage.ReopeningKeepsTheForm | src/pages/Settings.tsx:127-184 | collapsing and reopening a section gives back the page as it was, typed values included |
| SettingsPage.SetMobile | src/pages/Settings.tsx:152-170 | a mobile money input sets its own field and leaves the other fields alone |
| SettingsPage.SetBank | src/pages/Settings.tsx:208-232 | a bank account input sets its own field and leaves the other fields alone |
| SettingsPage.SetPassword | src/pages/Settings.tsx:267-311 | a password input sets its own field and leaves the other fields alone |
| SettingsPage.MobileFormsEqualByFields | src/pages/Settings.tsx:22-26 | two mobile money forms that agree on every field are the same form |
| SettingsPage.BankFormsEqualByFields | src/pages/Settings.tsx:28-34 | two bank account forms that agree on every field are the same form |
| SettingsPage.SetMobileRestores | src/pages/Settings.tsx:152-170 | typing back a mobile money field's old value leaves the form as it was |
| SettingsPage.SetBankRestores | src/pages/Settings.tsx:208-232 | typing back a bank field's old value leaves the form as it was |
| SettingsPage.TypeMobile | src/pages/Settings.tsx:146-170 | typing into the mobile money form changes that form only while its section is expanded, and otherwise nothing |
| SettingsPage.TypeBank | src/pages/Settings.tsx:203-232 | typing into the bank account form changes that form only while its section is expanded, and otherwise nothing |
| SettingsPage.ToggleVisibility | src/pages/Settings.tsx:274-318 | an eye button flips its own input's visibility and no other |
| SettingsPage.ToggleVisibilityTwice | src/pages/Settings.tsx:274-318 | pressing an eye button twice restores the visibility |
| SettingsPage.SubmitPassword | src/pages/Settings.tsx:36-51 | a change succeeds exactly when all three inputs are filled and the new passwords match, and then empties the form; a mismatch with all three filled is reported; in every other case the form stays |
| SettingsPage.CurrentPasswordIsNotChecked | src/pages/Settings.tsx:36-51 | any non-empty current password gives the same outcome |
| SettingsPage.ResubmitAfterChangeIsBlocked | src/pages/Settings.tsx:50 | after a successful change, pressing again is blocked until the form is filled again |
| ReportsPage.Series | src/pages/Reports.tsx:76-119 | a year's chart series has twelve points, the i-th pairing the i-th month label with the i-th amount |
| ReportsPage.Initial | src/pages/Reports.tsx:130-135 | the page opens with the given reports, every dialog closed, nothing selected and the year 2024 |
| ReportsPage.SelectYear | src/pages/Reports.tsx:198-204 | the year selector sets one of its own options and changes nothing else |
| ReportsPage.ChartData | src/pages/Reports.tsx:137 | the chart has data exactly when the selected year is a key of the collections table |
| ReportsPage.ChartAlwaysDefined | src/pages/Reports.tsx:137-204 | every year the selector offers has a twelve-month series labelled January to December, so the chart is never undefined |
| ReportsPage.OpenGenerate | src/pages/Reports.tsx:297 | the Generate Report button opens its dialog and changes nothing else |
| ReportsPage.CloseGenerate | src/pages/Reports.tsx:367 | closing the generate dialog changes nothing else |
| ReportsPage.CloseView | src/pages/Reports.tsx:371 | closing the view dialog keeps the report selected and changes nothing else |
| ReportsPage.CloseDelete | src/pages/Reports.tsx:376 | closing the delete dialog keeps the report selected and changes nothing else |
| ReportsPage.DialogRoundTrips | src/pages/Reports.tsx:139-376 | opening and closing any of the three dialogs restores the page, except that a viewed or deleted report stays selected |
| ReportsPage.ViewReport | src/pages/Reports.tsx:139-142 | the report is selected and the view dialog opens; the other dialogs, the list and the year stay |
| ReportsPage.DeleteReport | src/pages/Reports.tsx:144-147 | the report is selected and the delete dialog opens; the other dialogs, the list and the year stay |
| ReportsPage.ConfirmDelete | src/pages/Reports.tsx:149-157 | the notice names a report with the id when there is one, and undefined exactly when none has it; a report survives exactly when its id differs; an unknown id changes nothing |
| ReportsPage.ConfirmDeleteOfUniqueId | src/pages/Reports.tsx:149-157 | with unique ids, deleting a report's id names that report and removes it alone, in place |
| ReportsPage.ConfirmDeleteIdempotent | src/pages/Reports.tsx:149-157 | deleting twice with the same id is the same as deleting once |
| ShowMore.Displayed | src/pages/church-structure/DistrictDetails.tsx:147 | an expanded table shows every row; a collapsed one shows the first four, or all when there are fewer; either way a prefix of the list |
| ShowMore.ShowMoreButton | src/pages/church-structure/DistrictDetails.tsx:239-246 | the "Show N more" button appears exactly when the table is collapsed and has more than four rows, and N is the row count less four |
| ShowMore.ShowMoreCountsHiddenRows | src/pages/church-structure/ConferenceDetails.tsx:237-244 | the rows shown plus the count on the button make up the whole table |
| ShowMore.HiddenRowsHaveAButton | src/pages/church-structure/ConferenceDetails.tsx:143-244 | rows are hidden exactly when the "Show more" button is there to reveal them |
| ShowMore.OneButtonAtATime | src/pages/church-structure/DistrictDetails.tsx:239-257 | with more than four rows exactly one of the two buttons shows; otherwise neither |
| ShowMore.ToggleRoundTrip | src/pages/church-structure/DistrictDetails.tsx:147 | expanded shows the whole list; collapsed, a longer list shows its first four rows and differs from the whole |
| ShowMore.LookupKey | src/pages/church-structure/DistrictDetails.tsx:130 | an empty or missing route id, or an unknown key, is the not-found branch; otherwise the record under the key |
| DistrictDetails.Lookup | src/pages/church-structure/DistrictDetails.tsx:125-137 | a profile is shown exactly when the route id is a key of the district table, and it is the record under that key |
| DistrictDetails.KeysMatchIds | src/pages/church-structure/DistrictDetails.tsx:22-113 | the district table's keys are "1" to "6" and each record sits under the key that spells its own id |
| ShowMore.Opening | src/pages/church-structure/DistrictDetails.tsx:127-128 | a profile page (this one and ConferenceDetails.tsx:123-124 alike) opens with the edit modal closed and its table collapsed to the first four rows |
| ShowMore.OpenEdit | src/pages/church-structure/DistrictDetails.tsx:166 | the Edit button opens the edit modal and leaves the table as it was (ConferenceDetails.tsx:162 alike) |
| ShowMore.CloseEdit | src/pages/church-structure/DistrictDetails.tsx:380 | closing the edit modal leaves the table as it was (ConferenceDetails.tsx:371 alike) |
| ShowMore.EditRoundTrip | src/pages/church-structure/DistrictDetails.tsx:166-380 | opening and closing the edit modal restores the page |
| DistrictDetails.Societies | src/pages/church-structure/DistrictDetails.tsx:147 | expanded, every society shows; collapsed, the first four |
| DistrictDetails.ShowAll | src/pages/church-structure/DistrictDetails.tsx:239-246 | pressing "Show more" expands the table to every society and leaves the edit modal alone |
| DistrictDetails.ShowLess | src/pages/church-structure/DistrictDetails.tsx:250-257 | pressing "Show less" collapses the table to four societies and leaves the edit modal alone |
| DistrictDetails.OpeningTable | src/pages/church-structure/DistrictDetails.tsx:115-147 | on opening four of the six societies show and the button offers two more; show more then show less gives back the opening state |
| ConferenceDetails.Lookup | src/pages/church-structure/ConferenceDetails.tsx:121-133 | a profile is shown exactly when the route id is a key of the conference table, and it is the record under that key |
| ConferenceDetails.KeysMatchIds | src/pages/church-structure/ConferenceDetails.tsx:23-107 | the conference table's keys are "1" to "5" and each record sits under the key that spells its own id |
| ConferenceDetails.Districts | src/pages/church-structure/ConferenceDetails.tsx:143 | expanded, every district shows; collapsed, the first four |
| ConferenceDetails.ShowAll | src/pages/church-structure/ConferenceDetails.tsx:237-244 | pressing "Show more" expands the table to every district and leaves the edit modal alone |
| ConferenceDetails.ShowLess | src/pages/church-structure/ConferenceDetails.tsx:248-255 | pressing "Show less" collapses the table to four districts and leaves the edit modal alone |
| ConferenceDetails.OpeningTable | src/pages/church-structure/ConferenceDetails.tsx:109-143 | on opening four of the eight districts show and the button offers four more; show more then show less gives back the opening state |
| ConferencesPage.Initial | src/pages/church-structure/Conferences.tsx:147-151 | the page opens on the five conferences with every dialog closed, nothing selected and no menu open |
| ConferencesPage.AtMostOneMenuOpen | src/pages/church-structure/Conferences.tsx:151 | no two cards show their menu together |
| ConferencesPage.ToggleMenu | src/pages/church-structure/Conferences.tsx:235-238 | the menu button opens the card's menu exactly when it was closed and leaves every other card's menu closed; nothing else changes |
| ConferencesPage.ToggleMenuTwice | src/pages/church-structure/Conferences.tsx:235-238 | two presses restore the page unless another card's menu was open, in which case every menu ends closed |
| ConferencesPage.DetailsRoute | src/pages/church-structure/Conferences.tsx:160 | the profile route is the conferences prefix followed by the printed id |
| ConferencesPage.ReportRoute | src/pages/church-structure/Conferences.tsx:177 | the report route is the reports prefix with the conference query followed by the printed id |
| ConferencesPage.DetailsRouteRoundTrip | src/pages/church-structure/Conferences.tsx:160 | the id read back from a profile route is the conference's id |
| ConferencesPage.RoutesDiffer | src/pages/church-structure/Conferences.tsx:160-177 | a profile route never equals a report route |
| ConferencesPage.CardClick | src/pages/church-structure/Conferences.tsx:226 | a click on the card body navigates to the profile and changes nothing on the page |
| ConferencesPage.MenuAction | src/pages/church-structure/Conferences.tsx:153-179 | each action closes the menu; edit and delete select the conference and open their own dialog without navigating; view goes to the profile and report to the report page |
| ConferencesPage.MenuActionAsWritten | src/pages/church-structure/Conferences.tsx:112-140 | as wired, a menu click runs its handler and then the enclosing card's click, so the last navigation is always the profile |
| ConferencesPage.ReportClickLandsOnProfile | src/pages/church-structure/Conferences.tsx:126-132 | as wired, "View Report" ends on the profile page, not the report |
| ConferencesPage.EditClickLeavesThePage | src/pages/church-structure/Conferences.tsx:119-139 | as wired, "Edit" and "Delete" open their dialog and then navigate away, though their handlers alone do not navigate |
| ConferencesPage.MenuActionsDoWhatTheySay | src/pages/church-structure/Conferences.tsx:153-179 | handled alone, report goes to the report route, view goes where a card click goes, and edit opens its dialog without navigating |
| ConferencesPage.OpenAdd | src/pages/church-structure/Conferences.tsx:197 | the Add button opens the add dialog and changes nothing else |
| ConferencesPage.CloseAdd | src/pages/church-structure/Conferences.tsx:284 | closing the add dialog changes nothing else |
| ConferencesPage.AddDialogRoundTrip | src/pages/church-structure/Conferences.tsx:197-284 | opening and closing the add dialog leaves the page as it was |
| ConferencesPage.CloseEdit | src/pages/church-structure/Conferences.tsx:287-290 | closing the edit dialog clears the selection and changes nothing else |
| ConferencesPage.CloseDelete | src/pages/church-structure/Conferences.tsx:295-298 | closing the delete dialog clears the selection and changes nothing else |
| ConferencesPage.ConfirmDelete | src/pages/church-structure/Conferences.tsx:170-174 | confirming only clears the selection; the cards stay |
| ConferencesPage.Apply | src/pages/church-structure/Conferences.tsx:293-303 | whatever the delete dialog calls, the list of cards is unchanged |
| ConferencesPage.ConfirmedDeleteKeepsTheCards | src/pages/church-structure/Conferences.tsx:170-174 | after a confirmed delete the dialog is closed, nothing is selected and every card is still there |
| DeleteConfirmModal.EnabledIff | src/components/modals/DeleteConfirmModal.tsx:37 | the Delete button is enabled exactly when the text has six characters that lower-case to the letters of "delete" |
| DeleteConfirmModal.UpperCaseEnables | src/components/modals/DeleteConfirmModal.tsx:37 | "DELETE", "Delete" and "delete" all enable the button |
| DeleteConfirmModal.GateIgnoresCase | src/components/modals/DeleteConfirmModal.tsx:37 | lower-casing the text first never changes whether the button is enabled |
| DeleteConfirmModal.SurroundingSpaceDisables | src/components/modals/DeleteConfirmModal.tsx:37 | a leading or trailing space keeps the button disabled |
| DeleteConfirmModal.Initial | src/components/modals/DeleteConfirmModal.tsx:22-23 | the dialog opens with empty text, the button disabled and nothing pending |
| DeleteConfirmModal.Handle | src/components/modals/DeleteConfirmModal.tsx:25-101 | a closed dialog ignores the user; typing sets the text; Cancel closes and clears the text; the backdrop and X only close; Delete does nothing while disabled and otherwise starts the delay; an elapsed delay confirms, closes and clears the text |
| DeleteConfirmModal.Run | src/components/modals/DeleteConfirmModal.tsx:25-101 | no actions, no change and no calls |
| DeleteConfirmModal.ConfirmFlow | src/components/modals/DeleteConfirmModal.tsx:27-35 | typing the word, pressing Delete and waiting calls confirm then close, and leaves the dialog cleared |
| DeleteConfirmModal.NoConfirmWithoutTheWord | src/components/modals/DeleteConfirmModal.tsx:95-101 | without the word typed, no sequence of presses and delays from a quiet dialog ever confirms |
| DeleteConfirmModal.DismissKeepsTheGate | src/components/modals/DeleteConfirmModal.tsx:41-91 | the backdrop and X keep the typed text and so the button's state; Cancel clears it and disables the button |
| Sidebar.IsActiveIff | src/components/layout/Sidebar.tsx:50 | an item is highlighted exactly when its route is a prefix of the path followed by the end of the path or by '/' |
| Sidebar.MembersIsNotMembership | src/components/layout/Sidebar.tsx:50 | "/members" is highlighted on "/members/clergy" but not on "/membership" |
| Sidebar.ActiveOnExtension | src/components/layout/Sidebar.tsx:50 | a highlighted item stays highlighted on any deeper path |
| Sidebar.ChildActiveMakesParentActive | src/components/layout/Sidebar.tsx:50-99 | when a child route lies under its parent, a path that highlights the child highlights the parent |
| Sidebar.CollapsedTarget | src/components/layout/Sidebar.tsx:56 | a collapsed item links to its first child when it has children, and to its own route otherwise |
| Sidebar.CollapsedTargetIsActive | src/components/layout/Sidebar.tsx:50-61 | with nested routes, a collapsed group's link leads to a path that highlights the group |
| Sidebar.NavigationIsNested | src/components/layout/Sidebar.tsx:144-191 | every group of the navigation table nests its children under its own route |
| Sidebar.ChurchStructureIsNested | src/components/layout/Sidebar.tsx:146-155 | the church structure links lie under "/church-structure/" |
| Sidebar.MembersIsNested | src/components/layout/Sidebar.tsx:156-165 | the member links lie under "/members/" |
| Sidebar.FinanceIsNested | src/components/layout/Sidebar.tsx:166-175 | the finance links lie under "/finance/" |
| Sidebar.AdministrationIsNested | src/components/layout/Sidebar.tsx:176-186 | the administration links lie under "/administration/" |
| Sidebar.CurrentChildHighlightsGroup | src/components/layout/Sidebar.tsx:50-191 | in the expanded sidebar, being on any child page of the table highlights its group |
| Sidebar.Initial | src/components/layout/Sidebar.tsx:134-136 | the sidebar opens expanded, with the mobile drawer and the logout dialog closed |
| Sidebar.Handle | src/components/layout/Sidebar.tsx:139-280 | the mobile button flips the drawer; the overlay closes it; Minimize flips the collapsed flag; asking for logout opens the dialog exactly when the sidebar is expanded (or it was already open) and touches nothing else; cancel closes it; confirm closes it and navigates to "/login" |
| Sidebar.CollapseRoundTrip | src/components/layout/Sidebar.tsx:243-267 | two Minimize presses restore the sidebar; a collapsed sidebar cannot open the logout dialog until it is expanded again |
| Sidebar.MobileToggleRoundTrip | src/components/layout/Sidebar.tsx:196-208 | two mobile toggles restore the drawer; an overlay click after an opening toggle closes it again |
| Sidebar.ToggleGroup | src/components/layout/Sidebar.tsx:49-78 | a group header flips its own open flag and no other |
| Sidebar.ToggleGroupTwice | src/components/layout/Sidebar.tsx:78 | two clicks on a group header restore it |
| UsersPage.AddUser | src/pages/Users.tsx:40-46 | a new user is appended after all existing users, and nothing else changes |
| UsersPage.EditUser | src/pages/Users.tsx:48-51 | the chosen user is selected and the edit modal opens |
| UsersPage.SaveUser | src/pages/Users.tsx:53-59 | every user with the saved user's id is replaced; all other users keep their place |
| UsersPage.SaveUnchangedUser | src/pages/Users.tsx:53-59 | when ids are unique, saving a user unchanged leaves the table as it was |
| UsersPage.AddRole | src/pages/Users.tsx:61-67 | a new role is appended after all existing roles, and nothing else changes |
| UsersPage.CountActive | src/pages/Users.tsx:78 | the active count is at most the number of users; it equals that number exactly when every user is active, and it is zero exactly when none is |
| UsersPage.ActiveCount | src/pages/Users.tsx:78 | the "Active Now" card's filter-and-length agrees with the one-by-one count |
| UsersPage.ActiveIsCount | src/pages/Users.tsx:78 | filtering the users on status "active" keeps exactly as many as the one-by-one count finds |
| UsersPage.ActiveNeverExceedsTotal | src/pages/Users.tsx:77-78 | "Active Now" never exceeds "Total Users", and the two are equal exactly when everyone is active |
| UsersPage.ActiveCountAfterAdd | src/pages/Users.tsx:40-78 | adding a user raises "Active Now" by one exactly when the new user is active |
| UsersPage.Avatar | src/pages/Users.tsx:131 | the avatar holds one letter per non-empty word of the name, in order, each the first letter of its word |
| UsersPage.AvatarOfTwoWordName | src/pages/Users.tsx:131 | a first and a last name give their two initials |
| AddRoleModal.Toggle | src/components/modals/AddRoleModal.tsx:39-45 | checking appends the id; unchecking removes every copy of it and keeps every other id |
| AddRoleModal.UncheckKeepsOrder | src/components/modals/AddRoleModal.tsx:43 | unchecking works piece by piece, so the other ids keep their order |
| AddRoleModal.CheckThenUncheck | src/components/modals/AddRoleModal.tsx:39-45 | checking a permission that was not selected and then unchecking it restores the selection |
| AddRoleModal.LabelsMembership | src/components/modals/AddRoleModal.tsx:50-52 | a label is listed exactly when an option with that label has its id selected |
| AddRoleModal.LabelsFollowOptionOrder | src/components/modals/AddRoleModal.tsx:50-52 | labels come out in the order of the option table |
| AddRoleModal.LabelsDependOnMembershipOnly | src/components/modals/AddRoleModal.tsx:51 | only which ids are selected matters, not their order or repeats |
| AddRoleModal.LabelsAppearOnce | src/components/modals/AddRoleModal.tsx:50-52 | with distinct option labels, no label appears twice, however often its id was checked |
| AddRoleModal.OptionLabelsDistinct | src/components/modals/AddRoleModal.tsx:20-29 | the eight permission options have distinct labels |
| AddRoleModal.Summary | src/components/modals/AddRoleModal.tsx:49-54 | the summary is "No permissions" exactly when nothing is checked; otherwise it lists the selected labels, and an option's label is listed exactly when its id is checked |
| AddRoleModal.OptionListedIffChecked | src/components/modals/AddRoleModal.tsx:50-52 | an option's label is among the listed labels exactly when its id is checked |
| AddRoleModal.JoinedLabelsAreNotTheDefault | src/components/modals/AddRoleModal.tsx:20-54 | no joined list of option labels can be mistaken for "No permissions" |
| AddRoleModal.SummaryIgnoresOrderAndRepeats | src/components/modals/AddRoleModal.tsx:49-54 | checking in another order, or checking twice, gives the same summary |
| AddRoleModal.LabelsOfUnselected | src/components/modals/AddRoleModal.tsx:51 | options whose ids are not selected contribute no label |
| AddRoleModal.Submit | src/components/modals/AddRoleModal.tsx:47-80 | a closed modal submits nothing; the required name input blocks the submit exactly when it is empty; otherwise the role sent to the page has the typed name, no users and the summary, and the form is emptied |
| AddRoleModal.ResubmitIsBlocked | src/components/modals/AddRoleModal.tsx:47-80 | after a submit the emptied form cannot be submitted again until a name is typed |
| ClergyRecord.OrElse | src/components/modals/EditClergyModal.tsx:36-46 | a present non-empty field is kept, and a missing or empty one gives the default |
| ClergyRecord.Assign | src/components/modals/EditClergyModal.tsx:71-82 | after the three assignment keys are dropped, exactly one is set, the one the kind names, with society as the fallback; no other field changes |
| ClergyRecord.KindOf | src/components/modals/EditClergyModal.tsx:32 | the kind is conference exactly when a conference is set, else district exactly when a district is set, else society |
| ClergyRecord.AssignmentOf | src/components/modals/EditClergyModal.tsx:33 | the shown assignment is the first set of conference, district and society, in that order |
| ClergyRecord.AssignThenRead | src/components/modals/EditClergyModal.tsx:32-82 | assigning a non-empty value of one of the three kinds makes that kind and value the ones the record shows |
| ClergyRecord.AssignOwnAssignment | src/components/modals/EditClergyModal.tsx:32-82 | re-assigning a record's own single assignment changes nothing |
| EditClergyModal.DefaultForm | src/components/modals/EditClergyModal.tsx:16-28 | the form starts empty, assigned to a society, with status active |
| EditClergyModal.Load | src/components/modals/EditClergyModal.tsx:30-49 | loading a record fills each field from it, with "" for missing text, "active" for a missing status, and the kind and value by conference, then district, then society; with no record the form is kept |
| EditClergyModal.Merge | src/components/modals/EditClergyModal.tsx:58-82 | the saved record keeps its id, takes the nine edited fields from the form and carries exactly one assignment key, the one the form's kind names |
| EditClergyModal.Submit | src/components/modals/EditClergyModal.tsx:51-186 | a closed modal saves nothing; an open one is blocked exactly when one of the six required inputs (name, title, assignment, ordination date, email, phone) is empty, and otherwise saves the merged record |
| EditClergyModal.AssignmentRoundTrip | src/components/modals/EditClergyModal.tsx:30-82 | loading and then saving unchanged keeps the assignment under the same key with the same value |
| EditClergyModal.LoadThenSaveIsIdentity | src/components/modals/EditClergyModal.tsx:30-186 | a record in the shape this modal writes comes back unchanged from a load and an unchanged save, and that save goes through exactly when the record's required fields are non-empty |
| EditClergyModal.SaveThenLoad | src/components/modals/EditClergyModal.tsx:30-82 | loading a saved record shows the saved kind and assignment when the value is non-empty |
| AddClergyModal.DefaultForm | src/components/modals/AddClergyModal.tsx:15-24 | the form starts empty, assigned to a society, with status active |
| AddClergyModal.NewRecord | src/components/modals/AddClergyModal.tsx:33-49 | the new record has the given clock id and the six typed fields, has no bio, education or birth date, and carries exactly the one assignment key its kind names |
| AddClergyModal.Submit | src/components/modals/AddClergyModal.tsx:26-153 | a closed modal adds nothing; an open one is blocked exactly when one of the six required inputs (name, title, assignment, ordination date, email, phone) is empty, and otherwise adds the new record and resets the form to its defaults |
| AddClergyModal.NewRecordShowsItsAssignment | src/components/modals/AddClergyModal.tsx:43-49 | a new record with a non-empty assignment shows the kind and value it was given |
| AddClergyModal.UntouchedFormIsBlocked | src/components/modals/AddClergyModal.tsx:15-153 | the untouched form cannot be submitted: its required inputs are empty |
| ClergyDetails.Lookup | src/pages/members/ClergyDetails.tsx:25 | a found record is in the list and has the route's id; nothing is found exactly when the id is NaN or no record has it |
| ClergyDetails.LookupUnique | src/pages/members/ClergyDetails.tsx:25 | when ids are unique, looking up a record's id finds that record |
| ClergyDetails.Save | src/pages/members/ClergyDetails.tsx:40-41 | every record with the saved id is replaced; all other records keep their place |
| ClergyDetails.SaveThenLookup | src/pages/members/ClergyDetails.tsx:25-41 | after saving a record whose id is present, the page finds the saved record |
| ClergyDetails.AvatarLetter | src/pages/members/ClergyDetails.tsx:67 | the avatar letter, when there is one, is a character of the name and not a space |
| ClergyDetails.AvatarIsSurnameInitial | src/pages/members/ClergyDetails.tsx:67 | the letter is the initial of the last word, whatever comes before it |
| ClergyDetails.AssignmentLine | src/pages/members/ClergyDetails.tsx:44-45 | the line shows the first set of conference, district and society, labelled by which one it is |
| ClergyDetails.AssignmentLabelIsCapitalisedKind | src/pages/members/ClergyDetails.tsx:45 | the profile's label is the edit modal's assignment kind, capitalised |
| ClergyDetails.YearsInMinistry | src/pages/members/ClergyDetails.tsx:157 | the count is 2024 minus the leading integer of the ordination year, and NaN when there is none |
| ClergyDetails.YearsInMinistryOfYear | src/pages/members/ClergyDetails.tsx:157 | an ordination year written as a number gives its distance from 2024 |
| StaffDetails.Lookup | src/pages/members/StaffDetails.tsx:24 | a found record is in the list and has the route's id; nothing is found exactly when the id is NaN or no record has it |
| StaffDetails.Save | src/pages/members/StaffDetails.tsx:39-40 | every record with the saved id is replaced; all other records keep their place |
| StaffDetails.SaveThenLookup | src/pages/members/StaffDetails.tsx:24-40 | after saving a record whose id is present, the page finds the saved record |
| StaffDetails.AvatarOf | src/pages/members/StaffDetails.tsx:63 | the avatar throws exactly when the name has no space; a letter shown is a character of the name and not a space |
| StaffDetails.AvatarOfSecondWord | src/pages/members/StaffDetails.tsx:63 | for any name with a space, the avatar is the character after the first space, or blank when that is the end or another space |
| StaffDetails.AvatarOfTitledName | src/pages/members/StaffDetails.tsx:63 | for an honorific, a given name and the rest, the letter is the given name's initial |
| StaffDetails.AvatarOfOneWordNameThrows | src/pages/members/StaffDetails.tsx:63 | a one-word name makes the avatar throw |
| StaffDetails.YearsOfService | src/pages/members/StaffDetails.tsx:138 | an empty hire date gives 0; a date without a space gives NaN; otherwise the result is a number exactly when the second word starts with an integer, and that number is 2024 minus it |
| StaffDetails.NoSpaceInNumeral | src/pages/members/StaffDetails.tsx:138 | an integer's numeral contains no space, so a "Month Year" date splits into exactly those two words |
| StaffDetails.YearsOfServiceOfMonthYear | src/pages/members/StaffDetails.tsx:138 | a hire date written "Month Year" gives the years from that year to 2024 |
| LayOfficerDetails.Lookup | src/pages/members/LayOfficerDetails.tsx:24 | a found record is in the list and has the route's id; nothing is found exactly when the id is NaN or no record has it |
| LayOfficerDetails.Save | src/pages/members/LayOfficerDetails.tsx:39-40 | every record with the saved id is replaced; all other records keep their place |
| LayOfficerDetails.SaveThenLookup | src/pages/members/LayOfficerDetails.tsx:24-40 | after saving a record whose id is present, the page finds the saved record |
| LayOfficerDetails.SaveUnchanged | src/pages/members/LayOfficerDetails.tsx:39-40 | when ids are unique, saving an officer unchanged leaves the list as it was |
| LayOfficerDetails.YearsServing | src/pages/members/LayOfficerDetails.tsx:137 | the count is 2024 minus the leading integer of the start year, and NaN when there is none |
| LayOfficerDetails.YearsServingOfYear | src/pages/members/LayOfficerDetails.tsx:137 | a start year written as a number gives its distance from 2024 |
| PaymentsPage.Initial | src/pages/finance/Payments.tsx:11-23 | the page opens on the five seeded payments with both dialogs closed and nothing selected |
| PaymentsPage.AddPayment | src/pages/finance/Payments.tsx:25-27 | the new payment comes first and the earlier ones follow in their order; nothing else changes |
| PaymentsPage.NewestFirst | src/pages/finance/Payments.tsx:25-27 | payments added one after another are listed newest first |
| PaymentsPage.ViewPayment | src/pages/finance/Payments.tsx:29-32 | the payment is selected and the details dialog opens; the list is unchanged |
| PaymentsPage.OpenAdd | src/pages/finance/Payments.tsx:97 | the Record Payment button opens the add dialog and changes nothing else |
| PaymentsPage.CloseAdd | src/pages/finance/Payments.tsx:149 | closing the add dialog changes nothing else |
| PaymentsPage.CloseView | src/pages/finance/Payments.tsx:155 | closing the details dialog keeps the payment selected and changes nothing else |
| PaymentsPage.DialogRoundTrips | src/pages/finance/Payments.tsx:29-155 | opening and closing a dialog restores the page, except that a viewed payment stays selected |
| PaymentsPage.StatusVariant | src/pages/finance/Payments.tsx:47-58 | completed is success, pending is warning and failed is destructive, each exactly; every other status is default |
| PaymentsPage.StatusIcon | src/pages/finance/Payments.tsx:34-45 | completed, pending and failed each get their own icon, each exactly; every other status gets none |
| PaymentsPage.IconIffColoured | src/pages/finance/Payments.tsx:34-130 | a badge has no icon exactly when it is in the default colour |
| PaymentsPage.KnownStatusLabels | src/pages/finance/Payments.tsx:131 | the three known statuses are labelled "Completed", "Pending" and "Failed" |
| CollectionsPage.Initial | src/pages/finance/Collections.tsx:23-26 | the page opens on the given collections with both dialogs closed and nothing selected |
| CollectionsPage.AddCollection | src/pages/finance/Collections.tsx:28-30 | the new collection comes first and the earlier ones follow in their order; nothing else changes |
| CollectionsPage.AddCollectionMembership | src/pages/finance/Collections.tsx:28-30 | after an add, an entry is listed exactly when it is the new one or was listed before |
| CollectionsPage.ViewReceipt | src/pages/finance/Collections.tsx:32-35 | the collection is selected and the receipt dialog opens; the list is unchanged |
| CollectionsPage.OpenAdd | src/pages/finance/Collections.tsx:90 | the Record Collection button opens the add dialog and changes nothing else |
| CollectionsPage.CloseAdd | src/pages/finance/Collections.tsx:145 | closing the add dialog changes nothing else |
| CollectionsPage.CloseReceipt | src/pages/finance/Collections.tsx:151 | closing the receipt dialog keeps the collection selected and changes nothing else |
| CollectionsPage.DialogRoundTrips | src/pages/finance/Collections.tsx:32-151 | opening and closing a dialog restores the page, except that the collection whose receipt was shown stays selected |
| CollectionsPage.Badge | src/pages/finance/Collections.tsx:127-128 | the badge is success exactly for completed, warning otherwise, and is labelled with the capitalised status |
| AddPaymentModal.DrawNumber | src/components/modals/AddPaymentModal.tsx:27 | the drawn number is the floor of the draw times 1000, so it lies below 1000 |
| AddPaymentModal.Suffix | src/components/modals/AddPaymentModal.tsx:27 | the suffix is exactly three decimal digits |
| AddPaymentModal.SuffixValue | src/components/modals/AddPaymentModal.tsx:27 | the zero-padded suffix still reads as the drawn number |
| AddPaymentModal.ReferenceHead | src/components/modals/AddPaymentModal.tsx:25-29 | a reference starts with "PAY-", spells the year next, and is eight characters longer than the year |
| AddPaymentModal.ReferenceTail | src/components/modals/AddPaymentModal.tsx:25-29 | a reference ends with a dash and the three-digit suffix |
| AddPaymentModal.ParseReference | src/components/modals/AddPaymentModal.tsx:25-29 | a number read back from a reference is below 1000 |
| AddPaymentModal.ReferenceRoundTrip | src/components/modals/AddPaymentModal.tsx:25-29 | the year and the drawn number can be read back from every reference |
| AddPaymentModal.SuffixAlwaysThreeDigits | src/components/modals/AddPaymentModal.tsx:26-28 | whatever the draw, the number part of the reference is three decimal digits |
| AddPaymentModal.NewPayment | src/components/modals/AddPaymentModal.tsx:36-42 | the new payment is pending, has the clock id and the parsed amount, copies the form, and carries a reference that reads back as the year and the draw |
| AddPaymentModal.Submit | src/components/modals/AddPaymentModal.tsx:23-115 | a closed dialog records nothing; an open one is blocked exactly when the payer, amount, method or date is empty, and otherwise hands on the new payment and empties the form |
| AddPaymentModal.ResubmitIsBlocked | src/components/modals/AddPaymentModal.tsx:44-115 | the emptied form left after a payment cannot be submitted again as it is |
| AddPaymentModal.RecordedPaymentShowsPending | src/components/modals/AddPaymentModal.tsx:41 | a freshly recorded payment heads the list with the warning badge and the clock icon |
| EditEventModal.DefaultForm | src/components/modals/EditEventModal.tsx:25-33 | the form starts empty, with type "Conference" and assignment "All Conferences" |
| EditEventModal.Load | src/components/modals/EditEventModal.tsx:35-47 | a loaded event fills title, type and location, and an attendee text that reads back as the count; the dates are emptied and the assignment reset; no event keeps the form |
| EditEventModal.Merge | src/components/modals/EditEventModal.tsx:55-61 | the saved event takes the four edited fields, with 0 attendees for an unreadable count, and keeps every other field |
| EditEventModal.Submit | src/components/modals/EditEventModal.tsx:49-126 | nothing is saved unless the modal is open and has an event; then the save is blocked exactly when the required title or location is empty, and otherwise the merged event is saved |
| EditEventModal.IgnoredInputsDoNotMatter | src/components/modals/EditEventModal.tsx:55-133 | the dates and assignment typed into the form never reach the saved event |
| EditEventModal.UnparsableAttendeesAreZero | src/components/modals/EditEventModal.tsx:60 | an empty or non-numeric attendee field saves 0 attendees |
| EditEventModal.LoadThenSubmitIsIdentity | src/components/modals/EditEventModal.tsx:35-126 | opening the modal on an event and saving without edits gives back the same event, and the save goes through exactly when the event has a title and a location |
| EditEventModal.Set | src/components/modals/EditEventModal.tsx:88-146 | each input's change handler sets its own field and leaves every other field as it was |
| EditEventModal.FormsEqualByFields | src/components/modals/EditEventModal.tsx:25-33 | two forms that agree on every input are the same form |
| EditEventModal.SetRestore | src/components/modals/EditEventModal.tsx:88-146 | typing into a field and then restoring its old value gives back the original form |

## Left out

- Rendering is not modelled: JSX, Tailwind classes, icons, the recharts chart, and the `FloatInput`, `FloatBadge`, `FloatCard`, `StatCard` and `LogoutModal` primitives. They only present state.
- The `FloatButton` loading spinner is not modelled. FloatButton is not part of this model, so `isLoading` flags that only drive it are dropped.
- Toasts (`toast`, `sonner`), `window.print` and `console.log` are not modelled. They are effects with no state; a handler that only toasts changes nothing here.
- `react-router` is not modelled. `navigate` and `NavLink` become the route string they would produce.
- The click-outside `document` listener of the conference card menu is DOM event plumbing and is left out.
- The `Date.now()` ids, `Math.random()` draws and the clock's year are parameters. No uniqueness of ids is claimed, because the code never ensures it.
- Time zones are not modelled: local time is taken to be UTC.
- "Today" highlighting on the events calendar reads the wall clock and is left out.
- Float amounts are not modelled. `parseFloat(...) || 0` amounts become integers supplied by the caller.
- `toLocaleString` is not modelled, because its formatting depends on the locale.
- Numbers.IntToString: does not produce the exponent form that `toString` uses from 1e21 upward; every integer gets its plain decimal numeral.
- `Number(id)` on route parameters is not modelled. The converted value arrives as `Option<int>`, with `None` for NaN.
- Text.Initials: a character is a Unicode scalar value, while JavaScript's `n[0]` takes a UTF-16 code unit. A word led by a character outside the Basic Multilingual Plane gives the whole character here and a lone high surrogate in JavaScript. Text.FirstChars has the same gap.
- Text.InitialsOfTwoWords: has the same UTF-16 gap for a word led by an astral character.
- UsersPage.Avatar: has the same UTF-16 gap, through Text.Initials.
- UsersPage.AvatarOfTwoWordName: has the same UTF-16 gap.
- ClergyDetails.AvatarLetter: takes a whole scalar value where `split(' ').slice(-1)[0][0]` takes a UTF-16 code unit.
- ClergyDetails.AvatarIsSurnameInitial: has the same UTF-16 gap for a surname led by an astral character.
- StaffDetails.AvatarOf: takes a whole scalar value where `split(' ')[1][0]` takes a UTF-16 code unit.
- StaffDetails.AvatarOfSecondWord: has the same UTF-16 gap for a second word led by an astral character.
- StaffDetails.AvatarOfTitledName: has the same UTF-16 gap.
- Text.Lower: maps only ASCII letters, where `toLowerCase` applies full Unicode case mapping.
- Text.Capitalize: upper-cases only an ASCII first letter. `toUpperCase` maps any Unicode letter ("état" gives "État") and can lengthen the string ("ß" gives "SS"), so the length promise holds only for ASCII-led strings in JavaScript.
- Ui.StatusLabel: has the same ASCII-only gap, because it is built on Text.Capitalize.
- Records are closed datatypes. Extra keys an untyped object could carry are not represented, nor are keys inherited from `Object.prototype` in the string-keyed lookups.
- EditClergyModal.Submit: takes a present record; a `null` clergy with the modal open is not modelled.
- Calendar.Normalize: does not apply the time-value limit of the Date constructor. Beyond 8.64e15 milliseconds from the epoch JavaScript yields an Invalid Date, while the model still gives a valid date.
- Calendar.NewDate: has the same gap. A year far enough from 1970 makes the real constructor return an Invalid Date.
- Numbers.ParseDecimal: returns the exact integer. `parseInt` returns a double, which rounds above 2^53 (for example "9007199254740993"). The ages and tenures read by ClergyDetails.YearsInMinistry, LayOfficerDetails.YearsServing and StaffDetails.YearsOfService inherit this gap.
- Numbers.ParseIntOfIntToString: has the same gap. The round trip is exact in the model but rounds in JavaScript for integers above 2^53.
- Sidebar.CurrentChildHighlightsGroup: covers the expanded sidebar only. When the sidebar is collapsed, each group is an icon link to its first child, and react-router decides its highlight.
- AddClergyModal.Submit: models only the browser's check that required inputs are non-empty. The format check of the `type="email"` input is left out.
- EditClergyModal.Submit: has the same gap for its `type="email"` input.
- EditEventModal.Submit: models only the non-empty check of the title and location. The browser's format checks of the `type="number"` attendee count and the `type="date"` start and end dates are left out.
- AddPaymentModal.Submit: models only the non-empty check. The browser's format checks of the `type="number"` amount and the `type="date"` date are left out.
- The payment form's `method` field is named `paymentMethod`, because `method` is a Dafny keyword.
- DeleteConfirmModal.Handle: each press of an enabled Delete button starts its own delay, which a pending counter tracks. Presses are not serialised. This assumes that FloatButton does not disable itself while `isLoading` is set; FloatButton is not part of this model.
- The organisation settings save and the mobile money and bank save buttons only toast, so they are not modelled as transitions.
- These pages and modals hold only presentation state (tabs, dialog flags, form fields), change no record list, and are left out: `HR.tsx`, `Memos.tsx`, `Documents.tsx`, `FinanceReports.tsx`, `Dashboard.tsx`, `Login.tsx`, `ForgotPassword.tsx`, `Index.tsx`, `App.tsx`, `DashboardLayout.tsx` (apart from its collapse flag, which the sidebar model carries), and the view, notification, generate-report, record-payment, create-event, add-district, add-conference and edit-district modals.
- These single-spread record builders and list pages are left out: `AddCollectionModal.tsx`, `AddSocietyModal.tsx`, `AddStaffModal.tsx`, `AddLayOfficerModal.tsx`, `AddUserModal.tsx`, `EditUserModal.tsx`, `Clergy.tsx`, `Staff.tsx`, `LayOfficers.tsx`, `Societies.tsx` and `Districts.tsx`. Their appends and replacements are the `KeyedList` operations already modelled.

## Findings

| source | as written | input that shows it | evidently intended | confidence | as-written member | corrected member |
|---|---|---|---|---|---|---|
| src/pages/Events.tsx:51-73 | each month is rebuilt with `new Date(year, month, 1)`, and that constructor reads years 0 to 99 as 1900 to 1999 | on January of year 100, "previous year" lands in January 1999, and "previous month" then "next month" lands in January 2000; February of year 0 shows 28 days | navigation moves by exactly one month or year, and month lengths follow the proleptic Gregorian calendar for every year | not executed | EventsPage.PreviousYearAsWritten, EventsPage.PreviousMonthAsWritten, EventsPage.NextMonthAsWritten, EventsPage.DaysInMonthAsWritten, with EventsPage.PreviousYearFromYear100, EventsPage.MonthRoundTripFromYear100 and EventsPage.FebruaryOfYearZero | EventsPage.PreviousYear, EventsPage.NextYear, EventsPage.PreviousMonth, EventsPage.NextMonth, with EventsPage.NavigationRoundTrips |
| src/pages/church-structure/Conferences.tsx:112-226 | the menu items do not stop the click from reaching the card, whose handler navigates to the profile | "View Report" ends on the conference profile instead of the report; "Edit" and "Delete" open their dialog and then leave the page | each menu action does only what its label says | not executed | ConferencesPage.MenuActionAsWritten, with ConferencesPage.ReportClickLandsOnProfile and ConferencesPage.EditClickLeavesThePage | ConferencesPage.MenuAction, with ConferencesPage.MenuActionsDoWhatTheySay |

=== FILE: add_clergy_modal.dfy ===
/**
 * The modal that adds a clergy member. Submitting builds a record with the `Date.now()`
 * id (a parameter here), the six text fields copied from the form and exactly one
 * assignment key chosen by the form's kind, then resets the form to its defaults.
 * The one-second delay before adding is collapsed into the submit step.
 */
module AddClergyModal {
  import opened Wrappers
  import opened ClergyRecord
  import opened Ui

  datatype Form = Form(
    name: string,
    title: string,
    assignment: string,
    assignmentType: string,
    ordained: string,
    email: string,
    phone: string,
    status: string)

  /** The empty form: society assignment, active status, every other field empty. */
  function DefaultForm(): (f: Form)
    ensures f.assignmentType == SocietyKind && f.status == "active"
    ensures f.name == "" && f.title == "" && f.assignment == "" && f.ordained == ""
    ensures f.email == "" && f.phone == ""
  {
    Form("", "", "", SocietyKind, "", "", "", "active")
  }

  /** The record `handleSubmit` hands to the page, `now` standing for `Date.now()`. */
  function NewRecord(f: Form, now: nat): (r: Clergy)
    ensures r.id == now
    ensures r.name == Some(f.name) && r.title == Some(f.title) && r.ordained == Some(f.ordained)
    ensures r.email == Some(f.email) && r.phone == Some(f.phone) && r.status == Some(f.status)
    ensures r.bio == None && r.education == None && r.birthDate == None
    ensures OneAssignment(r)
    ensures f.assignmentType == ConferenceKind ==> r.conference == Some(f.assignment)
    ensures f.assignmentType == DistrictKind ==> r.district == Some(f.assignment)
    ensures f.assignmentType != ConferenceKind && f.assignmentType != DistrictKind ==> r.society == Some(f.assignment)
  {
    var base := Clergy(now, Some(f.name), Some(f.title), Some(f.ordained), Some(f.email),
                       Some(f.phone), Some(f.status), None, None, None, None, None, None);
    Assign(base, f.assignmentType, f.assignment)
  }

  /** Whether one of the six `required` inputs (name, title, assignment, ordination year,
      email, phone) is empty, which keeps the browser from submitting the form. */
  predicate MissingRequired(f: Form)
  {
    f.name == "" || f.title == "" || f.assignment == "" || f.ordained == "" || f.email == "" || f.phone == ""
  }

  /** `handleSubmit` behind the browser's required-field check: a closed modal renders
      nothing; a form with an empty required input is not submitted; otherwise the new
      record and the reset form. */
  function Submit(isOpen: bool, f: Form, now: nat): (r: Submission<(Clergy, Form)>)
    ensures r.NotRendered? <==> !isOpen
    ensures r.Blocked? <==>
      isOpen && (f.name == "" || f.title == "" || f.assignment == "" || f.ordained == "" || f.email == "" || f.phone == "")
    ensures r.Submitted? ==> r.value.0 == NewRecord(f, now) && r.value.1 == DefaultForm()
  {
    if !isOpen then NotRendered
    else if MissingRequired(f) then Blocked
    else Submitted((NewRecord(f, now), DefaultForm()))
  }

  /** A new record shows the kind and value it was given, when the value is non-empty. */
  lemma NewRecordShowsItsAssignment(f: Form, now: nat)
    requires f.assignment != ""
    requires f.assignmentType in {ConferenceKind, DistrictKind, SocietyKind}
    ensures KindOf(NewRecord(f, now)) == f.assignmentType
    ensures AssignmentOf(NewRecord(f, now)) == Some(f.assignment)
  {
  }

  /** The untouched form cannot be submitted, and neither can the form a submit resets to,
      so one filled form adds at most one record. */
  lemma UntouchedFormIsBlocked(now: nat)
    ensures Submit(true, DefaultForm(), now).Blocked?
  {
  }
}

=== FILE: add_payment_modal.dfy ===
/**
 * The "Record Payment" dialog: the `PAY-<year>-<nnn>` reference it generates and the
 * pending payment it hands to the page. The clock's year, the `Date.now()` id, the
 * `Math.random()` draw and the parsed amount are parameters.
 */
module AddPaymentModal {
  import opened Wrappers
  import opened Text
  import opened Numbers
  import opened PaymentsPage
  import opened Ui

  datatype Form = Form(payer: string, amount: string, paymentMethod: string, date: string, description: string)

  const EmptyForm := Form("", "", "", "", "")

  /** `Math.floor(Math.random() * 1000)` for a draw in [0, 1). */
  function DrawNumber(draw: real): (n: nat)
    requires 0.0 <= draw < 1.0
    ensures n < 1000
    ensures n as real <= draw * 1000.0 < n as real + 1.0
  {
    (draw * 1000.0).Floor
  }

  /** `n.toString().padStart(3, '0')`. */
  function Suffix(n: nat): (r: string)
    requires n < 1000
    ensures |r| == 3
    ensures IsDecimal(r)
  {
    NumeralBelowThousand(n);
    NatToStringIsDecimal(n);
    PadStart(NatToString(n), 3, '0')
  }

  /** The zero-padded suffix still reads as the drawn number. */
  lemma SuffixValue(n: nat)
    requires n < 1000
    ensures ParseInt(Suffix(n)) == Some(n)
  {
    var numeral := NatToString(n);
    NumeralBelowThousand(n);
    var r := Suffix(n);
    assert r == ZeroRun(3 - |numeral|) + numeral by {
      assert Repeat('0', 3 - |numeral|) == ZeroRun(3 - |numeral|);
    }
    LeadingZerosValue(3 - |numeral|, numeral, 10);
    NatToStringValue(n);
    ParseDecimal(r);
  }

  const Prefix := "PAY-"

  /** `generateReference`: `PAY-`, the year, a dash and the three-digit suffix. */
  function Reference(year: int, n: nat): (r: string)
    requires n < 1000
  {
    Prefix + IntToString(year) + (['-'] + Suffix(n))
  }

  /** The reference starts with `PAY-` and spells the year between that and the dash. */
  lemma ReferenceHead(year: int, n: nat)
    requires n < 1000
    ensures var r := Reference(year, n);
      StartsWith(r, Prefix) && |r| == |IntToString(year)| + 8 && r[4..|r| - 4] == IntToString(year)
  {
    Parts(Prefix, IntToString(year), ['-'] + Suffix(n));
  }

  /** The reference ends with a dash and the three-digit suffix. */
  lemma ReferenceTail(year: int, n: nat)
    requires n < 1000
    ensures var r := Reference(year, n);
      r[|r| - 4] == '-' && r[|r| - 3..] == Suffix(n)
  {
    var head, s := Prefix + IntToString(year), Suffix(n);
    assert Reference(year, n) == head + (['-'] + s);
    DashTail(head, s);
  }

  lemma DashTail(head: string, s: string)
    requires |s| == 3
    ensures var r := head + (['-'] + s);
      r[|r| - 4] == '-' && r[|r| - 3..] == s
  {
    var r := head + (['-'] + s);
    assert r[|r| - 3..] == s;
  }

  /** Where the three parts of a concatenation sit. */
  lemma Parts(a: string, b: string, c: string)
    ensures var r := a + b + c;
      r[..|a|] == a && r[|a|..|a| + |b|] == b && r[|a| + |b|..] == c
  {
  }

  /** Reads a reference back into its year and number; `None` for anything else. */
  function ParseReference(r: string): (parsed: Option<(int, nat)>)
    ensures parsed.Some? ==> parsed.value.1 < 1000
  {
    if |r| < 8 || !StartsWith(r, Prefix) || r[|r| - 4] != '-' then None
    else
      var suffix := r[|r| - 3..];
      if !IsDecimal(suffix) then None
      else
        match (ParseInt(r[4..|r| - 4]), ParseInt(suffix))
        case (Some(year), Some(n)) => if 0 <= n < 1000 then Some((year, n as nat)) else None
        case _ => None
  }

  /** Round trip: the year and the drawn number can be read back from every reference. */
  lemma ReferenceRoundTrip(year: int, n: nat)
    requires n < 1000
    ensures ParseReference(Reference(year, n)) == Some((year, n))
  {
    ReferenceHead(year, n);
    ReferenceTail(year, n);
    SuffixValue(n);
    ParseIntOfIntToString(year);
  }

  /** Whatever the draw, the number part is exactly three decimal digits. */
  lemma SuffixAlwaysThreeDigits(year: int, draw: real)
    requires 0.0 <= draw < 1.0
    ensures var r := Reference(year, DrawNumber(draw));
      |r| == |IntToString(year)| + 8 && IsDecimal(r[|r| - 3..])
  {
    ReferenceHead(year, DrawNumber(draw));
    ReferenceTail(year, DrawNumber(draw));
  }

  /** The payment handed to `onAdd`, before the form is reset. */
  function NewPayment(f: Form, id: int, year: int, draw: real, amount: int): (p: Payment)
    requires 0.0 <= draw < 1.0
    ensures p.status == "pending" && p.id == id && p.amount == amount
    ensures p.payer == f.payer && p.paymentMethod == f.paymentMethod && p.date == f.date
    ensures p.description == Some(f.description)
    ensures ParseReference(p.reference) == Some((year, DrawNumber(draw)))
  {
    ReferenceRoundTrip(year, DrawNumber(draw));
    Payment(id, Reference(year, DrawNumber(draw)), f.payer, amount, f.paymentMethod, f.date,
            Some(f.description), "pending")
  }

  /** `handleSubmit` once its delay has passed, behind the browser's check of the four
      `required` inputs (payer, amount, method, date): the new payment and the reset form;
      nothing while the dialog is closed or a required input is empty. */
  function Submit(isOpen: bool, f: Form, id: int, year: int, draw: real, amount: int): (r: Submission<(Payment, Form)>)
    requires 0.0 <= draw < 1.0
    ensures r.NotRendered? <==> !isOpen
    ensures r.Blocked? <==> isOpen && (f.payer == "" || f.amount == "" || f.paymentMethod == "" || f.date == "")
    ensures r.Submitted? ==> r.value.0 == NewPayment(f, id, year, draw, amount) && r.value.1 == EmptyForm
  {
    if !isOpen then NotRendered
    else if f.payer == "" || f.amount == "" || f.paymentMethod == "" || f.date == "" then Blocked
    else Submitted((NewPayment(f, id, year, draw, amount), EmptyForm))
  }

  /** The form a submit resets to cannot be submitted again until it is refilled. */
  lemma ResubmitIsBlocked(id: int, year: int, draw: real, amount: int)
    requires 0.0 <= draw < 1.0
    ensures Submit(true, EmptyForm, id, year, draw, amount).Blocked?
  {
  }

  /** A freshly recorded payment heads the list with a pending badge and the clock icon. */
  lemma RecordedPaymentShowsPending(s: State, f: Form, id: int, year: int, draw: real, amount: int)
    requires 0.0 <= draw < 1.0
    ensures var p := NewPayment(f, id, year, draw, amount);
      AddPayment(s, p).payments[0] == p &&
      StatusVariant(p.status) == Warning && StatusIcon(p.status) == Some(Clock)
  {
  }
}

=== FILE: add_role_modal.dfy ===
/**
 * The modal that adds a role: a name and a set of permission checkboxes. Submitting
 * sends a role whose permission summary lists the checked permissions' labels in the
 * order of the option table, joined with ", ", or "No permissions" when nothing is
 * checked, and then empties the form.
 */
module AddRoleModal {
  import opened Seqs
  import opened Text
  import opened Ui

  datatype Permission = Permission(id: string, title: string)

  /** The checkboxes, in display order. */
  const Options: seq<Permission> := [
    Permission("view_dashboard", "View Dashboard"),
    Permission("manage_users", "Manage Users"),
    Permission("manage_members", "Manage Members"),
    Permission("manage_clergy", "Manage Clergy"),
    Permission("manage_finance", "Manage Finance"),
    Permission("manage_events", "Manage Events"),
    Permission("manage_reports", "Generate Reports"),
    Permission("manage_settings", "Manage Settings")
  ]

  /** The role handed to the page. */
  datatype Role = Role(name: string, users: int, permissions: string)

  datatype Form = Form(name: string, selected: seq<string>)

  function IsNot(id: string): string -> bool
  {
    x => x != id
  }

  /** `handlePermissionChange`: checking appends the id; unchecking removes every copy of it. */
  function Toggle(selected: seq<string>, id: string, checked: bool): (r: seq<string>)
    ensures checked ==> r == selected + [id]
    ensures !checked ==> id !in r && |r| <= |selected|
    ensures !checked ==> forall x :: x != id ==> (x in r <==> x in selected)
  {
    if checked then selected + [id] else Filter(selected, IsNot(id))
  }

  /** Unchecking removes every copy and keeps the others in order: the filter distributes over concatenation. */
  lemma UncheckKeepsOrder(xs: seq<string>, ys: seq<string>, id: string)
    ensures Toggle(xs + ys, id, false) == Toggle(xs, id, false) + Toggle(ys, id, false)
  {
    FilterAppend(xs, ys, IsNot(id));
  }

  /** Checking a fresh permission and unchecking it again restores the selection. */
  lemma {:induction false} CheckThenUncheck(selected: seq<string>, id: string)
    requires id !in selected
    ensures Toggle(Toggle(selected, id, true), id, false) == selected
  {
    FilterAppend(selected, [id], IsNot(id));
    FilterKeepsAll(selected, IsNot(id));
    assert [id][1..] == [];
  }

  /** The labels of the options whose id is selected, in option order. */
  function Labels(opts: seq<Permission>, selected: seq<string>): (r: seq<string>)
    ensures |r| <= |opts|
  {
    if |opts| == 0 then []
    else (if opts[0].id in selected then [opts[0].title] else []) + Labels(opts[1..], selected)
  }

  /** A label is listed exactly when some option carrying it has its id selected. */
  lemma {:induction false} LabelsMembership(opts: seq<Permission>, selected: seq<string>)
    ensures forall l :: l in Labels(opts, selected) <==>
      exists i :: 0 <= i < |opts| && opts[i].id in selected && opts[i].title == l
  {
    if |opts| > 0 {
      var rest := Labels(opts[1..], selected);
      LabelsMembership(opts[1..], selected);
      forall l | l in rest
        ensures exists i :: 1 <= i < |opts| && opts[i].id in selected && opts[i].title == l
      {
        var j :| 0 <= j < |opts[1..]| && opts[1..][j].id in selected && opts[1..][j].title == l;
        assert opts[j + 1] == opts[1..][j];
      }
      forall l | exists i :: 1 <= i < |opts| && opts[i].id in selected && opts[i].title == l
        ensures l in rest
      {
        var i :| 1 <= i < |opts| && opts[i].id in selected && opts[i].title == l;
        assert opts[1..][i - 1] == opts[i];
      }
    }
  }

  /** The summary follows the option table: labels of earlier options come first. */
  lemma {:induction false} LabelsFollowOptionOrder(a: seq<Permission>, b: seq<Permission>, selected: seq<string>)
    ensures Labels(a + b, selected) == Labels(a, selected) + Labels(b, selected)
  {
    if |a| == 0 {
      assert a + b == b;
    } else {
      var ab := a + b;
      assert ab[0] == a[0] && ab[1..] == a[1..] + b;
      LabelsFollowOptionOrder(a[1..], b, selected);
      var head := if a[0].id in selected then [a[0].title] else [];
      var la, lb := Labels(a[1..], selected), Labels(b, selected);
      assert Labels(ab, selected) == head + (la + lb);
      assert Labels(a, selected) == head + la;
      assert head + (la + lb) == (head + la) + lb;
    }
  }

  /** Only which ids are selected matters: not their order, nor repeats. */
  lemma {:induction false} LabelsDependOnMembershipOnly(opts: seq<Permission>, s1: seq<string>, s2: seq<string>)
    requires forall x :: x in s1 <==> x in s2
    ensures Labels(opts, s1) == Labels(opts, s2)
  {
    if |opts| > 0 {
      LabelsDependOnMembershipOnly(opts[1..], s1, s2);
    }
  }

  /** No two options share a label. */
  predicate DistinctLabels(opts: seq<Permission>)
  {
    forall i, j :: 0 <= i < j < |opts| ==> opts[i].title != opts[j].title
  }

  predicate NoRepeats(xs: seq<string>)
  {
    forall i, j :: 0 <= i < j < |xs| ==> xs[i] != xs[j]
  }

  /** With distinct option labels, each label appears at most once, however often its id was checked. */
  lemma {:induction false} LabelsAppearOnce(opts: seq<Permission>, selected: seq<string>)
    requires DistinctLabels(opts)
    ensures NoRepeats(Labels(opts, selected))
  {
    if |opts| > 0 {
      var rest := Labels(opts[1..], selected);
      LabelsAppearOnce(opts[1..], selected);
      LabelsMembership(opts[1..], selected);
      if opts[0].id in selected {
        assert opts[0].title !in rest;
        var r := [opts[0].title] + rest;
        forall i, j | 0 <= i < j < |r|
          ensures r[i] != r[j]
        {
          if i == 0 {
            assert r[j] == rest[j - 1];
            assert r[j] in rest;
          } else {
            assert r[i] == rest[i - 1] && r[j] == rest[j - 1];
          }
        }
      }
    }
  }

  lemma OptionLabelsDistinct()
    ensures DistinctLabels(Options)
  {
  }

  /** Every option label is non-empty and none begins with 'N'. */
  lemma OptionTitlesAvoidN()
    ensures forall i :: 0 <= i < |Options| ==> |Options[i].title| > 0 && Options[i].title[0] != 'N'
  {
  }

  /** No joined list of option labels reads "No permissions": it is empty, or it begins
      with the first letter of an option label. */
  lemma JoinedLabelsAreNotTheDefault(selected: seq<string>)
    ensures Join(Labels(Options, selected), ", ") != "No permissions"
  {
    var labels := Labels(Options, selected);
    if |labels| > 0 {
      LabelsMembership(Options, selected);
      assert labels[0] in labels;
      var j :| 0 <= j < |Options| && Options[j].id in selected && Options[j].title == labels[0];
      OptionTitlesAvoidN();
      JoinStartsWithFirst(labels, ", ");
      assert Join(labels, ", ")[0] == labels[0][0];
    }
  }

  /** With distinct labels, an option's label is listed exactly when its own id is checked. */
  lemma OptionListedIffChecked(selected: seq<string>, i: nat)
    requires i < |Options|
    ensures Options[i].title in Labels(Options, selected) <==> Options[i].id in selected
  {
    LabelsMembership(Options, selected);
    OptionLabelsDistinct();
    if Options[i].title in Labels(Options, selected) {
      var j :| 0 <= j < |Options| && Options[j].id in selected && Options[j].title == Options[i].title;
      assert j == i;
    }
  }

  /** The permissions text of `handleSubmit`: "No permissions" exactly when nothing is
      checked; otherwise the listed labels joined with ", ", where an option's label is
      listed exactly when its id is checked. */
  function Summary(selected: seq<string>): (r: string)
    ensures r == "No permissions" <==> |selected| == 0
    ensures |selected| > 0 ==> r == Join(Labels(Options, selected), ", ")
    ensures forall i :: 0 <= i < |Options| ==>
      (Options[i].title in Labels(Options, selected) <==> Options[i].id in selected)
  {
    JoinedLabelsAreNotTheDefault(selected);
    forall i | 0 <= i < |Options|
      ensures Options[i].title in Labels(Options, selected) <==> Options[i].id in selected
    {
      OptionListedIffChecked(selected, i);
    }
    if |selected| > 0 then Join(Labels(Options, selected), ", ") else "No permissions"
  }

  /** Checking in a different order, or checking a permission twice, gives the same summary. */
  lemma SummaryIgnoresOrderAndRepeats(s1: seq<string>, s2: seq<string>)
    requires forall x :: x in s1 <==> x in s2
    ensures Summary(s1) == Summary(s2)
  {
    LabelsDependOnMembershipOnly(Options, s1, s2);
    if |s1| > 0 {
      assert s1[0] in s2;
    }
    if |s2| > 0 {
      assert s2[0] in s1;
    }
  }

  /** Options none of whose ids is selected contribute no label. */
  lemma {:induction false} LabelsOfUnselected(opts: seq<Permission>, selected: seq<string>)
    requires forall i :: 0 <= i < |opts| ==> opts[i].id !in selected
    ensures Labels(opts, selected) == []
  {
    if |opts| > 0 {
      LabelsOfUnselected(opts[1..], selected);
    }
  }

  /** `handleSubmit` behind the dialog and the browser's check of the `required` name
      input: the new role and the emptied form. */
  function Submit(isOpen: bool, f: Form): (r: Submission<(Role, Form)>)
    ensures r.NotRendered? <==> !isOpen
    ensures r.Blocked? <==> isOpen && f.name == ""
    ensures r.Submitted? ==> r.value.0.name == f.name && r.value.0.users == 0
    ensures r.Submitted? ==> r.value.0.permissions == Summary(f.selected)
    ensures r.Submitted? ==> r.value.1 == Form("", [])
  {
    if !isOpen then NotRendered
    else if f.name == "" then Blocked
    else Submitted((Role(f.name, 0, Summary(f.selected)), Form("", [])))
  }

  /** The emptied form cannot be submitted again until a name is typed. */
  lemma ResubmitIsBlocked(f: Form)
    requires Submit(true, f).Submitted?
    ensures Submit(true, Submit(true, f).value.1).Blocked?
  {
  }
}

=== FILE: bulk_sms.dfy ===
/**
 * The Bulk SMS page: a compose form that "sends" a message to a recipient, and a
 * template list with create, edit, delete and use. The send and save handlers reject
 * empty fields with a toast and no state change. The send delay is collapsed into one
 * step; the `Date.now()` id of a new template is a parameter.
 *
 * `if (currentTemplateId)` tests truthiness, so an id equal to the empty string would
 * create a new template rather than update; the templates' ids are never empty in
 * practice, and the update round trip below assumes a non-empty id.
 */
module BulkSms {
  import opened Wrappers
  import opened KeyedList
  import opened Numbers

  datatype Template = Template(id: string, name: string, content: string)

  function TemplateId(t: Template): string
  {
    t.id
  }

  datatype Tab = Compose | Templates | History

  datatype State = State(
    tab: Tab,
    templates: seq<Template>,
    recipient: string,
    message: string,
    editing: bool,
    currentId: Option<string>,
    name: string,
    content: string)

  function Initial(templates: seq<Template>): (s: State)
    ensures s.tab == Compose && s.templates == templates
    ensures s.recipient == "" && s.message == ""
    ensures !s.editing && s.currentId == None && s.name == "" && s.content == ""
  {
    State(Compose, templates, "", "", false, None, "", "")
  }

  /** The tab buttons. */
  function SelectTab(s: State, t: Tab): (r: State)
    ensures r.tab == t
    ensures r.(tab := s.tab) == s
  {
    s.(tab := t)
  }

  /** Sending needs a recipient and a message. */
  predicate CanSend(s: State)
  {
    s.recipient != "" && s.message != ""
  }

  /** `handleSendSMS`: rejected with no change when a field is empty; on success both fields clear. */
  function SendSms(s: State): (r: State)
    ensures !CanSend(s) ==> r == s
    ensures CanSend(s) ==> r.recipient == "" && r.message == ""
    ensures r.(recipient := s.recipient, message := s.message) == s
  {
    if !CanSend(s) then s else s.(message := "", recipient := "")
  }

  /** A second send right after a successful one is rejected. */
  lemma SendTwiceRejectsSecond(s: State)
    requires CanSend(s)
    ensures !CanSend(SendSms(s)) && SendSms(SendSms(s)) == SendSms(s)
  {
  }

  /** `handleUseTemplate`: the template's content becomes the message, on the compose tab. */
  function UseTemplate(s: State, t: Template): (r: State)
    ensures r.message == t.content && r.tab == Compose
    ensures r.templates == s.templates
    ensures r.(message := s.message, tab := s.tab) == s
  {
    s.(message := t.content, tab := Compose)
  }

  /** `handleDeleteTemplate`: every template with the id goes, the others stay in order. */
  function DeleteTemplate(s: State, id: string): (r: State)
    ensures forall t :: t in r.templates <==> t in s.templates && t.id != id
    ensures (forall i :: 0 <= i < |s.templates| ==> s.templates[i].id != id) ==> r.templates == s.templates
    ensures r.(templates := s.templates) == s
  {
    var kept := DeleteById(s.templates, id, TemplateId);
    assert (forall i :: 0 <= i < |s.templates| ==> s.templates[i].id != id) ==> kept == s.templates by {
      if forall i :: 0 <= i < |s.templates| ==> s.templates[i].id != id {
        DeleteUnknownIsIdentity(s.templates, id, TemplateId);
      }
    }
    s.(templates := kept)
  }

  /** Deleting keeps the surviving templates in order: it distributes over concatenation. */
  lemma DeleteTemplateKeepsOrder(xs: seq<Template>, ys: seq<Template>, id: string)
    ensures DeleteById(xs + ys, id, TemplateId) == DeleteById(xs, id, TemplateId) + DeleteById(ys, id, TemplateId)
  {
    DeleteAppend(xs, ys, id, TemplateId);
  }

  /** Saving needs a name and content. */
  predicate CanSave(s: State)
  {
    s.name != "" && s.content != ""
  }

  /** The editor closed and emptied, as after a save or a cancel. */
  predicate EditorReset(s: State)
  {
    !s.editing && s.currentId == None && s.name == "" && s.content == ""
  }

  /** `if (currentTemplateId)`: a present, non-empty id selects an update. */
  predicate Updating(s: State)
  {
    s.currentId.Some? && s.currentId.value != ""
  }

  /** The editor closed and emptied; everything else as it was. */
  function ResetEditor(s: State): (r: State)
    ensures EditorReset(r)
    ensures r.tab == s.tab && r.templates == s.templates && r.recipient == s.recipient && r.message == s.message
  {
    s.(editing := false, currentId := None, name := "", content := "")
  }

  /** `handleSaveTemplate`, with `now` standing for `Date.now()`. */
  function SaveTemplate(s: State, now: nat): (r: State)
    ensures !CanSave(s) ==> r == s
    ensures CanSave(s) ==> EditorReset(r)
    ensures CanSave(s) && Updating(s) ==>
      |r.templates| == |s.templates| &&
      forall i :: 0 <= i < |s.templates| ==>
        r.templates[i].id == s.templates[i].id &&
        r.templates[i] == (if s.templates[i].id == s.currentId.value
                           then Template(s.templates[i].id, s.name, s.content)
                           else s.templates[i])
    ensures CanSave(s) && !Updating(s) ==>
      r.templates == s.templates + [Template(IntToString(now), s.name, s.content)]
    ensures r.tab == s.tab && r.recipient == s.recipient && r.message == s.message
  {
    if !CanSave(s) then s
    else if Updating(s) then
      ResetEditor(s.(templates := ReplaceById(s.templates, Template(s.currentId.value, s.name, s.content), TemplateId)))
    else
      ResetEditor(s.(templates := Append(s.templates, Template(IntToString(now), s.name, s.content))))
  }

  /** `prepareEditTemplate`: the editor opens on the template. */
  function PrepareEdit(s: State, t: Template): (r: State)
    ensures r.editing && r.currentId == Some(t.id) && r.name == t.name && r.content == t.content
    ensures r.templates == s.templates
    ensures r.tab == s.tab && r.recipient == s.recipient && r.message == s.message
  {
    s.(name := t.name, content := t.content, currentId := Some(t.id), editing := true)
  }

  /** The Cancel button of the editor. */
  function Cancel(s: State): (r: State)
    ensures EditorReset(r)
    ensures r.templates == s.templates
  {
    ResetEditor(s)
  }

  /** Opening a template in the editor and saving it unchanged leaves the list as it was. */
  lemma EditRoundTrip(s: State, i: nat, now: nat)
    requires i < |s.templates|
    requires UniqueKeys(s.templates, TemplateId)
    requires s.templates[i].id != ""
    ensures SaveTemplate(PrepareEdit(s, s.templates[i]), now).templates == s.templates
  {
    var t := s.templates[i];
    if t.name != "" && t.content != "" {
      assert Template(t.id, t.name, t.content) == t;
      ReplaceWithSelfIsIdentity(s.templates, i, TemplateId);
    }
  }

  /** An update keeps every id, so the set of ids on the page is unchanged. */
  lemma UpdateKeepsIds(s: State, now: nat)
    requires CanSave(s) && Updating(s)
    ensures forall i :: 0 <= i < |s.templates| ==> SaveTemplate(s, now).templates[i].id == s.templates[i].id
  {
  }

  /** After any successful save or a cancel, saving again is rejected until something is typed. */
  lemma SaveAfterResetIsRejected(s: State, now: nat, later: nat)
    requires CanSave(s)
    ensures SaveTemplate(SaveTemplate(s, now), later) == SaveTemplate(s, now)
    ensures SaveTemplate(Cancel(s), later) == Cancel(s)
  {
  }
}

=== FILE: calendar.dfy ===
/**
 * The proleptic Gregorian arithmetic behind JavaScript's `Date`, as ECMA-262 5.1
 * section 15.9.1 defines it (day numbers count from 1 January 1970), and the
 * `new Date(year, month, date)` constructor of section 15.9.3.1, which carries an
 * out-of-range month into the year and an out-of-range date into the month.
 * Local time is taken to be UTC: the time-zone offset does not move a midnight
 * to another calendar day in the model.
 */
module Calendar {

  /** DayFromYear (section 15.9.1.3): the day number of 1 January of year `y`. */
  function DayFromYear(y: int): int
  {
    365 * (y - 1970) + (y - 1969) / 4 - (y - 1901) / 100 + (y - 1601) / 400
  }

  /** DaysInYear (section 15.9.1.3). */
  function DaysInYear(y: int): int
  {
    if y % 4 != 0 then 365
    else if y % 100 != 0 then 366
    else if y % 400 != 0 then 365
    else 366
  }

  predicate InLeapYear(y: int)
  {
    DaysInYear(y) == 366
  }

  /** The Gregorian leap-year rule, stated independently of DaysInYear. */
  lemma LeapYearRule(y: int)
    ensures InLeapYear(y) <==> (y % 4 == 0 && y % 100 != 0) || y % 400 == 0
  {
  }

  /** Consecutive years are DaysInYear apart. */
  lemma DayFromYearStep(y: int)
    ensures DayFromYear(y + 1) == DayFromYear(y) + DaysInYear(y)
  {
    var a, b, c := y - 1969, y - 1901, y - 1601;
    var i4 := if y % 4 == 0 then 1 else 0;
    var i100 := if y % 100 == 0 then 1 else 0;
    var i400 := if y % 400 == 0 then 1 else 0;
    assert (a + 1) / 4 == a / 4 + i4 by {
      DivSucc4(a);
      Shift4(y);
    }
    assert (b + 1) / 100 == b / 100 + i100 by {
      DivSucc100(b);
      Shift100(y);
    }
    assert (c + 1) / 400 == c / 400 + i400 by {
      DivSucc400(c);
      Shift400(y);
    }
    assert DaysInYear(y) == 365 + i4 - i100 + i400 by {
      Divisibility(y);
    }
  }

  /** `x` is `q` times `d` plus `r`, for the three divisors of the leap-year rule, the
      week and the year of months. */
  lemma DivMod4(x: int, q: int, r: int)
    requires 0 <= r < 4 && x == 4 * q + r
    ensures x / 4 == q && x % 4 == r
  {
  }

  lemma DivMod100(x: int, q: int, r: int)
    requires 0 <= r < 100 && x == 100 * q + r
    ensures x / 100 == q && x % 100 == r
  {
  }

  lemma DivMod400(x: int, q: int, r: int)
    requires 0 <= r < 400 && x == 400 * q + r
    ensures x / 400 == q && x % 400 == r
  {
  }

  lemma DivSucc4(x: int)
    ensures (x + 1) / 4 == x / 4 + (if x % 4 == 3 then 1 else 0)
  {
    var q, r := x / 4, x % 4;
    if r == 3 {
      DivMod4(x + 1, q + 1, 0);
    } else {
      DivMod4(x + 1, q, r + 1);
    }
  }

  lemma DivSucc100(x: int)
    ensures (x + 1) / 100 == x / 100 + (if x % 100 == 99 then 1 else 0)
  {
    var q, r := x / 100, x % 100;
    if r == 99 {
      DivMod100(x + 1, q + 1, 0);
    } else {
      DivMod100(x + 1, q, r + 1);
    }
  }

  lemma DivSucc400(x: int)
    ensures (x + 1) / 400 == x / 400 + (if x % 400 == 399 then 1 else 0)
  {
    var q, r := x / 400, x % 400;
    if r == 399 {
      DivMod400(x + 1, q + 1, 0);
    } else {
      DivMod400(x + 1, q, r + 1);
    }
  }

  /** The epoch offsets of DayFromYear line the remainders up with the leap-year rule. */
  lemma Shift4(y: int)
    ensures (y - 1969) % 4 == 3 <==> y % 4 == 0
  {
    var q, r := y / 4, y % 4;
    if r == 0 {
      DivMod4(y - 1969, q - 493, 3);
    } else {
      DivMod4(y - 1969, q - 492, r - 1);
    }
  }

  lemma Shift100(y: int)
    ensures (y - 1901) % 100 == 99 <==> y % 100 == 0
  {
    var q, r := y / 100, y % 100;
    if r == 0 {
      DivMod100(y - 1901, q - 20, 99);
    } else {
      DivMod100(y - 1901, q - 19, r - 1);
    }
  }

  lemma Shift400(y: int)
    ensures (y - 1601) % 400 == 399 <==> y % 400 == 0
  {
    var q, r := y / 400, y % 400;
    if r == 0 {
      DivMod400(y - 1601, q - 5, 399);
    } else {
      DivMod400(y - 1601, q - 4, r - 1);
    }
  }

  /** Every multiple of 400 is one of 100, and every multiple of 100 one of 4. */
  lemma Divisibility(y: int)
    ensures y % 400 == 0 ==> y % 100 == 0
    ensures y % 100 == 0 ==> y % 4 == 0
  {
    if y % 400 == 0 {
      DivMod100(y, 4 * (y / 400), 0);
    }
    if y % 100 == 0 {
      DivMod4(y, 25 * (y / 100), 0);
    }
  }

  /** Later years start on later days. */
  lemma {:induction false} DayFromYearMonotone(a: int, b: int)
    requires a < b
    ensures DayFromYear(a + 1) <= DayFromYear(b)
    decreases b - a
  {
    DayFromYearStep(b - 1);
    if a < b - 1 {
      DayFromYearMonotone(a, b - 1);
    }
  }

  /** The day within a common year on which each month begins (section 15.9.1.4);
      the thirteenth entry is the length of the year. */
  const CommonMonthStarts: seq<int> := [0, 31, 59, 90, 120, 151, 181, 212, 243, 273, 304, 334, 365]

  /** The day within the year on which month `m` begins; from March on a leap year
      is one day further. `m` = 12 gives the length of the year. */
  function MonthStart(m: int, leap: bool): int
    requires 0 <= m <= 12
  {
    CommonMonthStarts[m] + (if leap && m >= 2 then 1 else 0)
  }

  /** The Gregorian month lengths: thirty days hath September, April, June and November. */
  function MonthLength(y: int, m: int): (n: int)
    requires 0 <= m < 12
    ensures 28 <= n <= 31
    ensures m == 1 ==> (n == 29 <==> InLeapYear(y))
  {
    if m == 1 then (if InLeapYear(y) then 29 else 28)
    else if m == 3 || m == 5 || m == 8 || m == 10 then 30
    else 31
  }

  /** Section 15.9.1.4's month starts agree with the month lengths. */
  lemma MonthStartStep(y: int, m: int)
    requires 0 <= m < 12
    ensures MonthStart(m + 1, InLeapYear(y)) == MonthStart(m, InLeapYear(y)) + MonthLength(y, m)
    ensures MonthStart(12, InLeapYear(y)) == DaysInYear(y)
  {
  }

  /** The day number of date `d` of month `m`, already in range, of year `y`. */
  function DateDay(y: int, m: int, d: int): int
    requires 0 <= m < 12
  {
    DayFromYear(y) + MonthStart(m, InLeapYear(y)) + d - 1
  }

  /** MakeDay (section 15.9.1.12): the day number of `date` in month `month` of `year`,
      where the month is first carried into the year. */
  function MakeDay(year: int, month: int, date: int): int
  {
    DateDay(year + month / 12, month % 12, date)
  }

  /** WeekDay (section 15.9.1.6): 0 is Sunday; 1 January 1970 was a Thursday. */
  function WeekDay(day: int): (r: int)
    ensures 0 <= r < 7
  {
    (day + 4) % 7
  }

  /** What getFullYear, getMonth and getDate report. */
  datatype CalendarDate = CalendarDate(year: int, month: int, day: int)

  predicate Valid(d: CalendarDate)
  {
    0 <= d.month < 12 && 1 <= d.day <= MonthLength(d.year, d.month)
  }

  function DayNumber(d: CalendarDate): int
  {
    MakeDay(d.year, d.month, d.day)
  }

  /** `d.getDay()`. */
  function DayOfWeek(d: CalendarDate): int
  {
    WeekDay(DayNumber(d))
  }

  lemma DivMod12(x: int, q: int, r: int)
    requires 0 <= r < 12 && x == 12 * q + r
    ensures x / 12 == q && x % 12 == r
  {
  }

  /** For a month already in range MakeDay carries nothing. */
  lemma MakeDayInRange(y: int, m: int, d: int)
    requires 0 <= m < 12
    ensures MakeDay(y, m, d) == DateDay(y, m, d)
  {
    DivMod12(m, 0, m);
  }

  /** Within a month the day number moves one for one with the date. */
  lemma DateDayShift(y: int, m: int, d: int, k: int)
    requires 0 <= m < 12
    ensures DateDay(y, m, d + k) == DateDay(y, m, d) + k
  {
  }

  function PrevMonthOf(y: int, m: int): (int, int)
  {
    if m == 0 then (y - 1, 11) else (y, m - 1)
  }

  function NextMonthOf(y: int, m: int): (int, int)
  {
    if m == 11 then (y + 1, 0) else (y, m + 1)
  }

  /** The first day of the following month comes `MonthLength` days after the first of this one. */
  lemma MonthStep(y: int, m: int)
    requires 0 <= m < 12
    ensures var (ny, nm) := NextMonthOf(y, m);
      0 <= nm < 12 && DateDay(y, m, 1) + MonthLength(y, m) == DateDay(ny, nm, 1)
  {
    MonthStartStep(y, m);
    if m == 11 {
      DayFromYearStep(y);
    }
  }

  /** The first of the following month falls MonthLength days of the week later. */
  lemma WeekDayAfterMonth(y: int, m: int)
    requires 0 <= m < 12
    ensures var (ny, nm) := NextMonthOf(y, m);
      WeekDay(MakeDay(ny, nm, 1)) == (WeekDay(MakeDay(y, m, 1)) + MonthLength(y, m)) % 7
  {
    var (ny, nm) := NextMonthOf(y, m);
    var t, u := DateDay(y, m, 1), DateDay(ny, nm, 1);
    assert MakeDay(y, m, 1) == t by {
      MakeDayInRange(y, m, 1);
    }
    assert MakeDay(ny, nm, 1) == u by {
      MakeDayInRange(ny, nm, 1);
    }
    MonthStep(y, m);
    WeekDayShift(t, MonthLength(y, m), u);
  }

  /** Moving `k` days on moves the day of the week `k` places round the week. */
  lemma WeekDayShift(t: int, k: int, u: int)
    requires u == t + k
    ensures WeekDay(u) == (WeekDay(t) + k) % 7
  {
    var q, r := (t + 4) / 7, (t + 4) % 7;
    var q2, r2 := (r + k) / 7, (r + k) % 7;
    DivMod7(u + 4, q + q2, r2);
  }

  lemma DivMod7(x: int, q: int, r: int)
    requires 0 <= r < 7 && x == 7 * q + r
    ensures x / 7 == q && x % 7 == r
  {
  }

  /** A valid date lies within its own year. */
  lemma WithinYear(d: CalendarDate)
    requires Valid(d)
    ensures DayFromYear(d.year) <= DateDay(d.year, d.month, d.day) < DayFromYear(d.year + 1)
  {
    MonthStartStep(d.year, d.month);
    DayFromYearStep(d.year);
    MonthStartMonotone(d.month + 1, 12, InLeapYear(d.year));
  }

  lemma MonthStartMonotone(a: int, b: int, leap: bool)
    requires 0 <= a <= b <= 12
    ensures MonthStart(a, leap) <= MonthStart(b, leap)
    ensures a < b ==> MonthStart(a, leap) < MonthStart(b, leap)
  {
  }

  /** A day number names exactly one valid calendar date, so the getters are well defined. */
  lemma DayNumberInjective(a: CalendarDate, b: CalendarDate)
    requires Valid(a) && Valid(b)
    requires DayNumber(a) == DayNumber(b)
    ensures a == b
  {
    MakeDayInRange(a.year, a.month, a.day);
    MakeDayInRange(b.year, b.month, b.day);
    SameYear(a, b);
    SameYearSameMonth(a.year, a.month, a.day, b.month, b.day);
  }

  lemma SameYear(a: CalendarDate, b: CalendarDate)
    requires Valid(a) && Valid(b)
    requires DateDay(a.year, a.month, a.day) == DateDay(b.year, b.month, b.day)
    ensures a.year == b.year
  {
    if a.year < b.year {
      EarlierYearEarlierDay(a, b);
    } else if b.year < a.year {
      EarlierYearEarlierDay(b, a);
    }
  }

  /** Every day of an earlier year comes before every day of a later one. */
  lemma EarlierYearEarlierDay(a: CalendarDate, b: CalendarDate)
    requires Valid(a) && Valid(b)
    requires a.year < b.year
    ensures DateDay(a.year, a.month, a.day) < DateDay(b.year, b.month, b.day)
  {
    WithinYear(a);
    WithinYear(b);
    DayFromYearMonotone(a.year, b.year);
  }

  lemma SameYearSameMonth(y: int, m1: int, d1: int, m2: int, d2: int)
    requires 0 <= m1 < 12 && 1 <= d1 <= MonthLength(y, m1)
    requires 0 <= m2 < 12 && 1 <= d2 <= MonthLength(y, m2)
    requires MonthStart(m1, InLeapYear(y)) + d1 == MonthStart(m2, InLeapYear(y)) + d2
    ensures m1 == m2 && d1 == d2
  {
    var leap := InLeapYear(y);
    MonthStartStep(y, m1);
    MonthStartStep(y, m2);
    if m1 < m2 {
      MonthStartMonotone(m1 + 1, m2, leap);
      assert false;
    }
    if m2 < m1 {
      MonthStartMonotone(m2 + 1, m1, leap);
      assert false;
    }
  }

  /** Carries a date outside month `m` of year `y` into the neighbouring months. */
  function NormalizeDay(y: int, m: int, d: int): (r: CalendarDate)
    requires 0 <= m < 12
    ensures Valid(r)
    ensures DateDay(r.year, r.month, r.day) == DateDay(y, m, d)
    ensures 1 <= d <= MonthLength(y, m) ==> r == CalendarDate(y, m, d)
    decreases if d < 1 then 1 else 0, if d < 1 then -d else d
  {
    if d < 1 then
      var (py, pm) := PrevMonthOf(y, m);
      ShiftIntoPrevMonth(y, m, d);
      NormalizeDay(py, pm, d + MonthLength(py, pm))
    else if d > MonthLength(y, m) then
      var (ny, nm) := NextMonthOf(y, m);
      ShiftIntoNextMonth(y, m, d);
      NormalizeDay(ny, nm, d - MonthLength(y, m))
    else
      CalendarDate(y, m, d)
  }

  lemma ShiftIntoPrevMonth(y: int, m: int, d: int)
    requires 0 <= m < 12
    ensures var (py, pm) := PrevMonthOf(y, m);
      0 <= pm < 12 && DateDay(py, pm, d + MonthLength(py, pm)) == DateDay(y, m, d)
  {
    var (py, pm) := PrevMonthOf(y, m);
    var k := MonthLength(py, pm);
    MonthStep(py, pm);
    DateDayShift(py, pm, 1, d - 1 + k);
    DateDayShift(y, m, 1, d - 1);
  }

  lemma ShiftIntoNextMonth(y: int, m: int, d: int)
    requires 0 <= m < 12
    ensures var (ny, nm) := NextMonthOf(y, m);
      0 <= nm < 12 && DateDay(ny, nm, d - MonthLength(y, m)) == DateDay(y, m, d)
  {
    var (ny, nm) := NextMonthOf(y, m);
    var k := MonthLength(y, m);
    MonthStep(y, m);
    DateDayShift(ny, nm, 1, d - k - 1);
    DateDayShift(y, m, 1, d - 1);
  }

  /** The calendar date of MakeDay(year, month, date), for any integers. */
  function Normalize(year: int, month: int, date: int): (r: CalendarDate)
    ensures Valid(r)
    ensures DayNumber(r) == MakeDay(year, month, date)
  {
    var r := NormalizeDay(year + month / 12, month % 12, date);
    MakeDayInRange(r.year, r.month, r.day);
    r
  }

  /** Step 8 of `new Date(year, month, date)` (section 15.9.3.1): a year from 0 to 99
      stands for 1900 + year. */
  function FullYear(y: int): int
  {
    if 0 <= y <= 99 then 1900 + y else y
  }

  predicate TwoDigit(y: int)
  {
    0 <= y <= 99
  }

  /** `new Date(year, month, date)`, read back through getFullYear, getMonth and getDate. */
  function NewDate(year: int, month: int, date: int): (r: CalendarDate)
    ensures Valid(r)
    ensures DayNumber(r) == MakeDay(FullYear(year), month, date)
  {
    Normalize(FullYear(year), month, date)
  }

  /** A date already in range comes back unchanged from Normalize. */
  lemma NormalizeValid(d: CalendarDate)
    requires Valid(d)
    ensures Normalize(d.year, d.month, d.day) == d
  {
    assert d.year + d.month / 12 == d.year && d.month % 12 == d.month by {
      DivMod12(d.month, 0, d.month);
    }
  }

  /** `new Date(y, m + 1, 0)` is the last day of month `m`. */
  lemma DayZeroIsLastOfPreviousMonth(y: int, m: int)
    requires 0 <= m < 12
    ensures Normalize(y, m + 1, 0) == CalendarDate(y, m, MonthLength(y, m))
  {
    var (ny, nm) := NextMonthOf(y, m);
    CarryForward(m);
    assert PrevMonthOf(ny, nm) == (y, m);
  }

  /** The carry of one month forward from a month in range. */
  lemma CarryForward(m: int)
    requires 0 <= m < 12
    ensures (m + 1) / 12 == (if m == 11 then 1 else 0)
    ensures (m + 1) % 12 == (if m == 11 then 0 else m + 1)
  {
    if m == 11 {
      DivMod12(12, 1, 0);
    } else {
      DivMod12(m + 1, 0, m + 1);
    }
  }

  /** The carry of one month back from a month in range. */
  lemma CarryBack(m: int)
    requires 0 <= m < 12
    ensures (m - 1) / 12 == (if m == 0 then -1 else 0)
    ensures (m - 1) % 12 == (if m == 0 then 11 else m - 1)
  {
    if m == 0 {
      DivMod12(-1, -1, 11);
    } else {
      DivMod12(m - 1, 0, m - 1);
    }
  }

  /** Day 1 of month `m` of year `y` is in range for every month the carry can produce. */
  lemma FirstOfMonth(y: int, m: int)
    ensures Normalize(y, m, 1) == CalendarDate(y + m / 12, m % 12, 1)
  {
  }
}

=== FILE: clergy_details.dfy ===
/**
 * The clergy profile page: the record whose id matches the route, its avatar letter,
 * assignment line and years in ministry, and the save handler the edit modal calls;
 * its status badge is `Ui.ActiveBadge`. The route parameter arrives already converted by `Number(id)`: `None`
 * stands for NaN, which matches no record.
 */
module ClergyDetails {
  import opened Wrappers
  import opened Seqs
  import opened KeyedList
  import opened Text
  import opened Numbers
  import opened Ui
  import opened ClergyRecord

  /** The year the page counts from. */
  const ReferenceYear := 2024

  /** `clergyData.find(c => c.id === Number(id))`: the first record with the id; `None` is
      the not-found branch. */
  function Lookup(records: seq<Clergy>, id: Option<int>): (r: Option<Clergy>)
    ensures r.Some? ==> r.value in records && id == Some(r.value.id)
    ensures r.None? <==> id.None? || forall c :: c in records ==> c.id != id.value
  {
    match id
    case None => None
    case Some(k) => FindById(records, k, ClergyId)
  }

  /** With unique ids, the record found is the one at the id's position. */
  lemma LookupUnique(records: seq<Clergy>, i: nat)
    requires i < |records|
    requires UniqueKeys(records, ClergyId)
    ensures Lookup(records, Some(records[i].id)) == Some(records[i])
  {
    FindByIdUnique(records, i, ClergyId);
  }

  /** `handleSaveClergy`: every record with the saved id is replaced; length and order are kept. */
  function Save(records: seq<Clergy>, u: Clergy): (r: seq<Clergy>)
    ensures |r| == |records|
    ensures forall i :: 0 <= i < |records| ==> r[i] == (if records[i].id == u.id then u else records[i])
  {
    ReplaceById(records, u, ClergyId)
  }

  /** After a save, the page shows the saved record for its id if the id was present. */
  lemma SaveThenLookup(records: seq<Clergy>, u: Clergy)
    requires exists i :: 0 <= i < |records| && records[i].id == u.id
    ensures Lookup(Save(records, u), Some(u.id)) == Some(u)
  {
    ReplaceThenFindById(records, u, ClergyId);
  }

  /** The avatar letter: the first character of the last space-separated word of the name,
      or nothing when that word is empty. */
  function AvatarLetter(name: string): (r: Option<char>)
    ensures r.Some? ==> r.value in name && r.value != ' '
  {
    var w := LastPart(name, ' ');
    if |w| == 0 then None
    else
      assert w[0] in name by {
        var parts := Split(name, ' ');
        assert w == parts[|parts| - 1];
      }
      Some(w[0])
  }

  /** The letter is the initial of the surname, whatever precedes it. */
  lemma AvatarIsSurnameInitial(given: string, surname: string)
    requires |surname| > 0 && ' ' !in surname
    ensures AvatarLetter(given + " " + surname) == Some(surname[0])
  {
    LastPartAfterSeparator(given, ' ', surname);
  }

  /** The assignment line: the value shown and its label, with the same priority the edit
      modal uses to derive the assignment kind. */
  function AssignmentLine(c: Clergy): (r: (Option<string>, string))
    ensures r.0 == AssignmentOf(c)
    ensures r.1 == (if Truthy(c.conference) then "Conference" else if Truthy(c.district) then "District" else "Society")
  {
    (AssignmentOf(c), if Truthy(c.conference) then "Conference" else if Truthy(c.district) then "District" else "Society")
  }

  /** The label is the capitalised assignment kind of the edit modal. */
  lemma AssignmentLabelIsCapitalisedKind(c: Clergy)
    ensures AssignmentLine(c).1 == Capitalize(KindOf(c))
  {
  }

  /** `2024 - parseInt(clergy.ordained)`; `None` stands for NaN, shown when `ordained` is
      missing or does not start with a number. */
  function YearsInMinistry(c: Clergy): (r: Option<int>)
    ensures c.ordained.None? ==> r.None?
    ensures c.ordained.Some? ==> (r.Some? <==> ParseInt(c.ordained.value).Some?)
    ensures r.Some? ==> r.value == ReferenceYear - ParseInt(c.ordained.value).value
  {
    match c.ordained
    case None => None
    case Some(s) =>
      match ParseInt(s)
      case None => None
      case Some(y) => Some(ReferenceYear - y)
  }

  /** A year written as a number gives its distance from 2024. */
  lemma YearsInMinistryOfYear(c: Clergy, year: int)
    requires c.ordained == Some(IntToString(year))
    ensures YearsInMinistry(c) == Some(ReferenceYear - year)
  {
    assert ParseInt(c.ordained.value) == Some(year) by {
      ParseIntOfIntToString(year);
    }
  }
}

=== FILE: clergy_record.dfy ===
/**
 * The clergy record the member pages pass around. In the source it is an untyped
 * object whose text fields may be missing; each field is an `Option` here, with
 * `None` for a missing key. Exactly one of `conference`, `district` and `society`
 * names the member's assignment, and the modals that write a record keep it so.
 */
module ClergyRecord {
  import opened Wrappers

  datatype Clergy = Clergy(
    id: int,
    name: Option<string>,
    title: Option<string>,
    ordained: Option<string>,
    email: Option<string>,
    phone: Option<string>,
    status: Option<string>,
    bio: Option<string>,
    education: Option<string>,
    birthDate: Option<string>,
    conference: Option<string>,
    district: Option<string>,
    society: Option<string>)

  function ClergyId(c: Clergy): int
  {
    c.id
  }

  /** JavaScript truthiness of a possibly missing string: present and non-empty. */
  predicate Truthy(o: Option<string>)
  {
    o.Some? && o.value != ""
  }

  /** `o || d`. */
  function OrElse(o: Option<string>, d: string): (r: string)
    ensures Truthy(o) ==> r == o.value
    ensures !Truthy(o) ==> r == d
  {
    if Truthy(o) then o.value else d
  }

  /** Exactly one assignment key is present. */
  predicate OneAssignment(c: Clergy)
  {
    (if c.conference.Some? then 1 else 0) + (if c.district.Some? then 1 else 0) +
    (if c.society.Some? then 1 else 0) == 1
  }

  /** The assignment kinds, as the forms spell them. */
  const ConferenceKind := "conference"
  const DistrictKind := "district"
  const SocietyKind := "society"

  /** Drops the three assignment keys, then sets the one `kind` names; any kind other than
      conference or district goes to society. */
  function Assign(c: Clergy, kind: string, value: string): (r: Clergy)
    ensures OneAssignment(r)
    ensures kind == ConferenceKind ==> r.conference == Some(value)
    ensures kind == DistrictKind ==> r.district == Some(value)
    ensures kind != ConferenceKind && kind != DistrictKind ==> r.society == Some(value)
    ensures r.(conference := c.conference, district := c.district, society := c.society) == c
  {
    var cleared := c.(conference := None, district := None, society := None);
    if kind == ConferenceKind then cleared.(conference := Some(value))
    else if kind == DistrictKind then cleared.(district := Some(value))
    else cleared.(society := Some(value))
  }

  /** The assignment kind a record shows: conference if that is set, else district if set,
      else society. */
  function KindOf(c: Clergy): (k: string)
    ensures k == ConferenceKind <==> Truthy(c.conference)
    ensures k == DistrictKind <==> !Truthy(c.conference) && Truthy(c.district)
    ensures k == SocietyKind <==> !Truthy(c.conference) && !Truthy(c.district)
  {
    if Truthy(c.conference) then ConferenceKind
    else if Truthy(c.district) then DistrictKind
    else SocietyKind
  }

  /** `c.conference || c.district || c.society`: the first set assignment, else the society
      value as it stands (possibly empty or missing). */
  function AssignmentOf(c: Clergy): (r: Option<string>)
    ensures Truthy(c.conference) ==> r == c.conference
    ensures !Truthy(c.conference) && Truthy(c.district) ==> r == c.district
    ensures !Truthy(c.conference) && !Truthy(c.district) ==> r == c.society
  {
    if Truthy(c.conference) then c.conference
    else if Truthy(c.district) then c.district
    else c.society
  }

  /** Assigning a non-empty value makes it the record's shown assignment, of the kind assigned. */
  lemma AssignThenRead(c: Clergy, kind: string, value: string)
    requires value != ""
    requires kind in {ConferenceKind, DistrictKind, SocietyKind}
    ensures KindOf(Assign(c, kind, value)) == kind
    ensures AssignmentOf(Assign(c, kind, value)) == Some(value)
  {
  }

  /** Re-assigning a record's own single assignment changes nothing. */
  lemma AssignOwnAssignment(c: Clergy)
    requires OneAssignment(c)
    requires Truthy(AssignmentOf(c))
    ensures Assign(c, KindOf(c), AssignmentOf(c).value) == c
  {
  }
}

=== FILE: collections_page.dfy ===
/**
 * The collections and remittances page: the list new collections are put in front of,
 * the receipt dialog, and the status badge.
 */
module CollectionsPage {
  import opened Wrappers
  import opened KeyedList
  import opened Ui

  datatype Collection = Collection(id: int, kind: string, source: string, amount: int, date: string, status: string)

  datatype State = State(collections: seq<Collection>, addOpen: bool, receiptOpen: bool, selected: Option<Collection>)

  function Initial(collections: seq<Collection>): (s: State)
    ensures s.collections == collections && !s.addOpen && !s.receiptOpen && s.selected.None?
  {
    State(collections, false, false, None)
  }

  /** `handleAddCollection`: the new collection first, the earlier ones after it in order. */
  function AddCollection(s: State, c: Collection): (r: State)
    ensures |r.collections| == |s.collections| + 1
    ensures r.collections[0] == c && r.collections[1..] == s.collections
    ensures r == s.(collections := r.collections)
  {
    s.(collections := Prepend(c, s.collections))
  }

  /** Adding never hides an existing collection, and every shown entry was added or was there. */
  lemma AddCollectionMembership(s: State, c: Collection, x: Collection)
    ensures x in AddCollection(s, c).collections <==> x == c || x in s.collections
  {
    assert AddCollection(s, c).collections == [c] + s.collections;
  }

  /** `handleViewReceipt`: selects the collection and opens the receipt dialog. */
  function ViewReceipt(s: State, c: Collection): (r: State)
    ensures r.selected == Some(c) && r.receiptOpen
    ensures r.collections == s.collections && r.addOpen == s.addOpen
  {
    s.(selected := Some(c), receiptOpen := true)
  }

  /** The "Record Collection" button: opens the add dialog and touches nothing else. */
  function OpenAdd(s: State): (r: State)
    ensures r.addOpen
    ensures r.(addOpen := s.addOpen) == s
  {
    s.(addOpen := true)
  }

  /** The add dialog's `onClose`: closes it and touches nothing else. */
  function CloseAdd(s: State): (r: State)
    ensures !r.addOpen
    ensures r.(addOpen := s.addOpen) == s
  {
    s.(addOpen := false)
  }

  /** The receipt dialog's `onClose`: closes it; the collection stays selected. */
  function CloseReceipt(s: State): (r: State)
    ensures !r.receiptOpen && r.selected == s.selected
    ensures r.(receiptOpen := s.receiptOpen) == s
  {
    s.(receiptOpen := false)
  }

  /** Opening and closing either dialog gives back the page it started from, except that the
      collection whose receipt was shown stays selected. */
  lemma DialogRoundTrips(s: State, c: Collection)
    requires !s.addOpen && !s.receiptOpen
    ensures CloseAdd(OpenAdd(s)) == s
    ensures CloseReceipt(ViewReceipt(s, c)) == s.(selected := Some(c))
  {
  }

  /** The badge: success for a completed collection, warning for anything else; labelled
      with the capitalised status. */
  function Badge(status: string): (r: (Variant, string))
    ensures r.0 == Success <==> status == "completed"
    ensures r.0 == Warning <==> status != "completed"
    ensures r.1 == StatusLabel(status)
  {
    (if status == "completed" then Success else Warning, StatusLabel(status))
  }
}

=== FILE: conference_details.dfy ===
/**
 * The conference profile page: the record for the route's id key and its district
 * table, which is collapsed to four rows until "Show more" is pressed.
 */
module ConferenceDetails {
  import opened Wrappers
  import opened ShowMore

  datatype Profile = Profile(
    id: int,
    name: string,
    bishop: string,
    districts: int,
    societies: int,
    members: int,
    established: string)

  datatype DistrictRow = DistrictRow(id: int, name: string, superintendent: string, societies: int, members: int)

  /** The profiles, keyed by the id as it appears in the route. */
  const ConferenceData: map<string, Profile> := map[
    "1" := Profile(1, "Greater Accra Conference", "Rt. Rev. Emmanuel Asante", 8, 124, 15420, "1965"),
    "2" := Profile(2, "Ashanti Conference", "Rt. Rev. Kwame Mensah", 6, 98, 12350, "1970"),
    "3" := Profile(3, "Central Region Conference", "Rt. Rev. Samuel Osei", 5, 76, 8920, "1972"),
    "4" := Profile(4, "Northern Conference", "Rt. Rev. Ibrahim Yakubu", 4, 52, 6240, "1980"),
    "5" := Profile(5, "Western Conference", "Rt. Rev. Francis Adu", 5, 68, 7890, "1975")
  ]

  /** The district table, the same for every conference. */
  const DistrictsList: seq<DistrictRow> := [
    DistrictRow(1, "Accra Central District", "Rev. John Mensah", 18, 2450),
    DistrictRow(2, "Tema District", "Rev. Grace Asante", 14, 1890),
    DistrictRow(3, "East Legon District", "Rev. Peter Owusu", 16, 2100),
    DistrictRow(4, "Madina District", "Rev. Mary Aidoo", 12, 1560),
    DistrictRow(5, "Kasoa District", "Rev. Samuel Boateng", 15, 1820),
    DistrictRow(6, "Teshie-Nungua District", "Rev. Abigail Tetteh", 13, 1680),
    DistrictRow(7, "Adenta District", "Rev. Isaac Quansah", 11, 1420),
    DistrictRow(8, "Dansoman District", "Rev. Elizabeth Nkrumah", 10, 1350)
  ]

  /** The page's profile for the route parameter; `None` renders "Conference not found". */
  function Lookup(id: Option<string>): (r: Option<Profile>)
    ensures r.Some? <==> id.Some? && id.value in ConferenceData
    ensures r.Some? ==> r.value == ConferenceData[id.value]
  {
    LookupKey(ConferenceData, id)
  }

  /** Each profile sits under the key that spells its own id. */
  lemma KeysMatchIds()
    ensures forall k :: k in ConferenceData ==> k in {"1", "2", "3", "4", "5"}
    ensures ConferenceData["1"].id == 1 && ConferenceData["2"].id == 2 && ConferenceData["3"].id == 3
    ensures ConferenceData["4"].id == 4 && ConferenceData["5"].id == 5
  {
  }

  type State = ProfileState

  /** The district rows on screen. */
  function Districts(s: State): (r: seq<DistrictRow>)
    ensures s.showAll ==> r == DistrictsList
    ensures !s.showAll ==> r == DistrictsList[..4]
  {
    Displayed(DistrictsList, s.showAll)
  }

  /** `setShowAllDistricts(true)`, reachable only through the "Show more" button. */
  function ShowAll(s: State): (r: State)
    requires ShowMoreButton(|DistrictsList|, s.showAll).Some?
    ensures r.showAll && Districts(r) == DistrictsList && r.editOpen == s.editOpen
  {
    s.(showAll := true)
  }

  /** `setShowAllDistricts(false)`, reachable only through the "Show less" button. */
  function ShowLess(s: State): (r: State)
    requires ShowLessVisible(|DistrictsList|, s.showAll)
    ensures !r.showAll && |Districts(r)| == 4 && r.editOpen == s.editOpen
  {
    s.(showAll := false)
  }

  /** On opening, four of the eight districts show and the button offers the other four. */
  lemma OpeningTable()
    ensures |Districts(Opening())| == 4
    ensures ShowMoreButton(|DistrictsList|, Opening().showAll) == Some(4)
    ensures ShowLess(ShowAll(Opening())) == Opening()
  {
  }
}

=== FILE: conferences_page.dfy ===
/**
 * The conference list page: the per-card action menu (at most one open), its four
 * actions, and the edit and delete dialogs. Navigation is modelled as the route string
 * the page would navigate to; the last navigation of a click is the one that counts.
 */
module ConferencesPage {
  import opened Wrappers
  import opened Numbers
  import opened Text
  import DeleteConfirmModal

  datatype Conference = Conference(
    id: int,
    name: string,
    bishop: string,
    districts: int,
    societies: int,
    members: int)

  /** The cards on the page, in display order. */
  const Conferences: seq<Conference> := [
    Conference(1, "Greater Accra Conference", "Rt. Rev. Emmanuel Asante", 8, 124, 15420),
    Conference(2, "Ashanti Conference", "Rt. Rev. Kwame Mensah", 6, 98, 12350),
    Conference(3, "Central Region Conference", "Rt. Rev. Samuel Osei", 5, 76, 8920),
    Conference(4, "Northern Conference", "Rt. Rev. Ibrahim Yakubu", 4, 52, 6240),
    Conference(5, "Western Conference", "Rt. Rev. Francis Adu", 5, 68, 7890)
  ]

  datatype Page = Page(
    conferences: seq<Conference>,
    addOpen: bool,
    editOpen: bool,
    deleteOpen: bool,
    selected: Option<Conference>,
    openMenu: Option<int>)

  function Initial(): (p: Page)
    ensures p.conferences == Conferences && p.openMenu.None? && p.selected.None?
    ensures !p.addOpen && !p.editOpen && !p.deleteOpen
  {
    Page(Conferences, false, false, false, None, None)
  }

  /** `openDropdown === conference.id`: the menu of that card is rendered. */
  predicate MenuOpen(p: Page, id: int)
  {
    p.openMenu == Some(id)
  }

  /** Because the open menu is one optional id, no two cards show their menu together. */
  lemma AtMostOneMenuOpen(p: Page, a: int, b: int)
    requires MenuOpen(p, a) && MenuOpen(p, b)
    ensures a == b
  {
  }

  /** The menu button of a card: closes that card's menu if it was open, else opens it
      (closing any other). */
  function ToggleMenu(p: Page, id: int): (r: Page)
    ensures MenuOpen(r, id) <==> !MenuOpen(p, id)
    ensures forall other :: other != id ==> !MenuOpen(r, other)
    ensures r.(openMenu := p.openMenu) == p
  {
    p.(openMenu := if p.openMenu == Some(id) then None else Some(id))
  }

  /** Two presses of the same button restore the menu unless another card's menu was open,
      in which case they leave every menu closed. */
  lemma ToggleMenuTwice(p: Page, id: int)
    ensures p.openMenu.None? || MenuOpen(p, id) ==> ToggleMenu(ToggleMenu(p, id), id) == p
    ensures p.openMenu.Some? && !MenuOpen(p, id) ==> ToggleMenu(ToggleMenu(p, id), id).openMenu.None?
  {
  }

  /** The profile page of a conference. */
  function DetailsRoute(id: int): (r: string)
    ensures StartsWith(r, "/church-structure/conferences/")
    ensures r[|"/church-structure/conferences/"|..] == IntToString(id)
  {
    "/church-structure/conferences/" + IntToString(id)
  }

  /** The reports page filtered to a conference. */
  function ReportRoute(id: int): (r: string)
    ensures StartsWith(r, "/reports?conference=")
    ensures r[|"/reports?conference="|..] == IntToString(id)
  {
    "/reports?conference=" + IntToString(id)
  }

  /** The route of a profile page gives back the conference's id. */
  lemma DetailsRouteRoundTrip(id: int)
    ensures ParseInt(DetailsRoute(id)[|"/church-structure/conferences/"|..]) == Some(id)
  {
    ParseIntOfIntToString(id);
  }

  /** Profile and report routes never coincide. */
  lemma RoutesDiffer(a: int, b: int)
    ensures DetailsRoute(a) != ReportRoute(b)
  {
    assert DetailsRoute(a)[1] == 'c' && ReportRoute(b)[1] == 'r';
  }

  datatype MenuItem = ViewItem | EditItem | ReportItem | DeleteItem

  /** The page after a click and the route of the click's last navigation, if any. */
  datatype Step = Step(page: Page, route: Option<string>)

  /** A click on the card body: navigates to the profile. */
  function CardClick(p: Page, c: Conference): (r: Step)
    ensures r.page == p && r.route == Some(DetailsRoute(c.id))
  {
    Step(p, Some(DetailsRoute(c.id)))
  }

  /**
   * A menu action handled by its own handler alone: `handleView`, `handleEdit`,
   * `handleReport` or `handleDelete`. Every action closes the menu; edit and delete
   * select the conference and open their dialog; view and report navigate.
   */
  function MenuAction(p: Page, c: Conference, item: MenuItem): (r: Step)
    ensures r.page.openMenu.None? && r.page.conferences == p.conferences
    ensures item.EditItem? ==>
      r.route.None? && r.page.editOpen && r.page.selected == Some(c) && r.page.deleteOpen == p.deleteOpen
    ensures item.DeleteItem? ==>
      r.route.None? && r.page.deleteOpen && r.page.selected == Some(c) && r.page.editOpen == p.editOpen
    ensures item.ViewItem? ==> r == Step(p.(openMenu := None), Some(DetailsRoute(c.id)))
    ensures item.ReportItem? ==> r == Step(p.(openMenu := None), Some(ReportRoute(c.id)))
  {
    match item
    case ViewItem => Step(p.(openMenu := None), Some(DetailsRoute(c.id)))
    case EditItem => Step(p.(selected := Some(c), editOpen := true, openMenu := None), None)
    case ReportItem => Step(p.(openMenu := None), Some(ReportRoute(c.id)))
    case DeleteItem => Step(p.(selected := Some(c), deleteOpen := true, openMenu := None), None)
  }

  /**
   * A menu action as the page wires it: the menu sits inside the card, its buttons do not
   * stop the click, so after the item's handler the card's own handler runs too and its
   * navigation to the profile is the last one.
   */
  function MenuActionAsWritten(p: Page, c: Conference, item: MenuItem): (r: Step)
    ensures r.page == MenuAction(p, c, item).page
    ensures r.route == CardClick(p, c).route
  {
    var handled := MenuAction(p, c, item);
    Step(handled.page, CardClick(handled.page, c).route)
  }

  /** As wired, "View Report" lands on the conference profile instead of the report. */
  lemma ReportClickLandsOnProfile(p: Page, c: Conference)
    ensures MenuActionAsWritten(p, c, ReportItem).route == Some(DetailsRoute(c.id))
    ensures MenuActionAsWritten(p, c, ReportItem).route != MenuAction(p, c, ReportItem).route
  {
    RoutesDiffer(c.id, c.id);
  }

  /** As wired, "Edit" and "Delete" open their dialog and then leave the page. */
  lemma EditClickLeavesThePage(p: Page, c: Conference)
    ensures MenuActionAsWritten(p, c, EditItem).route.Some?
    ensures MenuActionAsWritten(p, c, DeleteItem).route.Some?
    ensures MenuAction(p, c, EditItem).route.None? && MenuAction(p, c, DeleteItem).route.None?
  {
  }

  /** Each action does what its label says and nothing navigates away from a dialog. */
  lemma MenuActionsDoWhatTheySay(p: Page, c: Conference)
    ensures MenuAction(p, c, ReportItem).route == Some(ReportRoute(c.id))
    ensures MenuAction(p, c, ViewItem).route == CardClick(p, c).route
    ensures MenuAction(p, c, EditItem).route.None? && MenuAction(p, c, EditItem).page.editOpen
  {
  }

  /** The "Add Conference" button: opens the add dialog and touches nothing else. */
  function OpenAdd(p: Page): (r: Page)
    ensures r.addOpen
    ensures r.(addOpen := p.addOpen) == p
  {
    p.(addOpen := true)
  }

  /** The add dialog's `onClose`: closes it; the selection and the cards are kept. */
  function CloseAdd(p: Page): (r: Page)
    ensures !r.addOpen
    ensures r.(addOpen := p.addOpen) == p
  {
    p.(addOpen := false)
  }

  /** Opening and then closing the add dialog gives back a page whose dialog was closed. */
  lemma AddDialogRoundTrip(p: Page)
    requires !p.addOpen
    ensures CloseAdd(OpenAdd(p)) == p
    ensures OpenAdd(p).conferences == p.conferences && OpenAdd(p).selected == p.selected
  {
  }

  /** The edit dialog's `onClose`: closes it and clears the selection. */
  function CloseEdit(p: Page): (r: Page)
    ensures !r.editOpen && r.selected.None?
    ensures r.(editOpen := p.editOpen, selected := p.selected) == p
  {
    p.(editOpen := false, selected := None)
  }

  /** The delete dialog's `onClose`: closes it and clears the selection. */
  function CloseDelete(p: Page): (r: Page)
    ensures !r.deleteOpen && r.selected.None?
    ensures r.(deleteOpen := p.deleteOpen, selected := p.selected) == p
  {
    p.(deleteOpen := false, selected := None)
  }

  /** `confirmDelete`: only clears the selection; the list of cards stays as it was. */
  function ConfirmDelete(p: Page): (r: Page)
    ensures r.selected.None? && r.conferences == p.conferences
    ensures r.(selected := p.selected) == p
  {
    p.(selected := None)
  }

  /** The page's reaction to the delete dialog's calls, in order. */
  function Apply(p: Page, effects: seq<DeleteConfirmModal.Effect>): (r: Page)
    ensures r.conferences == p.conferences
    decreases |effects|
  {
    if |effects| == 0 then p
    else
      var next := match effects[0]
        case Confirm => ConfirmDelete(p)
        case Close => CloseDelete(p);
      Apply(next, effects[1..])
  }

  /** After a confirmed delete the dialog is closed, nothing is selected and every card is
      still there. */
  lemma ConfirmedDeleteKeepsTheCards(p: Page)
    ensures Apply(p, [DeleteConfirmModal.Confirm, DeleteConfirmModal.Close]) ==
      p.(deleteOpen := false, selected := None)
  {
    assert [DeleteConfirmModal.Confirm, DeleteConfirmModal.Close][1..] == [DeleteConfirmModal.Close];
    assert [DeleteConfirmModal.Close][1..] == [];
  }
}

=== FILE: delete_confirm_modal.dfy ===
/**
 * The confirmation dialog shared by the delete actions: the Delete button stays disabled
 * until the typed text, lower-cased, is exactly "delete"; confirming runs after a delay,
 * which is modelled as a separate `DelayElapsed` step. The parent's `onConfirm` and
 * `onClose` callbacks are recorded as effects, in the order they are called.
 */
module DeleteConfirmModal {
  import opened Text

  /** The word the user must type. */
  const Word := "delete"

  /** `isConfirmDisabled` negated: the Delete button is enabled. */
  predicate Enabled(confirmText: string)
  {
    Lower(confirmText) == Word
  }

  /** The gate, character by character: six letters, each "delete"'s letter in either case. */
  lemma EnabledIff(t: string)
    ensures Enabled(t) <==>
      |t| == 6 && forall i :: 0 <= i < 6 ==> LowerChar(t[i]) == Word[i]
  {
    if |t| == 6 && forall i :: 0 <= i < 6 ==> LowerChar(t[i]) == Word[i] {
      assert Lower(t) == Word;
    }
  }

  lemma UpperCaseEnables()
    ensures Enabled("DELETE") && Enabled("Delete") && Enabled("delete")
  {
    EnabledIff("DELETE");
    EnabledIff("Delete");
    EnabledIff("delete");
  }

  /** Lower-casing the text first never changes the verdict. */
  lemma {:induction false} GateIgnoresCase(t: string)
    ensures Enabled(Lower(t)) <==> Enabled(t)
  {
    assert Lower(Lower(t)) == Lower(t) by {
      forall i | 0 <= i < |t|
        ensures Lower(Lower(t))[i] == Lower(t)[i]
      {
        var c := t[i];
        assert Lower(t)[i] == LowerChar(c);
      }
    }
  }

  /** A leading or a trailing space keeps the button disabled, whatever else is typed. */
  lemma SurroundingSpaceDisables(t: string)
    ensures !Enabled(" " + t)
    ensures !Enabled(t + " ")
  {
    assert Lower(" " + t)[0] == ' ';
    var u := t + " ";
    if |u| == 6 {
      assert Lower(u)[5] == ' ';
    }
  }

  /** What the parent is told: `onConfirm` and `onClose`. */
  datatype Effect = Confirm | Close

  /** The dialog's own state; `pending` counts delays started and not yet elapsed. */
  datatype Modal = Modal(confirmText: string, loading: bool, pending: nat)

  datatype Action =
    | Type(value: string)
    | Cancel
    | Backdrop
    | CloseButton
    | PressDelete
    | DelayElapsed

  datatype Step = Step(modal: Modal, effects: seq<Effect>)

  function Initial(): (m: Modal)
    ensures !Enabled(m.confirmText) && !m.loading && m.pending == 0
  {
    Modal("", false, 0)
  }

  /**
   * One user action or elapsed delay. While `isOpen` is false the dialog renders nothing,
   * so only a delay started earlier can still act.
   */
  function Handle(isOpen: bool, m: Modal, a: Action): (s: Step)
    ensures !isOpen && !a.DelayElapsed? ==> s == Step(m, [])
    ensures isOpen && a.Type? ==> s == Step(m.(confirmText := a.value), [])
    ensures isOpen && a.Cancel? ==> s.effects == [Close] && s.modal == m.(confirmText := "")
    ensures isOpen && (a.Backdrop? || a.CloseButton?) ==> s == Step(m, [Close])
    ensures isOpen && a.PressDelete? && !Enabled(m.confirmText) ==> s == Step(m, [])
    ensures isOpen && a.PressDelete? && Enabled(m.confirmText) ==>
      s.effects == [] && s.modal.loading && s.modal.pending == m.pending + 1 &&
      s.modal.confirmText == m.confirmText
    ensures a.DelayElapsed? && m.pending == 0 ==> s == Step(m, [])
    ensures a.DelayElapsed? && m.pending > 0 ==>
      s.effects == [Confirm, Close] && s.modal == Modal("", false, m.pending - 1)
  {
    match a
    case DelayElapsed =>
      if m.pending == 0 then Step(m, [])
      else Step(Modal("", false, m.pending - 1), [Confirm, Close])
    case Type(v) => if isOpen then Step(m.(confirmText := v), []) else Step(m, [])
    case Cancel => if isOpen then Step(m.(confirmText := ""), [Close]) else Step(m, [])
    case Backdrop => if isOpen then Step(m, [Close]) else Step(m, [])
    case CloseButton => if isOpen then Step(m, [Close]) else Step(m, [])
    case PressDelete =>
      if isOpen && Enabled(m.confirmText) then Step(m.(loading := true, pending := m.pending + 1), [])
      else Step(m, [])
  }

  /** Runs a sequence of actions while the dialog stays open, collecting the effects. */
  function Run(m: Modal, actions: seq<Action>): (s: Step)
    ensures |actions| == 0 ==> s == Step(m, [])
    decreases |actions|
  {
    if |actions| == 0 then Step(m, [])
    else
      var first := Handle(true, m, actions[0]);
      var rest := Run(first.modal, actions[1..]);
      Step(rest.modal, first.effects + rest.effects)
  }

  /** Typing "Delete", pressing Delete and waiting confirms, then closes, then clears the text. */
  lemma ConfirmFlow(m: Modal, typed: string)
    requires m.pending == 0
    requires Enabled(typed)
    ensures Run(m, [Type(typed), PressDelete, DelayElapsed]) == Step(Modal("", false, 0), [Confirm, Close])
  {
    var s1 := Handle(true, m, Type(typed));
    var s2 := Handle(true, s1.modal, PressDelete);
    var s3 := Handle(true, s2.modal, DelayElapsed);
    assert s2.modal.pending == 1;
    assert Run(s2.modal, [DelayElapsed]) == Step(Modal("", false, 0), [Confirm, Close]) by {
      assert [DelayElapsed][1..] == [];
    }
    assert Run(s1.modal, [PressDelete, DelayElapsed]) == Step(Modal("", false, 0), [Confirm, Close]) by {
      assert [PressDelete, DelayElapsed][1..] == [DelayElapsed];
    }
    assert [Type(typed), PressDelete, DelayElapsed][1..] == [PressDelete, DelayElapsed];
  }

  /** Without the word typed, no sequence of presses and delays from a quiet dialog confirms. */
  lemma {:induction false} NoConfirmWithoutTheWord(m: Modal, actions: seq<Action>)
    requires m.pending == 0
    requires !Enabled(m.confirmText)
    requires forall i :: 0 <= i < |actions| ==> actions[i] == PressDelete || actions[i] == DelayElapsed
    ensures Confirm !in Run(m, actions).effects
  {
    if |actions| > 0 {
      NoConfirmWithoutTheWord(Handle(true, m, actions[0]).modal, actions[1..]);
    }
  }

  /** Dismissing by the backdrop or the X keeps the typed text, so on reopening the Delete
      button is as enabled as it was; Cancel clears it. */
  lemma DismissKeepsTheGate(m: Modal)
    ensures Enabled(Handle(true, m, Backdrop).modal.confirmText) == Enabled(m.confirmText)
    ensures Enabled(Handle(true, m, CloseButton).modal.confirmText) == Enabled(m.confirmText)
    ensures !Enabled(Handle(true, m, Cancel).modal.confirmText)
  {
  }
}

=== FILE: district_details.dfy ===
/**
 * The district profile page: the record for the route's id key and its society table,
 * which is collapsed to four rows until "Show more" is pressed.
 */
module DistrictDetails {
  import opened Wrappers
  import opened ShowMore

  datatype Profile = Profile(
    id: int,
    name: string,
    conference: string,
    superintendent: string,
    established: string)

  datatype SocietyRow = SocietyRow(id: int, name: string, pastor: string, members: int)

  /** The profiles, keyed by the id as it appears in the route. */
  const DistrictData: map<string, Profile> := map[
    "1" := Profile(1, "Accra Central District", "Greater Accra", "Rev. John Mensah", "1968"),
    "2" := Profile(2, "Tema District", "Greater Accra", "Rev. Grace Asante", "1975"),
    "3" := Profile(3, "Kumasi Metropolitan District", "Ashanti", "Rev. Peter Owusu", "1972"),
    "4" := Profile(4, "Cape Coast District", "Central Region", "Rev. Mary Aidoo", "1974"),
    "5" := Profile(5, "Tamale District", "Northern", "Rev. Ibrahim Mohammed", "1982"),
    "6" := Profile(6, "Takoradi District", "Western", "Rev. Samuel Eshun", "1978")
  ]

  /** The society table, the same for every district. */
  const SocietiesList: seq<SocietyRow> := [
    SocietyRow(1, "Zion AME Church Osu", "Rev. Emmanuel Darko", 450),
    SocietyRow(2, "Wesley AME Church", "Rev. Abigail Mensah", 320),
    SocietyRow(3, "Trinity AME Church", "Rev. Kwesi Appiah", 280),
    SocietyRow(4, "Grace AME Church", "Rev. Ama Osei", 240),
    SocietyRow(5, "Faith AME Church", "Rev. Yusuf Alhassan", 210),
    SocietyRow(6, "Hope AME Church", "Rev. Isaac Gyamfi", 195)
  ]

  /** The page's profile for the route parameter; `None` renders "District not found". */
  function Lookup(id: Option<string>): (r: Option<Profile>)
    ensures r.Some? <==> id.Some? && id.value in DistrictData
    ensures r.Some? ==> r.value == DistrictData[id.value]
  {
    LookupKey(DistrictData, id)
  }

  /** Each profile sits under the key that spells its own id. */
  lemma KeysMatchIds()
    ensures forall k :: k in DistrictData ==> k in {"1", "2", "3", "4", "5", "6"}
    ensures DistrictData["1"].id == 1 && DistrictData["2"].id == 2 && DistrictData["3"].id == 3
    ensures DistrictData["4"].id == 4 && DistrictData["5"].id == 5 && DistrictData["6"].id == 6
  {
  }

  type State = ProfileState

  /** The society rows on screen. */
  function Societies(s: State): (r: seq<SocietyRow>)
    ensures s.showAll ==> r == SocietiesList
    ensures !s.showAll ==> r == SocietiesList[..4]
  {
    Displayed(SocietiesList, s.showAll)
  }

  /** `setShowAllSocieties(true)`, reachable only through the "Show more" button. */
  function ShowAll(s: State): (r: State)
    requires ShowMoreButton(|SocietiesList|, s.showAll).Some?
    ensures r.showAll && Societies(r) == SocietiesList && r.editOpen == s.editOpen
  {
    s.(showAll := true)
  }

  /** `setShowAllSocieties(false)`, reachable only through the "Show less" button. */
  function ShowLess(s: State): (r: State)
    requires ShowLessVisible(|SocietiesList|, s.showAll)
    ensures !r.showAll && |Societies(r)| == 4 && r.editOpen == s.editOpen
  {
    s.(showAll := false)
  }

  /** On opening, four of the six societies show and the button offers the other two. */
  lemma OpeningTable()
    ensures |Societies(Opening())| == 4
    ensures ShowMoreButton(|SocietiesList|, Opening().showAll) == Some(2)
    ensures ShowLess(ShowAll(Opening())) == Opening()
  {
  }
}

=== FILE: edit_clergy_modal.dfy ===
/**
 * The modal that edits a clergy profile. Loading a record fills the form, turning
 * missing text into "" and a missing status into "active", and derives the assignment
 * kind and value with the priority conference > district > society. Submitting keeps
 * every key of the record, overwrites the nine edited text fields, drops the three
 * assignment keys and sets the one the form's kind names.
 * The one-second delay before saving is collapsed into the submit step.
 */
module EditClergyModal {
  import opened Wrappers
  import opened ClergyRecord
  import opened Ui

  datatype Form = Form(
    name: string,
    title: string,
    assignment: string,
    assignmentType: string,
    ordained: string,
    email: string,
    phone: string,
    status: string,
    bio: string,
    education: string,
    birthDate: string)

  function DefaultForm(): (f: Form)
    ensures f.assignmentType == SocietyKind && f.status == "active"
    ensures f.name == "" && f.title == "" && f.assignment == "" && f.ordained == ""
    ensures f.email == "" && f.phone == "" && f.bio == "" && f.education == "" && f.birthDate == ""
  {
    Form("", "", "", SocietyKind, "", "", "", "active", "", "", "")
  }

  /** The effect that runs when the record changes; with no record the form stays as it was. */
  function Load(f: Form, clergy: Option<Clergy>): (r: Form)
    ensures clergy.None? ==> r == f
    ensures clergy.Some? ==> r.assignmentType == KindOf(clergy.value)
    ensures clergy.Some? ==> r.assignment == OrElse(AssignmentOf(clergy.value), "")
    ensures clergy.Some? ==> r.status == OrElse(clergy.value.status, "active")
    ensures clergy.Some? ==>
      var c := clergy.value;
      r.name == OrElse(c.name, "") && r.title == OrElse(c.title, "") &&
      r.ordained == OrElse(c.ordained, "") && r.email == OrElse(c.email, "") &&
      r.phone == OrElse(c.phone, "") && r.bio == OrElse(c.bio, "") &&
      r.education == OrElse(c.education, "") && r.birthDate == OrElse(c.birthDate, "")
  {
    match clergy
    case None => f
    case Some(c) =>
      Form(
        OrElse(c.name, ""), OrElse(c.title, ""),
        OrElse(c.conference, OrElse(c.district, OrElse(c.society, ""))),
        KindOf(c),
        OrElse(c.ordained, ""), OrElse(c.email, ""), OrElse(c.phone, ""),
        OrElse(c.status, "active"),
        OrElse(c.bio, ""), OrElse(c.education, ""), OrElse(c.birthDate, ""))
  }

  /** The record saved from the form. */
  function Merge(c: Clergy, f: Form): (r: Clergy)
    ensures OneAssignment(r)
    ensures f.assignmentType == ConferenceKind ==> r.conference == Some(f.assignment)
    ensures f.assignmentType == DistrictKind ==> r.district == Some(f.assignment)
    ensures f.assignmentType != ConferenceKind && f.assignmentType != DistrictKind ==> r.society == Some(f.assignment)
    ensures r.id == c.id
    ensures r.name == Some(f.name) && r.title == Some(f.title) && r.ordained == Some(f.ordained)
    ensures r.email == Some(f.email) && r.phone == Some(f.phone) && r.status == Some(f.status)
    ensures r.bio == Some(f.bio) && r.education == Some(f.education) && r.birthDate == Some(f.birthDate)
  {
    var updated := c.(
      name := Some(f.name), title := Some(f.title), ordained := Some(f.ordained),
      email := Some(f.email), phone := Some(f.phone), status := Some(f.status),
      bio := Some(f.bio), education := Some(f.education), birthDate := Some(f.birthDate));
    Assign(updated, f.assignmentType, f.assignment)
  }

  /** Whether one of the six `required` inputs (name, title, assignment, ordination year,
      email, phone) is empty, which keeps the browser from submitting the form. */
  predicate MissingRequired(f: Form)
  {
    f.name == "" || f.title == "" || f.assignment == "" || f.ordained == "" || f.email == "" || f.phone == ""
  }

  /** `handleSubmit` behind the browser's required-field check: a closed modal renders
      nothing; a form with an empty required input is not submitted; otherwise the merged
      record is saved. */
  function Submit(isOpen: bool, c: Clergy, f: Form): (r: Submission<Clergy>)
    ensures r.NotRendered? <==> !isOpen
    ensures r.Blocked? <==>
      isOpen && (f.name == "" || f.title == "" || f.assignment == "" || f.ordained == "" || f.email == "" || f.phone == "")
    ensures r.Submitted? ==> r.value == Merge(c, f)
  {
    if !isOpen then NotRendered
    else if MissingRequired(f) then Blocked
    else Submitted(Merge(c, f))
  }

  /** The assignment survives a load and an unchanged save, under the same key with the
      same value, when the record had one non-empty assignment. */
  lemma AssignmentRoundTrip(f: Form, c: Clergy)
    requires OneAssignment(c) && Truthy(AssignmentOf(c))
    ensures var r := Merge(c, Load(f, Some(c)));
      r.conference == c.conference && r.district == c.district && r.society == c.society
  {
  }

  /** A record in the shape this modal writes — every text field present, a status, and one
      non-empty assignment — comes back unchanged from a load and an unchanged save; the
      browser lets that save through exactly when the record's six required fields are
      non-empty. */
  lemma LoadThenSaveIsIdentity(f: Form, c: Clergy)
    requires OneAssignment(c) && Truthy(AssignmentOf(c))
    requires c.name.Some? && c.title.Some? && c.ordained.Some? && c.email.Some? && c.phone.Some?
    requires Truthy(c.status)
    requires c.bio.Some? && c.education.Some? && c.birthDate.Some?
    ensures Merge(c, Load(f, Some(c))) == c
    ensures Submit(true, c, Load(f, Some(c))) == Submitted(c) <==>
      Truthy(c.name) && Truthy(c.title) && Truthy(c.ordained) && Truthy(c.email) && Truthy(c.phone)
  {
  }

  /** Loading a saved record shows the saved assignment when it is non-empty and the kind was
      one of the three. */
  lemma SaveThenLoad(c: Clergy, f: Form, g: Form)
    requires f.assignment != ""
    requires f.assignmentType in {ConferenceKind, DistrictKind, SocietyKind}
    ensures var h := Load(g, Some(Merge(c, f)));
      h.assignment == f.assignment && h.assignmentType == f.assignmentType
  {
    AssignThenRead(c.(
      name := Some(f.name), title := Some(f.title), ordained := Some(f.ordained),
      email := Some(f.email), phone := Some(f.phone), status := Some(f.status),
      bio := Some(f.bio), education := Some(f.education), birthDate := Some(f.birthDate)),
      f.assignmentType, f.assignment);
  }
}

=== FILE: edit_event_modal.dfy ===
/**
 * The modal that edits an event. Its form holds strings; opening it on an event copies
 * the title, type, location and attendee count into the form, and submitting merges
 * the edited title, type, location and parsed attendee count back over the event.
 * The start date, end date and assign-to inputs are kept in the form but never saved.
 * The one-second delay before saving is collapsed into the submit step.
 */
module EditEventModal {
  import opened Wrappers
  import opened Numbers
  import opened EventsPage
  import opened Ui

  datatype Form = Form(
    title: string,
    kind: string,
    startDate: string,
    endDate: string,
    location: string,
    attendees: string,
    assignTo: string)

  /** The form before any event has been loaded. */
  function DefaultForm(): (f: Form)
    ensures f.kind == "Conference" && f.assignTo == "All Conferences"
    ensures f.title == "" && f.startDate == "" && f.endDate == "" && f.location == "" && f.attendees == ""
  {
    Form("", "Conference", "", "", "", "", "All Conferences")
  }

  /** The effect that runs when the event changes: a present event is copied into the form,
      with empty dates and the default assignment; an absent one leaves the form as it was. */
  function Load(f: Form, event: Option<Event>): (r: Form)
    ensures event.None? ==> r == f
    ensures event.Some? ==>
      r.title == event.value.title && r.kind == event.value.kind &&
      r.location == event.value.location &&
      ParseInt(r.attendees) == Some(event.value.attendees) &&
      r.startDate == "" && r.endDate == "" && r.assignTo == "All Conferences"
  {
    match event
    case None => f
    case Some(e) =>
      ParseIntOfIntToString(e.attendees);
      Form(e.title, e.kind, "", "", e.location, IntToString(e.attendees), "All Conferences")
  }

  /** The modal renders only when it is open and has an event. */
  predicate Rendered(isOpen: bool, event: Option<Event>)
  {
    isOpen && event.Some?
  }

  /** The event saved from the form: every field of the original is kept except the four edited ones. */
  function Merge(e: Event, f: Form): (r: Event)
    ensures r.title == f.title && r.kind == f.kind && r.location == f.location
    ensures r.attendees == (match ParseInt(f.attendees) case Some(n) => n case None => 0)
    ensures r.id == e.id && r.date == e.date && r.status == e.status
    ensures r.day == e.day && r.month == e.month && r.year == e.year
  {
    e.(title := f.title, kind := f.kind, location := f.location, attendees := ParseIntOrZero(f.attendees))
  }

  /** `handleSubmit` behind the browser's check of the `required` title and location
      inputs: nothing can be submitted unless the modal is rendered and both are filled. */
  function Submit(isOpen: bool, event: Option<Event>, f: Form): (r: Submission<Event>)
    ensures r.NotRendered? <==> !Rendered(isOpen, event)
    ensures r.Blocked? <==> Rendered(isOpen, event) && (f.title == "" || f.location == "")
    ensures r.Submitted? ==> r.value == Merge(event.value, f)
  {
    if !Rendered(isOpen, event) then NotRendered
    else if f.title == "" || f.location == "" then Blocked
    else Submitted(Merge(event.value, f))
  }

  /** The form's dates and assignment do not reach the saved event. */
  lemma IgnoredInputsDoNotMatter(e: Event, f: Form, startDate: string, endDate: string, assignTo: string)
    ensures Merge(e, f.(startDate := startDate, endDate := endDate, assignTo := assignTo)) == Merge(e, f)
  {
  }

  /** An empty or non-numeric attendee field saves 0 attendees. */
  lemma UnparsableAttendeesAreZero(e: Event, f: Form)
    requires ParseInt(f.attendees).None?
    ensures Merge(e, f).attendees == 0
  {
  }

  /** Opening the modal on an event and saving without edits gives back the same event;
      the browser lets that save through exactly when the event has a title and a location. */
  lemma LoadThenSubmitIsIdentity(f: Form, e: Event)
    ensures Merge(e, Load(f, Some(e))) == e
    ensures Submit(true, Some(e), Load(f, Some(e))) == Submitted(e) <==> e.title != "" && e.location != ""
  {
    var g := Load(f, Some(e));
    assert ParseInt(g.attendees) == Some(e.attendees);
    assert Merge(e, g) == e;
  }

  /** The inputs of the form. */
  datatype Field = Title | Kind | StartDate | EndDate | Location | Attendees | AssignTo

  function Get(f: Form, k: Field): string
  {
    match k
    case Title => f.title
    case Kind => f.kind
    case StartDate => f.startDate
    case EndDate => f.endDate
    case Location => f.location
    case Attendees => f.attendees
    case AssignTo => f.assignTo
  }

  /** Each input's `onChange`: `setFormData({ ...formData, field: value })`. */
  function Set(f: Form, k: Field, v: string): (r: Form)
    ensures Get(r, k) == v
    ensures forall other :: other != k ==> Get(r, other) == Get(f, other)
  {
    match k
    case Title => f.(title := v)
    case Kind => f.(kind := v)
    case StartDate => f.(startDate := v)
    case EndDate => f.(endDate := v)
    case Location => f.(location := v)
    case Attendees => f.(attendees := v)
    case AssignTo => f.(assignTo := v)
  }

  /** Two forms that agree on every input are the same form. */
  lemma FormsEqualByFields(f: Form, g: Form)
    requires forall k :: Get(f, k) == Get(g, k)
    ensures f == g
  {
    assert Get(f, Title) == Get(g, Title) && Get(f, Kind) == Get(g, Kind);
    assert Get(f, StartDate) == Get(g, StartDate) && Get(f, EndDate) == Get(g, EndDate);
    assert Get(f, Location) == Get(g, Location) && Get(f, Attendees) == Get(g, Attendees);
    assert Get(f, AssignTo) == Get(g, AssignTo);
  }

  /** Typing into a field and then restoring its old value gives back the original form. */
  lemma SetRestore(f: Form, k: Field, v: string)
    ensures Set(Set(f, k, v), k, Get(f, k)) == f
  {
    FormsEqualByFields(Set(Set(f, k, v), k, Get(f, k)), f);
  }
}

=== FILE: events_page.dfy ===
/**
 * The Events page: a month calendar over a list of events, with month and year
 * navigation, a day click that opens the first event of the day, and the edit and
 * delete handlers on the event list.
 *
 * The page keeps `currentDate`, a JavaScript `Date` that navigation always sets to
 * the first of a month, so the displayed month is a `Calendar.CalendarDate` with day 1.
 * The handlers as written build each new month with `new Date(year, month, 1)`,
 * whose two-digit-year rule misplaces the years 0 to 99; the page below uses the
 * corrected navigation, and the `...AsWritten` members model the code as it stands.
 */
module EventsPage {
  import opened Wrappers
  import opened Seqs
  import opened KeyedList
  import opened Calendar

  /** An event; `kind` is the event's `type` field. The calendar position is optional. */
  datatype Event = Event(
    id: int,
    title: string,
    date: string,
    location: string,
    kind: string,
    attendees: int,
    status: string,
    day: Option<int>,
    month: Option<int>,
    year: Option<int>)

  function EventId(e: Event): int
  {
    e.id
  }

  datatype State = State(
    current: CalendarDate,
    events: seq<Event>,
    createOpen: bool,
    viewOpen: bool,
    editOpen: bool,
    deleteOpen: bool,
    selectedEvent: Option<Event>,
    selectedDay: Option<int>)

  /** The page opens on January 2024 with every modal closed and nothing selected. */
  function Initial(events: seq<Event>): (s: State)
    ensures s.current == CalendarDate(2024, 0, 1) && Valid(s.current)
    ensures s.events == events
    ensures !s.createOpen && !s.viewOpen && !s.editOpen && !s.deleteOpen
    ensures s.selectedEvent == None && s.selectedDay == None
  {
    NormalizeValid(CalendarDate(2024, 0, 1));
    State(NewDate(2024, 0, 1), events, false, false, false, false, None, None)
  }

  // ---------------------------------------------------------------------------
  // Corrected month arithmetic: the year is taken as given.

  /** A month counted from January of year 0, so that month steps are steps of one. */
  function MonthIndex(c: CalendarDate): int
  {
    c.year * 12 + c.month
  }

  /** A displayed month: the first of a month in range. */
  predicate Displayed(c: CalendarDate)
  {
    0 <= c.month < 12 && c.day == 1
  }

  /** Days in the displayed month. */
  function DaysInMonth(c: CalendarDate): (n: int)
    requires 0 <= c.month < 12
    ensures 28 <= n <= 31
    ensures c.month == 1 ==> (n == 29 <==> InLeapYear(c.year))
    ensures c.month != 1 ==> (n == 30 <==> c.month in {3, 5, 8, 10})
  {
    MonthLength(c.year, c.month)
  }

  /** Weekday of the first of the displayed month, 0 being Sunday. */
  function FirstDayOfMonth(c: CalendarDate): (w: int)
    requires 0 <= c.month < 12
    ensures 0 <= w < 7
  {
    WeekDay(MakeDay(c.year, c.month, 1))
  }

  function PreviousMonth(c: CalendarDate): (r: CalendarDate)
    requires 0 <= c.month < 12
    ensures Displayed(r)
    ensures MonthIndex(r) == MonthIndex(c) - 1
  {
    if c.month == 0 then CalendarDate(c.year - 1, 11, 1) else CalendarDate(c.year, c.month - 1, 1)
  }

  function NextMonth(c: CalendarDate): (r: CalendarDate)
    requires 0 <= c.month < 12
    ensures Displayed(r)
    ensures MonthIndex(r) == MonthIndex(c) + 1
  {
    if c.month == 11 then CalendarDate(c.year + 1, 0, 1) else CalendarDate(c.year, c.month + 1, 1)
  }

  function PreviousYear(c: CalendarDate): (r: CalendarDate)
    requires 0 <= c.month < 12
    ensures Displayed(r)
    ensures r.year == c.year - 1 && r.month == c.month
  {
    CalendarDate(c.year - 1, c.month, 1)
  }

  function NextYear(c: CalendarDate): (r: CalendarDate)
    requires 0 <= c.month < 12
    ensures Displayed(r)
    ensures r.year == c.year + 1 && r.month == c.month
  {
    CalendarDate(c.year + 1, c.month, 1)
  }

  /** A displayed month is determined by its month index. */
  lemma MonthIndexInjective(a: CalendarDate, b: CalendarDate)
    requires Displayed(a) && Displayed(b)
    requires MonthIndex(a) == MonthIndex(b)
    ensures a == b
  {
  }

  /** Next month undoes previous month and vice versa; next year undoes previous year and vice versa. */
  lemma NavigationRoundTrips(c: CalendarDate)
    requires Displayed(c)
    ensures NextMonth(PreviousMonth(c)) == c
    ensures PreviousMonth(NextMonth(c)) == c
    ensures NextYear(PreviousYear(c)) == c
    ensures PreviousYear(NextYear(c)) == c
  {
    MonthIndexInjective(NextMonth(PreviousMonth(c)), c);
    MonthIndexInjective(PreviousMonth(NextMonth(c)), c);
  }

  /** `n` presses of the next-month button. */
  function MonthsForward(c: CalendarDate, n: nat): (r: CalendarDate)
    requires Displayed(c)
    ensures Displayed(r)
  {
    if n == 0 then c else NextMonth(MonthsForward(c, n - 1))
  }

  /** After `n` presses the month index has advanced by `n`. */
  lemma {:induction false} MonthsForwardCounts(c: CalendarDate, n: nat)
    requires Displayed(c)
    ensures MonthIndex(MonthsForward(c, n)) == MonthIndex(c) + n
  {
    if n > 0 {
      MonthsForwardCounts(c, n - 1);
    }
  }

  /** Twelve presses of next month are one press of next year. */
  lemma TwelveMonthsAreAYear(c: CalendarDate)
    requires Displayed(c)
    ensures MonthsForward(c, 12) == NextYear(c)
  {
    MonthsForwardCounts(c, 12);
    MonthIndexInjective(MonthsForward(c, 12), NextYear(c));
  }

  /** The first of next month falls `DaysInMonth` days of the week after the first of this one. */
  lemma NextMonthStartsAfterThisOne(c: CalendarDate)
    requires Displayed(c)
    ensures FirstDayOfMonth(NextMonth(c)) == (FirstDayOfMonth(c) + DaysInMonth(c)) % 7
  {
    var (ny, nm) := NextMonthOf(c.year, c.month);
    assert NextMonth(c) == CalendarDate(ny, nm, 1);
    WeekDayAfterMonth(c.year, c.month);
  }

  /** 1 January 2024, the month the page opens on, was a Monday; 29 February 2024 existed. */
  lemma OpeningMonth()
    ensures FirstDayOfMonth(CalendarDate(2024, 0, 1)) == 1
    ensures DaysInMonth(CalendarDate(2024, 1, 1)) == 29
  {
    assert DayFromYear(2024) == 19723 by {
      DivMod4(55, 13, 3);
      DivMod100(123, 1, 23);
      DivMod400(423, 1, 23);
    }
    assert MakeDay(2024, 0, 1) == 19723 by {
      MakeDayInRange(2024, 0, 1);
    }
    DivMod7(19727, 2818, 1);
    assert InLeapYear(2024) by {
      DivMod4(2024, 506, 0);
      DivMod100(2024, 20, 24);
    }
  }

  // ---------------------------------------------------------------------------
  // Month arithmetic as written: every date goes through `new Date(y, m, d)`,
  // so a computed year from 0 to 99 is read as 1900 + year.

  /** `getDaysInMonth`: the date of day 0 of the following month. */
  function DaysInMonthAsWritten(c: CalendarDate): (n: int)
    requires 0 <= c.month < 12
    ensures n == MonthLength(FullYear(c.year), c.month)
  {
    DayZeroIsLastOfPreviousMonth(FullYear(c.year), c.month);
    NewDate(c.year, c.month + 1, 0).day
  }

  /** `getFirstDayOfMonth`: the weekday of day 1, 0 being Sunday. */
  function FirstDayOfMonthAsWritten(c: CalendarDate): (w: int)
    requires 0 <= c.month < 12
    ensures 0 <= w < 7
    ensures w == WeekDay(MakeDay(FullYear(c.year), c.month, 1))
  {
    var d := NewDate(c.year, c.month, 1);
    FirstOfMonth(FullYear(c.year), c.month);
    assert c.month / 12 == 0 && c.month % 12 == c.month;
    DayOfWeek(d)
  }

  /** `goToPreviousMonth`. */
  function PreviousMonthAsWritten(c: CalendarDate): (r: CalendarDate)
    requires 0 <= c.month < 12
    ensures Valid(r) && r.day == 1
    ensures r == PreviousMonth(CalendarDate(FullYear(c.year), c.month, 1))
  {
    FirstOfMonth(FullYear(c.year), c.month - 1);
    CarryBack(c.month);
    NewDate(c.year, c.month - 1, 1)
  }

  /** `goToNextMonth`. */
  function NextMonthAsWritten(c: CalendarDate): (r: CalendarDate)
    requires 0 <= c.month < 12
    ensures Valid(r) && r.day == 1
    ensures r == NextMonth(CalendarDate(FullYear(c.year), c.month, 1))
  {
    FirstOfMonth(FullYear(c.year), c.month + 1);
    CarryForward(c.month);
    NewDate(c.year, c.month + 1, 1)
  }

  /** `goToPreviousYear`. */
  function PreviousYearAsWritten(c: CalendarDate): (r: CalendarDate)
    requires 0 <= c.month < 12
    ensures Valid(r) && r.day == 1
    ensures r == CalendarDate(FullYear(c.year - 1), c.month, 1)
  {
    FirstOfMonth(FullYear(c.year - 1), c.month);
    assert c.month / 12 == 0 && c.month % 12 == c.month;
    NewDate(c.year - 1, c.month, 1)
  }

  /** `goToNextYear`. */
  function NextYearAsWritten(c: CalendarDate): (r: CalendarDate)
    requires 0 <= c.month < 12
    ensures Valid(r) && r.day == 1
    ensures r == CalendarDate(FullYear(c.year + 1), c.month, 1)
  {
    FirstOfMonth(FullYear(c.year + 1), c.month);
    assert c.month / 12 == 0 && c.month % 12 == c.month;
    NewDate(c.year + 1, c.month, 1)
  }

  /** From year 100 the previous-year button lands in 1999. */
  lemma PreviousYearFromYear100()
    ensures PreviousYearAsWritten(CalendarDate(100, 0, 1)) == CalendarDate(1999, 0, 1)
  {
  }

  /** From January of year 100, previous month then next month lands in January 2000. */
  lemma MonthRoundTripFromYear100()
    ensures PreviousMonthAsWritten(CalendarDate(100, 0, 1)) == CalendarDate(99, 11, 1)
    ensures NextMonthAsWritten(CalendarDate(99, 11, 1)) == CalendarDate(2000, 0, 1)
  {
  }

  /** Year 0 is a Gregorian leap year, but its February is measured in 1900, which is not. */
  lemma FebruaryOfYearZero()
    ensures InLeapYear(0)
    ensures DaysInMonthAsWritten(CalendarDate(0, 1, 1)) == 28
  {
    assert FullYear(0) == 1900;
    assert !InLeapYear(1900);
  }

  /** Where neither the year nor its neighbours are two-digit years, the code as written
      agrees with the corrected arithmetic. */
  lemma AsWrittenAgreesAwayFromTwoDigitYears(c: CalendarDate)
    requires 0 <= c.month < 12
    requires c.year < -1 || 100 < c.year
    ensures DaysInMonthAsWritten(c) == DaysInMonth(c)
    ensures FirstDayOfMonthAsWritten(c) == FirstDayOfMonth(c)
    ensures PreviousMonthAsWritten(c) == PreviousMonth(c)
    ensures NextMonthAsWritten(c) == NextMonth(c)
    ensures PreviousYearAsWritten(c) == PreviousYear(c)
    ensures NextYearAsWritten(c) == NextYear(c)
  {
    AsWrittenGridAgrees(c);
    AsWrittenNavigationAgrees(c);
  }

  /** The grid half of AsWrittenAgreesAwayFromTwoDigitYears: month length and first weekday. */
  lemma AsWrittenGridAgrees(c: CalendarDate)
    requires 0 <= c.month < 12
    requires c.year < 0 || 99 < c.year
    ensures DaysInMonthAsWritten(c) == DaysInMonth(c)
    ensures FirstDayOfMonthAsWritten(c) == FirstDayOfMonth(c)
  {
    assert FullYear(c.year) == c.year;
  }

  /** The navigation half of AsWrittenAgreesAwayFromTwoDigitYears: the four buttons. */
  lemma AsWrittenNavigationAgrees(c: CalendarDate)
    requires 0 <= c.month < 12
    requires c.year < -1 || 100 < c.year
    ensures PreviousMonthAsWritten(c) == PreviousMonth(c)
    ensures NextMonthAsWritten(c) == NextMonth(c)
    ensures PreviousYearAsWritten(c) == PreviousYear(c)
    ensures NextYearAsWritten(c) == NextYear(c)
  {
    assert FullYear(c.year) == c.year;
    assert FullYear(c.year - 1) == c.year - 1;
    assert FullYear(c.year + 1) == c.year + 1;
  }

  /** `getDaysInMonth` as written agrees with the Gregorian month length of its year read
      through the two-digit rule: it is always between 28 and 31. */
  lemma DaysInMonthAsWrittenRange(c: CalendarDate)
    requires 0 <= c.month < 12
    ensures 28 <= DaysInMonthAsWritten(c) <= 31
    ensures c.month == 1 ==> (DaysInMonthAsWritten(c) == 29 <==> InLeapYear(FullYear(c.year)))
  {
  }

  // ---------------------------------------------------------------------------
  // The calendar grid and the events of a day.

  /** The cells of the grid after the weekday header: `FirstDayOfMonth` blanks, then days 1..n. */
  method CalendarGrid(c: CalendarDate) returns (cells: seq<Option<int>>)
    requires 0 <= c.month < 12
    ensures |cells| == FirstDayOfMonth(c) + DaysInMonth(c)
    ensures |cells| <= 37
    ensures forall i :: 0 <= i < FirstDayOfMonth(c) ==> cells[i] == None
    ensures forall d :: 1 <= d <= DaysInMonth(c) ==> cells[FirstDayOfMonth(c) + d - 1] == Some(d)
  {
    cells := GridCells(FirstDayOfMonth(c), DaysInMonth(c));
  }

  /** `blanks` empty cells followed by the day numbers 1..days. */
  method GridCells(blanks: nat, days: nat) returns (cells: seq<Option<int>>)
    ensures |cells| == blanks + days
    ensures forall i :: 0 <= i < blanks ==> cells[i] == None
    ensures forall d :: 1 <= d <= days ==> cells[blanks + d - 1] == Some(d)
  {
    cells := [];
    var i := 0;
    while i < blanks
      invariant 0 <= i <= blanks
      invariant |cells| == i
      invariant forall j :: 0 <= j < i ==> cells[j] == None
    {
      cells := cells + [None];
      i := i + 1;
    }
    var d := 1;
    while d <= days
      invariant 1 <= d <= days + 1
      invariant |cells| == blanks + d - 1
      invariant forall j :: 0 <= j < blanks ==> cells[j] == None
      invariant forall e :: 1 <= e < d ==> cells[blanks + e - 1] == Some(e)
    {
      cells := cells + [Some(d)];
      d := d + 1;
    }
  }

  /** The event sits on day `day` of the displayed month. Events without a position never do. */
  predicate OnDay(e: Event, c: CalendarDate, day: int)
  {
    e.day == Some(day) && e.month == Some(c.month) && e.year == Some(c.year)
  }

  function OnDayOf(c: CalendarDate, day: int): Event -> bool
  {
    e => OnDay(e, c, day)
  }

  /** `getEventsForDay`: the events on that day, in list order. */
  function EventsForDay(events: seq<Event>, c: CalendarDate, day: int): (r: seq<Event>)
    ensures forall e :: e in r <==> e in events && OnDay(e, c, day)
    ensures forall e :: OnDay(e, c, day) ==> multiset(r)[e] == multiset(events)[e]
    ensures forall i :: 0 <= i < |r| ==> r[i].day.Some? && r[i].month.Some? && r[i].year.Some?
  {
    FilterCounts(events, OnDayOf(c, day));
    Filter(events, OnDayOf(c, day))
  }

  /** Events of a day keep their relative order: the lookup distributes over concatenation. */
  lemma EventsForDayKeepsOrder(xs: seq<Event>, ys: seq<Event>, c: CalendarDate, day: int)
    ensures EventsForDay(xs + ys, c, day) == EventsForDay(xs, c, day) + EventsForDay(ys, c, day)
  {
    FilterAppend(xs, ys, OnDayOf(c, day));
  }

  /** `handleDayClick`: always records the day; opens the first event of the day if there is one. */
  function DayClick(s: State, day: int): (r: State)
    ensures r.selectedDay == Some(day)
    ensures r.events == s.events && r.current == s.current
    ensures r.createOpen == s.createOpen && r.editOpen == s.editOpen && r.deleteOpen == s.deleteOpen
    ensures var hits := EventsForDay(s.events, s.current, day);
      if |hits| > 0 then r.viewOpen && r.selectedEvent == Some(hits[0])
      else r.viewOpen == s.viewOpen && r.selectedEvent == s.selectedEvent
  {
    var hits := EventsForDay(s.events, s.current, day);
    var s' := if |hits| > 0 then s.(selectedEvent := Some(hits[0]), viewOpen := true) else s;
    s'.(selectedDay := Some(day))
  }

  /** The event a day click opens is the first event of the list on that day. */
  lemma DayClickOpensFirstEventOfDay(s: State, day: int)
    requires EventsForDay(s.events, s.current, day) != []
    ensures var r := DayClick(s, day);
      r.selectedEvent.Some? && OnDay(r.selectedEvent.value, s.current, day) &&
      Find(s.events, OnDayOf(s.current, day)) == r.selectedEvent
  {
    FindIsFirstOfFilter(s.events, OnDayOf(s.current, day));
  }

  /** `handleViewEvent`: selects the event and opens the view modal; every other field is kept. */
  function ViewEvent(s: State, e: Event): (r: State)
    ensures r.selectedEvent == Some(e) && r.viewOpen
    ensures r.(selectedEvent := s.selectedEvent, viewOpen := s.viewOpen) == s
  {
    s.(selectedEvent := Some(e), viewOpen := true)
  }

  /** `handleEditEvent`: selects the event and opens the edit modal; every other field is kept. */
  function EditEvent(s: State, e: Event): (r: State)
    ensures r.selectedEvent == Some(e) && r.editOpen
    ensures r.(selectedEvent := s.selectedEvent, editOpen := s.editOpen) == s
  {
    s.(selectedEvent := Some(e), editOpen := true)
  }

  /** `handleDeleteEvent`: selects the event and opens the delete dialog; every other field is kept. */
  function DeleteEvent(s: State, e: Event): (r: State)
    ensures r.selectedEvent == Some(e) && r.deleteOpen
    ensures r.(selectedEvent := s.selectedEvent, deleteOpen := s.deleteOpen) == s
  {
    s.(selectedEvent := Some(e), deleteOpen := true)
  }

  /** `handleSaveEvent`: the updated event replaces every entry with its id; nothing else moves. */
  function SaveEvent(s: State, u: Event): (r: State)
    ensures |r.events| == |s.events|
    ensures forall i :: 0 <= i < |s.events| ==>
      r.events[i] == (if s.events[i].id == u.id then u else s.events[i])
    ensures r == s.(events := r.events)
  {
    s.(events := ReplaceById(s.events, u, EventId))
  }

  /** `handleConfirmDelete`: every event with the id goes, the others stay in order. */
  function ConfirmDelete(s: State, id: int): (r: State)
    ensures forall e :: e in r.events <==> e in s.events && e.id != id
    ensures (forall i :: 0 <= i < |s.events| ==> s.events[i].id != id) ==> r.events == s.events
    ensures r == s.(events := r.events)
  {
    var kept := DeleteById(s.events, id, EventId);
    assert (forall i :: 0 <= i < |s.events| ==> s.events[i].id != id) ==> kept == s.events by {
      if forall i :: 0 <= i < |s.events| ==> s.events[i].id != id {
        DeleteUnknownIsIdentity(s.events, id, EventId);
      }
    }
    s.(events := kept)
  }

  /** Deleting an id that exactly one event carries removes that event alone, keeping the order. */
  lemma ConfirmDeleteOfUniqueId(s: State, i: nat)
    requires i < |s.events|
    requires UniqueKeys(s.events, EventId)
    ensures ConfirmDelete(s, s.events[i].id).events == s.events[..i] + s.events[i+1..]
  {
    DeleteUniqueShortensByOne(s.events, i, EventId);
  }

  predicate IsUpcoming(e: Event)
  {
    e.status == "upcoming"
  }

  function UpcomingOf(): Event -> bool
  {
    e => IsUpcoming(e)
  }

  /** The side list of upcoming events. */
  function Upcoming(events: seq<Event>): (r: seq<Event>)
    ensures forall e :: e in r <==> e in events && e.status == "upcoming"
    ensures |r| <= |events|
  {
    Filter(events, UpcomingOf())
  }

  // Navigation handlers, with the corrected month arithmetic.

  function GoToPreviousMonth(s: State): (r: State)
    requires Displayed(s.current)
    ensures Displayed(r.current) && NextMonth(r.current) == s.current
    ensures r == s.(current := r.current)
  {
    s.(current := PreviousMonth(s.current))
  }

  function GoToNextMonth(s: State): (r: State)
    requires Displayed(s.current)
    ensures Displayed(r.current) && PreviousMonth(r.current) == s.current
    ensures r == s.(current := r.current)
  {
    s.(current := NextMonth(s.current))
  }

  function GoToPreviousYear(s: State): (r: State)
    requires Displayed(s.current)
    ensures r.current == CalendarDate(s.current.year - 1, s.current.month, 1)
    ensures r == s.(current := r.current)
  {
    s.(current := PreviousYear(s.current))
  }

  function GoToNextYear(s: State): (r: State)
    requires Displayed(s.current)
    ensures r.current == CalendarDate(s.current.year + 1, s.current.month, 1)
    ensures r == s.(current := r.current)
  {
    s.(current := NextYear(s.current))
  }
}

=== FILE: keyed_list.dfy ===
/**
 * The list edits every page repeats on its records, keyed by an `id` field:
 *   append          `[...xs, x]`
 *   prepend         `[x, ...xs]`
 *   replace-by-id   `xs.map(x => x.id === u.id ? u : x)`
 *   delete-by-id    `xs.filter(x => x.id !== id)`
 * The key is passed as a function so that one set of lemmas serves every record type.
 */
module KeyedList {
  import opened Wrappers
  import opened Seqs

  /** Records whose key equals `k`. */
  function KeyIs<T, K(==)>(key: T -> K, k: K): T -> bool
  {
    x => key(x) == k
  }

  /** Records whose key differs from `k`. */
  function KeyIsNot<T, K(==)>(key: T -> K, k: K): T -> bool
  {
    x => key(x) != k
  }

  /** No two records share a key. */
  ghost predicate UniqueKeys<T, K>(xs: seq<T>, key: T -> K)
  {
    forall i, j :: 0 <= i < |xs| && 0 <= j < |xs| && key(xs[i]) == key(xs[j]) ==> i == j
  }

  /** `[...xs, x]`: one record more, at the end, and the earlier ones untouched. */
  function Append<T>(xs: seq<T>, x: T): (r: seq<T>)
    ensures |r| == |xs| + 1
    ensures r[..|xs|] == xs
    ensures r[|xs|] == x
  {
    xs + [x]
  }

  /** `[x, ...xs]`: one record more, at the front, and the earlier ones following in order. */
  function Prepend<T>(x: T, xs: seq<T>): (r: seq<T>)
    ensures |r| == |xs| + 1
    ensures r[0] == x
    ensures r[1..] == xs
  {
    [x] + xs
  }

  /** `xs.map(x => key(x) === key(u) ? u : x)`. */
  function ReplaceById<T, K(==)>(xs: seq<T>, u: T, key: T -> K): (r: seq<T>)
    ensures |r| == |xs|
    ensures forall i :: 0 <= i < |xs| && key(xs[i]) == key(u) ==> r[i] == u
    ensures forall i :: 0 <= i < |xs| && key(xs[i]) != key(u) ==> r[i] == xs[i]
  {
    if |xs| == 0 then []
    else [if key(xs[0]) == key(u) then u else xs[0]] + ReplaceById(xs[1..], u, key)
  }

  /** Replacing keeps every position's key. */
  lemma ReplaceKeepsKeys<T, K>(xs: seq<T>, u: T, key: T -> K)
    ensures forall i :: 0 <= i < |xs| ==> key(ReplaceById(xs, u, key)[i]) == key(xs[i])
  {
  }

  /** Replacing a record whose key is absent leaves the list as it was. */
  lemma ReplaceUnknownIsIdentity<T, K>(xs: seq<T>, u: T, key: T -> K)
    requires forall i :: 0 <= i < |xs| ==> key(xs[i]) != key(u)
    ensures ReplaceById(xs, u, key) == xs
  {
  }

  /** Saving a record unchanged leaves a list with unique keys as it was. */
  lemma ReplaceWithSelfIsIdentity<T, K>(xs: seq<T>, i: nat, key: T -> K)
    requires i < |xs|
    requires UniqueKeys(xs, key)
    ensures ReplaceById(xs, xs[i], key) == xs
  {
    var r := ReplaceById(xs, xs[i], key);
    forall j | 0 <= j < |xs|
      ensures r[j] == xs[j]
    {
      if key(xs[j]) == key(xs[i]) {
        assert j == i;
      }
    }
  }

  /** Saving the same record twice is the same as saving it once. */
  lemma ReplaceIdempotent<T, K>(xs: seq<T>, u: T, key: T -> K)
    ensures ReplaceById(ReplaceById(xs, u, key), u, key) == ReplaceById(xs, u, key)
  {
    ReplaceKeepsKeys(xs, u, key);
  }

  /** After a replace, looking the key up finds the new record exactly when the key was present. */
  lemma ReplaceThenFind<T(!new), K>(xs: seq<T>, u: T, key: T -> K)
    ensures Find(ReplaceById(xs, u, key), KeyIs(key, key(u))).Some?
        <==> exists i :: 0 <= i < |xs| && key(xs[i]) == key(u)
    ensures Find(ReplaceById(xs, u, key), KeyIs(key, key(u))).Some? ==>
              Find(ReplaceById(xs, u, key), KeyIs(key, key(u))).value == u
  {
    var r := ReplaceById(xs, u, key);
    ReplaceKeepsKeys(xs, u, key);
    var p := KeyIs(key, key(u));
    var f := Find(r, p);
    if f.Some? {
      var j :| 0 <= j < |r| && r[j] == f.value;
      assert key(xs[j]) == key(u);
    }
    if exists i :: 0 <= i < |xs| && key(xs[i]) == key(u) {
      var i :| 0 <= i < |xs| && key(xs[i]) == key(u);
      assert r[i] in r && p(r[i]);
    } else {
      forall x | x in r
        ensures !p(x)
      {
        var j :| 0 <= j < |r| && r[j] == x;
      }
    }
  }


  /** `xs.filter(x => key(x) !== k)`. */
  function DeleteById<T(!new), K(==)>(xs: seq<T>, k: K, key: T -> K): (r: seq<T>)
    ensures forall i :: 0 <= i < |r| ==> key(r[i]) != k
    ensures forall x :: x in r <==> x in xs && key(x) != k
    ensures |r| == |xs| - |Filter(xs, KeyIs(key, k))|
  {
    FilterSplitsLength(xs, KeyIsNot(key, k));
    assert Filter(xs, Not(KeyIsNot(key, k))) == Filter(xs, KeyIs(key, k)) by {
      FilterSamePredicate(xs, Not(KeyIsNot(key, k)), KeyIs(key, k));
    }
    Filter(xs, KeyIsNot(key, k))
  }

  /** Two predicates that agree everywhere filter alike. */
  lemma {:induction false} FilterSamePredicate<T(!new)>(xs: seq<T>, p: T -> bool, q: T -> bool)
    requires forall x :: p(x) == q(x)
    ensures Filter(xs, p) == Filter(xs, q)
  {
    if |xs| > 0 {
      FilterSamePredicate(xs[1..], p, q);
    }
  }

  /** Deleting keeps the survivors in their original order: it distributes over concatenation. */
  lemma DeleteAppend<T(!new), K>(xs: seq<T>, ys: seq<T>, k: K, key: T -> K)
    ensures DeleteById(xs + ys, k, key) == DeleteById(xs, k, key) + DeleteById(ys, k, key)
  {
    FilterAppend(xs, ys, KeyIsNot(key, k));
  }

  /** On a single record, delete keeps it exactly when its key differs. */
  lemma DeleteSingleton<T(!new), K>(x: T, k: K, key: T -> K)
    ensures DeleteById([x], k, key) == (if key(x) == k then [] else [x])
  {
    assert [x][1..] == [];
  }

  /** Deleting a key no record carries leaves the list unchanged. */
  lemma DeleteUnknownIsIdentity<T(!new), K>(xs: seq<T>, k: K, key: T -> K)
    requires forall i :: 0 <= i < |xs| ==> key(xs[i]) != k
    ensures DeleteById(xs, k, key) == xs
  {
    FilterKeepsAll(xs, KeyIsNot(key, k));
  }

  /** Deleting the key of the one record that carries it removes just that record. */
  lemma DeleteAround<T(!new), K>(pre: seq<T>, x: T, post: seq<T>, key: T -> K)
    requires forall j :: 0 <= j < |pre| ==> key(pre[j]) != key(x)
    requires forall j :: 0 <= j < |post| ==> key(post[j]) != key(x)
    ensures DeleteById(pre + [x] + post, key(x), key) == pre + post
  {
    var k := key(x);
    DeleteAppend(pre + [x], post, k, key);
    DeleteAppend(pre, [x], k, key);
    DeleteSingleton(x, k, key);
    DeleteUnknownIsIdentity(pre, k, key);
    DeleteUnknownIsIdentity(post, k, key);
    assert pre + [] == pre;
  }

  /** Deleting a key that exactly one record carries shortens the list by one. */
  lemma DeleteUniqueShortensByOne<T(!new), K>(xs: seq<T>, i: nat, key: T -> K)
    requires i < |xs|
    requires UniqueKeys(xs, key)
    ensures DeleteById(xs, key(xs[i]), key) == xs[..i] + xs[i+1..]
    ensures |DeleteById(xs, key(xs[i]), key)| == |xs| - 1
  {
    var k := key(xs[i]);
    var pre, post := xs[..i], xs[i+1..];
    assert xs == pre + [xs[i]] + post;
    forall j | 0 <= j < |pre|
      ensures key(pre[j]) != k
    {
      assert pre[j] == xs[j];
    }
    forall j | 0 <= j < |post|
      ensures key(post[j]) != k
    {
      assert post[j] == xs[i + 1 + j];
    }
    DeleteAround(pre, xs[i], post, key);
  }

  /** Deleting twice by the same key is the same as deleting once. */
  lemma DeleteIdempotent<T(!new), K>(xs: seq<T>, k: K, key: T -> K)
    ensures DeleteById(DeleteById(xs, k, key), k, key) == DeleteById(xs, k, key)
  {
    DeleteUnknownIsIdentity(DeleteById(xs, k, key), k, key);
  }

  /** `xs.find(x => key(x) === k)`: the first record with the key; None is `undefined`. */
  function FindById<T(!new), K(==)>(xs: seq<T>, k: K, key: T -> K): (r: Option<T>)
    ensures r.Some? ==> r.value in xs && key(r.value) == k
    ensures r.None? <==> forall x :: x in xs ==> key(x) != k
  {
    Find(xs, KeyIs(key, k))
  }

  /** With unique keys, looking a record's key up finds that record. */
  lemma FindByIdUnique<T(!new), K>(xs: seq<T>, i: nat, key: T -> K)
    requires i < |xs|
    requires UniqueKeys(xs, key)
    ensures FindById(xs, key(xs[i]), key) == Some(xs[i])
  {
    assert xs[i] in xs;
    var r := FindById(xs, key(xs[i]), key);
    var j :| 0 <= j < |xs| && xs[j] == r.value;
  }

  /** After saving a record whose key is present, looking the key up finds the saved record. */
  lemma ReplaceThenFindById<T(!new), K>(xs: seq<T>, u: T, key: T -> K)
    requires exists i :: 0 <= i < |xs| && key(xs[i]) == key(u)
    ensures FindById(ReplaceById(xs, u, key), key(u), key) == Some(u)
  {
    ReplaceThenFind(xs, u, key);
  }
}

=== FILE: lay_officer_details.dfy ===
/**
 * The lay officer profile page: the record whose id matches the route, its years
 * serving, and the save handler the edit modal calls; its status badge is
 * `Ui.ActiveBadge`. The route parameter arrives already converted by `Number(id)`:
 * `None` stands for NaN.
 */
module LayOfficerDetails {
  import opened Wrappers
  import opened KeyedList
  import opened Numbers
  import opened Ui

  datatype Officer = Officer(
    id: int,
    name: string,
    position: string,
    society: string,
    since: string,
    status: string,
    email: string,
    phone: string,
    bio: string)

  function OfficerId(o: Officer): int
  {
    o.id
  }

  /** The year the page counts from. */
  const ReferenceYear := 2024

  /** `officersData.find(o => o.id === Number(id))`; `None` is the not-found branch. */
  function Lookup(records: seq<Officer>, id: Option<int>): (r: Option<Officer>)
    ensures r.Some? ==> r.value in records && id == Some(r.value.id)
    ensures r.None? <==> id.None? || forall o :: o in records ==> o.id != id.value
  {
    match id
    case None => None
    case Some(k) => FindById(records, k, OfficerId)
  }

  /** `handleSaveOfficer`: every record with the saved id is replaced; length and order are kept. */
  function Save(records: seq<Officer>, u: Officer): (r: seq<Officer>)
    ensures |r| == |records|
    ensures forall i :: 0 <= i < |records| ==> r[i] == (if records[i].id == u.id then u else records[i])
  {
    ReplaceById(records, u, OfficerId)
  }

  /** After a save, the page shows the saved record for its id if the id was present. */
  lemma SaveThenLookup(records: seq<Officer>, u: Officer)
    requires exists i :: 0 <= i < |records| && records[i].id == u.id
    ensures Lookup(Save(records, u), Some(u.id)) == Some(u)
  {
    ReplaceThenFindById(records, u, OfficerId);
  }

  /** With unique ids, saving an officer unchanged leaves the list as it was. */
  lemma SaveUnchanged(records: seq<Officer>, i: nat)
    requires i < |records|
    requires UniqueKeys(records, OfficerId)
    ensures Save(records, records[i]) == records
  {
    ReplaceWithSelfIsIdentity(records, i, OfficerId);
  }

  /** `2024 - parseInt(officer.since)`; `None` stands for NaN. */
  function YearsServing(since: string): (r: Option<int>)
    ensures r.Some? <==> ParseInt(since).Some?
    ensures r.Some? ==> r.value == ReferenceYear - ParseInt(since).value
  {
    match ParseInt(since)
    case None => None
    case Some(y) => Some(ReferenceYear - y)
  }

  /** A year written as a number gives its distance from 2024. */
  lemma YearsServingOfYear(year: int)
    ensures YearsServing(IntToString(year)) == Some(ReferenceYear - year)
  {
    ParseIntOfIntToString(year);
  }
}

=== FILE: numbers.dfy ===
/**
 * The two number conversions the forms rely on: `parseInt(string)` without a radix
 * (ECMA-262 5.1 section 15.1.2.2) and `Number.prototype.toString()` on integers.
 * NaN is represented by None.
 */
module Numbers {
  import opened Wrappers

  /** StrWhiteSpaceChar (ECMA-262 5.1 section 9.3.1): the white space and line terminators,
      with the space separators of current Unicode. */
  predicate IsWhiteSpace(c: char)
  {
    || c == ' ' || c == '\t' || c == '\n' || c == '\r'
    || c == '\U{000B}' || c == '\U{000C}' || c == '\U{00A0}' || c == '\U{FEFF}'
    || c == '\U{2028}' || c == '\U{2029}' || c == '\U{1680}'
    || ('\U{2000}' <= c <= '\U{200A}') || c == '\U{202F}' || c == '\U{205F}' || c == '\U{3000}'
  }

  /** `s` with its leading white space removed (step 2 of parseInt). */
  function TrimStart(s: string): (r: string)
    ensures |r| <= |s| && r == s[|s| - |r|..]
  {
    if |s| > 0 && IsWhiteSpace(s[0]) then TrimStart(s[1..]) else s
  }

  /** TrimStart removes white space and only white space, and stops at the first other character. */
  lemma {:induction false} TrimStartSkipsWhiteSpace(s: string)
    ensures forall i :: 0 <= i < |s| - |TrimStart(s)| ==> IsWhiteSpace(s[i])
    ensures |TrimStart(s)| > 0 ==> !IsWhiteSpace(TrimStart(s)[0])
  {
    if |s| > 0 && IsWhiteSpace(s[0]) {
      TrimStartSkipsWhiteSpace(s[1..]);
    }
  }

  /** The value of a digit in radix up to 36, or 36 when `c` is no digit at all. */
  function DigitValue(c: char): nat
  {
    if '0' <= c <= '9' then c as int - '0' as int
    else if 'a' <= c <= 'z' then c as int - 'a' as int + 10
    else if 'A' <= c <= 'Z' then c as int - 'A' as int + 10
    else 36
  }

  predicate IsDigitIn(c: char, radix: nat)
  {
    DigitValue(c) < radix
  }

  /** The length of the longest prefix of `s` made of radix-`radix` digits (step 11). */
  function DigitPrefixLength(s: string, radix: nat): (n: nat)
    ensures n <= |s|
  {
    if |s| > 0 && IsDigitIn(s[0], radix) then 1 + DigitPrefixLength(s[1..], radix) else 0
  }

  /** The prefix is made of digits and cannot be extended. */
  lemma {:induction false} DigitPrefixIsLongest(s: string, radix: nat)
    ensures forall i :: 0 <= i < DigitPrefixLength(s, radix) ==> IsDigitIn(s[i], radix)
    ensures DigitPrefixLength(s, radix) < |s| ==> !IsDigitIn(s[DigitPrefixLength(s, radix)], radix)
  {
    if |s| > 0 && IsDigitIn(s[0], radix) {
      DigitPrefixIsLongest(s[1..], radix);
    }
  }

  /** The number a digit string denotes, most significant digit first (used on digit
      strings only). */
  function DigitsValue(ds: string, radix: nat): nat
  {
    if |ds| == 0 then 0
    else
      var high := DigitsValue(ds[..|ds| - 1], radix);
      MulNat(high, radix);
      high * radix + DigitValue(ds[|ds| - 1])
  }

  lemma MulNat(a: nat, b: nat)
    ensures a * b >= 0
  {
  }

  /** A non-empty string of decimal digits and nothing else. */
  predicate IsDecimal(s: string)
  {
    |s| > 0 && forall i :: 0 <= i < |s| ==> '0' <= s[i] <= '9'
  }

  /** `parseInt(s)` with no radix: skip white space, read a sign, then read a magnitude. */
  function ParseInt(s: string): Option<int>
  {
    ParseSigned(TrimStart(s))
  }

  /** Steps 3-4 of parseInt: an optional `-` or `+`, then the magnitude. */
  function ParseSigned(t: string): Option<int>
  {
    var negative := |t| > 0 && t[0] == '-';
    var u := if |t| > 0 && (t[0] == '-' || t[0] == '+') then t[1..] else t;
    match ParseMagnitude(u)
    case None => None
    case Some(m) => var v: int := m; Some(if negative then -v else v)
  }

  /** Steps 10-15 of parseInt: radix 16 after `0x`/`0X`, radix 10 otherwise, then the longest
      run of digits; no digit at all gives NaN (None). */
  function ParseMagnitude(u: string): Option<nat>
  {
    var hex := |u| >= 2 && u[0] == '0' && (u[1] == 'x' || u[1] == 'X');
    var radix := if hex then 16 else 10;
    var v := if hex then u[2..] else u;
    var n := DigitPrefixLength(v, radix);
    if n == 0 then None else Some(DigitsValue(v[..n], radix))
  }

  /** `parseInt(s) || 0`: NaN (and zero) become 0. */
  function ParseIntOrZero(s: string): (r: int)
    ensures ParseInt(s).None? ==> r == 0
    ensures ParseInt(s).Some? ==> r == ParseInt(s).value
  {
    ParseInt(s).GetOr(0)
  }

  function DigitChar(d: nat): (c: char)
    requires d < 10
    ensures '0' <= c <= '9' && DigitValue(c) == d
  {
    ('0' as int + d) as char
  }

  /** The decimal numeral of a natural number, without leading zeros. */
  function NatToString(n: nat): (r: string)
    ensures |r| > 0
  {
    if n < 10 then [DigitChar(n)] else NatToString(n / 10) + [DigitChar(n % 10)]
  }

  /** The numeral is made of decimal digits and starts with 0 only for zero itself. */
  lemma {:induction false} NatToStringIsDecimal(n: nat)
    ensures IsDecimal(NatToString(n))
    ensures NatToString(n)[0] == '0' ==> n == 0 && |NatToString(n)| == 1
  {
    if n >= 10 {
      NatToStringIsDecimal(n / 10);
    }
  }

  /** `n.toString()` for an integer. */
  function IntToString(n: int): (r: string)
    ensures |r| > 0
  {
    if n < 0 then "-" + NatToString(-n) else NatToString(n)
  }

  /** A non-negative integer prints as digits; a negative one as a minus sign and digits. */
  lemma IntToStringShape(n: int)
    ensures n >= 0 ==> IsDecimal(IntToString(n))
    ensures n < 0 ==> |IntToString(n)| > 1 && IntToString(n)[0] == '-' && IsDecimal(IntToString(n)[1..])
  {
    if n < 0 {
      NatToStringIsDecimal(-n);
      assert IntToString(n)[1..] == NatToString(-n);
    } else {
      NatToStringIsDecimal(n);
    }
  }

  /** The numeral of `n` denotes `n`. */
  lemma {:induction false} NatToStringValue(n: nat)
    ensures DigitsValue(NatToString(n), 10) == n
  {
    if n >= 10 {
      var r := NatToString(n);
      NatToStringValue(n / 10);
      assert r[..|r| - 1] == NatToString(n / 10);
    }
  }

  /** A decimal string is read whole, in radix 10. */
  lemma ParseMagnitudeDecimal(s: string)
    requires IsDecimal(s)
    ensures ParseMagnitude(s) == Some(DigitsValue(s, 10))
  {
    DecimalPrefixIsAll(s);
    assert s[..|s|] == s;
  }

  lemma TrimStartNoop(w: string)
    requires |w| > 0 && !IsWhiteSpace(w[0])
    ensures TrimStart(w) == w
  {
  }

  /** A decimal string parses to the number it denotes. */
  lemma ParseDecimal(s: string)
    requires IsDecimal(s)
    ensures ParseInt(s) == Some(DigitsValue(s, 10) as int)
  {
    TrimStartNoop(s);
    ParseMagnitudeDecimal(s);
    assert ParseSigned(s) == Some(DigitsValue(s, 10) as int);
  }

  /** A minus sign followed by a decimal string parses to the negated number. */
  lemma ParseNegativeDecimal(t: string)
    requires |t| > 1 && t[0] == '-' && IsDecimal(t[1..])
    ensures ParseInt(t) == Some(-(DigitsValue(t[1..], 10) as int))
  {
    TrimStartNoop(t);
    ParseMagnitudeDecimal(t[1..]);
  }

  lemma {:induction false} DecimalPrefixIsAll(s: string)
    requires forall i :: 0 <= i < |s| ==> '0' <= s[i] <= '9'
    ensures DigitPrefixLength(s, 10) == |s|
  {
    if |s| > 0 {
      DecimalPrefixIsAll(s[1..]);
    }
  }

  /** Round trip: `parseInt(n.toString()) === n` for every integer. */
  lemma ParseIntOfIntToString(n: int)
    ensures ParseInt(IntToString(n)) == Some(n)
  {
    if n < 0 {
      ParseIntOfNegative(n);
    } else {
      ParseIntOfNatural(n);
    }
  }

  lemma ParseIntOfNatural(n: nat)
    ensures ParseInt(NatToString(n)) == Some(n as int)
  {
    NatToStringIsDecimal(n);
    NatToStringValue(n);
    ParseDecimal(NatToString(n));
  }

  lemma ParseIntOfNegative(n: int)
    requires n < 0
    ensures ParseInt(IntToString(n)) == Some(n)
  {
    NegativeNumeralValue(n);
    IntToStringShape(n);
    ParseNegativeDecimal(IntToString(n));
  }

  /** The digits after the minus sign denote the magnitude. */
  lemma NegativeNumeralValue(n: int)
    requires n < 0
    ensures DigitsValue(IntToString(n)[1..], 10) == -n
  {
    assert IntToString(n)[1..] == NatToString(-n);
    NatToStringValue(-n);
  }

  /** A leading zero does not change the value of a digit string. */
  lemma {:induction false} LeadingZeroValue(s: string, radix: nat)
    ensures DigitsValue(['0'] + s, radix) == DigitsValue(s, radix)
  {
    var t := ['0'] + s;
    if |s| > 0 {
      assert t[..|t| - 1] == ['0'] + s[..|s| - 1];
      LeadingZeroValue(s[..|s| - 1], radix);
    } else {
      assert t[..|t| - 1] == [];
    }
  }

  /** Any number of leading zeros leaves the value of a digit string alone. */
  lemma {:induction false} LeadingZerosValue(k: nat, s: string, radix: nat)
    ensures DigitsValue(ZeroRun(k) + s, radix) == DigitsValue(s, radix)
  {
    if k > 0 {
      LeadingZerosValue(k - 1, s, radix);
      assert ZeroRun(k) + s == ['0'] + (ZeroRun(k - 1) + s);
      LeadingZeroValue(ZeroRun(k - 1) + s, radix);
    } else {
      assert ZeroRun(k) + s == s;
    }
  }

  /** `k` zero digits. */
  function ZeroRun(k: nat): (r: string)
    ensures |r| == k
    ensures forall i :: 0 <= i < k ==> r[i] == '0'
  {
    if k == 0 then "" else ['0'] + ZeroRun(k - 1)
  }

  /** A number below 1000 has at most three digits. */
  lemma NumeralBelowThousand(n: nat)
    requires n < 1000
    ensures |NatToString(n)| <= 3
  {
    if n >= 10 {
      assert n / 10 < 100;
      if n / 10 >= 10 {
        assert NatToString(n / 10) == NatToString(n / 100) + [DigitChar((n / 10) % 10)];
      }
    }
  }
}

=== FILE: payments_page.dfy ===
/**
 * The payment records page: the list new payments are put in front of, the details
 * dialog, and the badge colour, icon and label each status is shown with.
 */
module PaymentsPage {
  import opened Wrappers
  import opened KeyedList
  import opened Ui

  /** A payment; `description` is only present on payments recorded through the form. */
  datatype Payment = Payment(
    id: int,
    reference: string,
    payer: string,
    amount: int,
    paymentMethod: string,
    date: string,
    description: Option<string>,
    status: string)

  const InitialPayments: seq<Payment> := [
    Payment(1, "PAY-2024-001", "Zion AME Osu", 5000, "Mobile Money", "2024-01-15", None, "completed"),
    Payment(2, "PAY-2024-002", "Wesley AME Tema", 3500, "Bank Transfer", "2024-01-14", None, "completed"),
    Payment(3, "PAY-2024-003", "Trinity AME Kumasi", 7200, "Mobile Money", "2024-01-13", None, "pending"),
    Payment(4, "PAY-2024-004", "Grace AME Cape Coast", 2800, "Cash", "2024-01-12", None, "completed"),
    Payment(5, "PAY-2024-005", "Faith AME Tamale", 4100, "Bank Transfer", "2024-01-11", None, "failed")
  ]

  datatype State = State(payments: seq<Payment>, addOpen: bool, viewOpen: bool, selected: Option<Payment>)

  function Initial(): (s: State)
    ensures s.payments == InitialPayments && !s.addOpen && !s.viewOpen && s.selected.None?
  {
    State(InitialPayments, false, false, None)
  }

  /** `handleAddPayment`: the new payment first, the earlier ones after it in their order. */
  function AddPayment(s: State, p: Payment): (r: State)
    ensures |r.payments| == |s.payments| + 1
    ensures r.payments[0] == p && r.payments[1..] == s.payments
    ensures r == s.(payments := r.payments)
  {
    s.(payments := Prepend(p, s.payments))
  }

  /** Payments added one after another are listed newest first. */
  lemma NewestFirst(s: State, a: Payment, b: Payment)
    ensures AddPayment(AddPayment(s, a), b).payments == [b, a] + s.payments
  {
  }

  /** `handleViewPayment`: selects the payment and opens the details dialog. */
  function ViewPayment(s: State, p: Payment): (r: State)
    ensures r.selected == Some(p) && r.viewOpen
    ensures r.payments == s.payments && r.addOpen == s.addOpen
  {
    s.(selected := Some(p), viewOpen := true)
  }

  /** The "Record Payment" button: opens the add dialog and touches nothing else. */
  function OpenAdd(s: State): (r: State)
    ensures r.addOpen
    ensures r.(addOpen := s.addOpen) == s
  {
    s.(addOpen := true)
  }

  /** The add dialog's `onClose`: closes it and touches nothing else. */
  function CloseAdd(s: State): (r: State)
    ensures !r.addOpen
    ensures r.(addOpen := s.addOpen) == s
  {
    s.(addOpen := false)
  }

  /** The details dialog's `onClose`: closes it; the selected payment stays selected. */
  function CloseView(s: State): (r: State)
    ensures !r.viewOpen && r.selected == s.selected
    ensures r.(viewOpen := s.viewOpen) == s
  {
    s.(viewOpen := false)
  }

  /** Opening and closing either dialog gives back the page it started from, except that a
      viewed payment stays selected. */
  lemma DialogRoundTrips(s: State, p: Payment)
    requires !s.addOpen && !s.viewOpen
    ensures CloseAdd(OpenAdd(s)) == s
    ensures CloseView(ViewPayment(s, p)) == s.(selected := Some(p))
  {
  }

  /** `getStatusVariant`. */
  function StatusVariant(status: string): (r: Variant)
    ensures r == Success <==> status == "completed"
    ensures r == Warning <==> status == "pending"
    ensures r == Destructive <==> status == "failed"
    ensures r == Default <==> status !in {"completed", "pending", "failed"}
  {
    if status == "completed" then Success
    else if status == "pending" then Warning
    else if status == "failed" then Destructive
    else Default
  }

  datatype Icon = CheckCircle | Clock | AlertCircle

  /** `getStatusIcon`; `None` is the `null` of an unknown status. */
  function StatusIcon(status: string): (r: Option<Icon>)
    ensures r == Some(CheckCircle) <==> status == "completed"
    ensures r == Some(Clock) <==> status == "pending"
    ensures r == Some(AlertCircle) <==> status == "failed"
    ensures r.None? <==> status !in {"completed", "pending", "failed"}
  {
    if status == "completed" then Some(CheckCircle)
    else if status == "pending" then Some(Clock)
    else if status == "failed" then Some(AlertCircle)
    else None
  }

  /** A badge without an icon is exactly a badge in the default colour. */
  lemma IconIffColoured(status: string)
    ensures StatusIcon(status).None? <==> StatusVariant(status) == Default
  {
  }

  /** The badge text of the three known statuses. */
  lemma KnownStatusLabels()
    ensures StatusLabel("completed") == "Completed"
    ensures StatusLabel("pending") == "Pending"
    ensures StatusLabel("failed") == "Failed"
  {
    assert StatusLabel("completed")[1..] == "completed"[1..];
    assert StatusLabel("pending")[1..] == "pending"[1..];
    assert StatusLabel("failed")[1..] == "failed"[1..];
  }
}

=== FILE: reports_page.dfy ===
/**
 * The reports page: the list of generated reports with its view and delete dialogs,
 * and the collections chart whose series is chosen by the year selector.
 */
module ReportsPage {
  import opened Wrappers
  import opened KeyedList

  datatype Report = Report(id: int, name: string, kind: string, generated: string, size: string, period: string)

  function ReportId(r: Report): int
  {
    r.id
  }

  datatype MonthAmount = MonthAmount(month: string, amount: int)

  const Months: seq<string> := ["Jan", "Feb", "Mar", "Apr", "May", "Jun", "Jul", "Aug", "Sep", "Oct", "Nov", "Dec"]

  /** One year's chart series: a month label paired with each amount, January first. */
  function Series(amounts: seq<int>): (r: seq<MonthAmount>)
    requires |amounts| == 12
    ensures |r| == 12
    ensures forall i :: 0 <= i < 12 ==> r[i] == MonthAmount(Months[i], amounts[i])
  {
    seq(12, i requires 0 <= i < 12 => MonthAmount(Months[i], amounts[i]))
  }

  /** `collectionsDataByYear`. */
  const CollectionsByYear: map<string, seq<MonthAmount>> := map[
    "2024" := Series([45000, 52000, 48000, 61000, 55000, 67000, 72000, 69000, 78000, 82000, 75000, 91000]),
    "2023" := Series([38000, 42000, 45000, 51000, 49000, 58000, 62000, 59000, 65000, 71000, 68000, 79000]),
    "2022" := Series([32000, 35000, 38000, 42000, 40000, 48000, 52000, 49000, 55000, 58000, 54000, 65000])
  ]

  /** The values the year selector offers. */
  const YearOptions: seq<string> := ["2024", "2023", "2022"]

  datatype State = State(
    reports: seq<Report>,
    generateOpen: bool,
    viewOpen: bool,
    deleteOpen: bool,
    selected: Option<Report>,
    selectedYear: string)

  function Initial(reports: seq<Report>): (s: State)
    ensures s.reports == reports && s.selected.None? && s.selectedYear == "2024"
    ensures !s.generateOpen && !s.viewOpen && !s.deleteOpen
  {
    State(reports, false, false, false, None, "2024")
  }

  /** The page's year is one the selector offers. */
  predicate YearSelectable(s: State)
  {
    s.selectedYear in YearOptions
  }

  /** The selector's `onChange`: it can only report one of its own options. */
  function SelectYear(s: State, year: string): (r: State)
    requires year in YearOptions
    ensures YearSelectable(r) && r.selectedYear == year
    ensures r.(selectedYear := s.selectedYear) == s
  {
    s.(selectedYear := year)
  }

  /** `collectionsDataByYear[selectedYear]`; `None` is `undefined`. */
  function ChartData(s: State): (r: Option<seq<MonthAmount>>)
    ensures r.Some? <==> s.selectedYear in CollectionsByYear
  {
    if s.selectedYear in CollectionsByYear then Some(CollectionsByYear[s.selectedYear]) else None
  }

  /** Every offered year has a twelve-month series, so the chart always has data. */
  lemma ChartAlwaysDefined(s: State)
    requires YearSelectable(s)
    ensures ChartData(s).Some?
    ensures |ChartData(s).value| == 12
    ensures forall i :: 0 <= i < 12 ==> ChartData(s).value[i].month == Months[i]
  {
    assert s.selectedYear == "2024" || s.selectedYear == "2023" || s.selectedYear == "2022";
  }

  /** The "Generate Report" button: opens the generate dialog and touches nothing else. */
  function OpenGenerate(s: State): (r: State)
    ensures r.generateOpen
    ensures r.(generateOpen := s.generateOpen) == s
  {
    s.(generateOpen := true)
  }

  /** The generate dialog's `onClose`: closes it and touches nothing else. */
  function CloseGenerate(s: State): (r: State)
    ensures !r.generateOpen
    ensures r.(generateOpen := s.generateOpen) == s
  {
    s.(generateOpen := false)
  }

  /** The view dialog's `onClose`: closes it; the report stays selected. */
  function CloseView(s: State): (r: State)
    ensures !r.viewOpen && r.selected == s.selected
    ensures r.(viewOpen := s.viewOpen) == s
  {
    s.(viewOpen := false)
  }

  /** The delete dialog's `onClose`: closes it; the report stays selected. */
  function CloseDelete(s: State): (r: State)
    ensures !r.deleteOpen && r.selected == s.selected
    ensures r.(deleteOpen := s.deleteOpen) == s
  {
    s.(deleteOpen := false)
  }

  /** Opening and closing a dialog gives back the page it started from, except that a
      viewed or deleted report stays selected. */
  lemma DialogRoundTrips(s: State, report: Report)
    requires !s.generateOpen && !s.viewOpen && !s.deleteOpen
    ensures CloseGenerate(OpenGenerate(s)) == s
    ensures CloseView(ViewReport(s, report)) == s.(selected := Some(report))
    ensures CloseDelete(DeleteReport(s, report)) == s.(selected := Some(report))
  {
  }

  /** `handleViewReport`: selects the report and opens the view dialog only. */
  function ViewReport(s: State, report: Report): (r: State)
    ensures r.selected == Some(report) && r.viewOpen
    ensures r.deleteOpen == s.deleteOpen && r.generateOpen == s.generateOpen
    ensures r.reports == s.reports && r.selectedYear == s.selectedYear
  {
    s.(selected := Some(report), viewOpen := true)
  }

  /** `handleDeleteReport`: selects the report and opens the delete dialog only. */
  function DeleteReport(s: State, report: Report): (r: State)
    ensures r.selected == Some(report) && r.deleteOpen
    ensures r.viewOpen == s.viewOpen && r.generateOpen == s.generateOpen
    ensures r.reports == s.reports && r.selectedYear == s.selectedYear
  {
    s.(selected := Some(report), deleteOpen := true)
  }

  /**
   * `handleConfirmDelete`: the report named in the notice (`None` prints as undefined)
   * and the page without every report of that id.
   */
  function ConfirmDelete(s: State, id: int): (r: (Option<Report>, State))
    ensures r.0.Some? ==> r.0.value in s.reports && r.0.value.id == id
    ensures r.0.None? <==> forall x :: x in s.reports ==> x.id != id
    ensures forall x :: x in r.1.reports <==> x in s.reports && x.id != id
    ensures r.0.None? ==> r.1.reports == s.reports
    ensures r.1 == s.(reports := r.1.reports)
  {
    var found := FindById(s.reports, id, ReportId);
    var kept := DeleteById(s.reports, id, ReportId);
    assert found.None? ==> kept == s.reports by {
      if found.None? {
        DeleteUnknownIsIdentity(s.reports, id, ReportId);
      }
    }
    (found, s.(reports := kept))
  }

  /** Deleting the id of a report that alone carries it removes just that report, in place. */
  lemma ConfirmDeleteOfUniqueId(s: State, i: nat)
    requires i < |s.reports|
    requires UniqueKeys(s.reports, ReportId)
    ensures ConfirmDelete(s, s.reports[i].id).1.reports == s.reports[..i] + s.reports[i+1..]
    ensures ConfirmDelete(s, s.reports[i].id).0 == Some(s.reports[i])
  {
    DeleteUniqueShortensByOne(s.reports, i, ReportId);
    FindByIdUnique(s.reports, i, ReportId);
  }

  /** Deleting twice with the same id is the same as deleting once. */
  lemma ConfirmDeleteIdempotent(s: State, id: int)
    ensures ConfirmDelete(ConfirmDelete(s, id).1, id).1 == ConfirmDelete(s, id).1
  {
    DeleteIdempotent(s.reports, id, ReportId);
  }
}

=== FILE: seqs.dfy ===
/**
 * The array operations the pages use on their in-memory lists:
 * `filter`, `find` and counting, stated over immutable sequences.
 */
module Seqs {
  import opened Wrappers

  /** `xs.filter(p)`: the elements of `xs` satisfying `p`, in their original order. */
  function Filter<T(!new)>(xs: seq<T>, p: T -> bool): (r: seq<T>)
    ensures |r| <= |xs|
    ensures forall i :: 0 <= i < |r| ==> p(r[i])
    ensures forall x :: x in r <==> x in xs && p(x)
  {
    if |xs| == 0 then []
    else
      assert xs == [xs[0]] + xs[1..];
      (if p(xs[0]) then [xs[0]] else []) + Filter(xs[1..], p)
  }

  /** Filtering keeps every occurrence of an accepted element and none of a rejected one. */
  lemma {:induction false} FilterCounts<T(!new)>(xs: seq<T>, p: T -> bool)
    ensures forall x :: p(x) ==> multiset(Filter(xs, p))[x] == multiset(xs)[x]
    ensures forall x :: !p(x) ==> multiset(Filter(xs, p))[x] == 0
  {
    if |xs| > 0 {
      FilterCounts(xs[1..], p);
      assert xs == [xs[0]] + xs[1..];
    }
  }

  /** The index of the first element satisfying `p` (`xs.findIndex(p)`, with -1 as None). */
  function FindIndex<T(!new)>(xs: seq<T>, p: T -> bool): (r: Option<nat>)
    ensures r.Some? ==> r.value < |xs| && p(xs[r.value])
    ensures r.Some? ==> forall j :: 0 <= j < r.value ==> !p(xs[j])
    ensures r.None? <==> forall j :: 0 <= j < |xs| ==> !p(xs[j])
  {
    if |xs| == 0 then None
    else if p(xs[0]) then Some(0)
    else
      match FindIndex(xs[1..], p)
      case None => None
      case Some(i) => Some(i + 1)
  }

  /** `xs.find(p)`: the first element satisfying `p`, or None (`undefined`). */
  function Find<T(!new)>(xs: seq<T>, p: T -> bool): (r: Option<T>)
    ensures r.Some? ==> r.value in xs && p(r.value)
    ensures r.None? <==> forall x :: x in xs ==> !p(x)
  {
    match FindIndex(xs, p)
    case None => None
    case Some(i) => Some(xs[i])
  }

  /** `find` returns the head of what `filter` would return. */
  lemma {:induction false} FindIsFirstOfFilter<T(!new)>(xs: seq<T>, p: T -> bool)
    ensures Find(xs, p).Some? <==> |Filter(xs, p)| > 0
    ensures Find(xs, p).Some? ==> Find(xs, p).value == Filter(xs, p)[0]
  {
    if |xs| > 0 && !p(xs[0]) {
      FindIsFirstOfFilter(xs[1..], p);
    }
  }

  /** Filtering distributes over concatenation: it keeps the original order. */
  lemma {:induction false} FilterAppend<T(!new)>(xs: seq<T>, ys: seq<T>, p: T -> bool)
    ensures Filter(xs + ys, p) == Filter(xs, p) + Filter(ys, p)
  {
    if |xs| == 0 {
      assert xs + ys == ys;
    } else {
      assert (xs + ys)[1..] == xs[1..] + ys;
      FilterAppend(xs[1..], ys, p);
    }
  }

  /** A filter that rejects nothing returns its input unchanged. */
  lemma {:induction false} FilterKeepsAll<T(!new)>(xs: seq<T>, p: T -> bool)
    requires forall i :: 0 <= i < |xs| ==> p(xs[i])
    ensures Filter(xs, p) == xs
  {
    if |xs| > 0 {
      FilterKeepsAll(xs[1..], p);
    }
  }

  /** A filter that accepts nothing returns the empty sequence. */
  lemma {:induction false} FilterDropsAll<T(!new)>(xs: seq<T>, p: T -> bool)
    requires forall i :: 0 <= i < |xs| ==> !p(xs[i])
    ensures Filter(xs, p) == []
  {
    if |xs| > 0 {
      FilterDropsAll(xs[1..], p);
    }
  }

  /** The complement of a predicate. */
  function Not<T(!new)>(p: T -> bool): T -> bool
  {
    x => !p(x)
  }

  /** Every element goes to exactly one of `filter(p)` and `filter(!p)`. */
  lemma {:induction false} FilterSplitsLength<T(!new)>(xs: seq<T>, p: T -> bool)
    ensures |Filter(xs, p)| + |Filter(xs, Not(p))| == |xs|
  {
    if |xs| > 0 {
      FilterSplitsLength(xs[1..], p);
    }
  }

  /** Filtering twice with the same predicate changes nothing the second time. */
  lemma FilterIdempotent<T(!new)>(xs: seq<T>, p: T -> bool)
    ensures Filter(Filter(xs, p), p) == Filter(xs, p)
  {
    var r := Filter(xs, p);
    FilterKeepsAll(r, p);
  }
}

=== FILE: settings_page.dfy ===
/**
 * The settings page: the payment-method accordion, the mobile money and bank account
 * forms it reveals, and the password change form with its three visibility toggles.
 */
module SettingsPage {
  import opened Wrappers

  datatype Section = Mobile | Bank

  datatype MobileField = Provider | MobileAccountName | PhoneNumber
  datatype BankField = BankName | BankAccountName | AccountNumber | BranchName | SwiftCode
  datatype PasswordField = Current | New | Confirm

  datatype MobileForm = MobileForm(provider: string, accountName: string, phoneNumber: string)
  datatype BankForm = BankForm(bankName: string, accountName: string, accountNumber: string, branchName: string, swiftCode: string)
  datatype PasswordForm = PasswordForm(currentPassword: string, newPassword: string, confirmPassword: string)
  datatype Visibility = Visibility(showCurrent: bool, showNew: bool, showConfirm: bool)

  datatype State = State(
    expanded: Option<Section>,
    mobile: MobileForm,
    bank: BankForm,
    password: PasswordForm,
    visible: Visibility)

  function Initial(): (s: State)
    ensures s.expanded.None?
    ensures s.password == PasswordForm("", "", "")
    ensures !s.visible.showCurrent && !s.visible.showNew && !s.visible.showConfirm
  {
    State(None, MobileForm("", "", ""), BankForm("", "", "", "", ""), PasswordForm("", "", ""),
          Visibility(false, false, false))
  }

  /** The section whose form is shown. */
  predicate IsExpanded(s: State, section: Section)
  {
    s.expanded == Some(section)
  }

  /** A click on a section header: collapses it if it was open, else opens it alone. */
  function ToggleSection(s: State, section: Section): (r: State)
    ensures IsExpanded(r, section) <==> !IsExpanded(s, section)
    ensures forall other :: other != section ==> !IsExpanded(r, other)
    ensures r.(expanded := s.expanded) == s
  {
    s.(expanded := if s.expanded == Some(section) then None else Some(section))
  }

  /** Since the accordion holds one optional section, no two sections are open together. */
  lemma AtMostOneSection(s: State, a: Section, b: Section)
    requires IsExpanded(s, a) && IsExpanded(s, b)
    ensures a == b
  {
  }

  /** Collapsing and reopening a section keeps what was typed into its form. */
  lemma ReopeningKeepsTheForm(s: State, section: Section)
    requires IsExpanded(s, section)
    ensures ToggleSection(ToggleSection(s, section), section) == s
  {
  }

  function GetMobile(f: MobileForm, field: MobileField): string
  {
    match field
    case Provider => f.provider
    case MobileAccountName => f.accountName
    case PhoneNumber => f.phoneNumber
  }

  /** `setMobileMoneyForm({ ...mobileMoneyForm, <field>: value })`. */
  function SetMobile(f: MobileForm, field: MobileField, value: string): (r: MobileForm)
    ensures GetMobile(r, field) == value
    ensures forall other :: other != field ==> GetMobile(r, other) == GetMobile(f, other)
  {
    match field
    case Provider => f.(provider := value)
    case MobileAccountName => f.(accountName := value)
    case PhoneNumber => f.(phoneNumber := value)
  }

  function GetBank(f: BankForm, field: BankField): string
  {
    match field
    case BankName => f.bankName
    case BankAccountName => f.accountName
    case AccountNumber => f.accountNumber
    case BranchName => f.branchName
    case SwiftCode => f.swiftCode
  }

  /** `setBankForm({ ...bankForm, <field>: value })`. */
  function SetBank(f: BankForm, field: BankField, value: string): (r: BankForm)
    ensures GetBank(r, field) == value
    ensures forall other :: other != field ==> GetBank(r, other) == GetBank(f, other)
  {
    match field
    case BankName => f.(bankName := value)
    case BankAccountName => f.(accountName := value)
    case AccountNumber => f.(accountNumber := value)
    case BranchName => f.(branchName := value)
    case SwiftCode => f.(swiftCode := value)
  }

  function GetPassword(f: PasswordForm, field: PasswordField): string
  {
    match field
    case Current => f.currentPassword
    case New => f.newPassword
    case Confirm => f.confirmPassword
  }

  /** `setPasswordForm({ ...passwordForm, <field>: value })`. */
  function SetPassword(f: PasswordForm, field: PasswordField, value: string): (r: PasswordForm)
    ensures GetPassword(r, field) == value
    ensures forall other :: other != field ==> GetPassword(r, other) == GetPassword(f, other)
  {
    match field
    case Current => f.(currentPassword := value)
    case New => f.(newPassword := value)
    case Confirm => f.(confirmPassword := value)
  }

  /** Two forms agreeing on every field are the same form. */
  lemma MobileFormsEqualByFields(f: MobileForm, g: MobileForm)
    requires forall field :: GetMobile(f, field) == GetMobile(g, field)
    ensures f == g
  {
    assert GetMobile(f, Provider) == GetMobile(g, Provider);
    assert GetMobile(f, MobileAccountName) == GetMobile(g, MobileAccountName);
    assert GetMobile(f, PhoneNumber) == GetMobile(g, PhoneNumber);
  }

  lemma BankFormsEqualByFields(f: BankForm, g: BankForm)
    requires forall field :: GetBank(f, field) == GetBank(g, field)
    ensures f == g
  {
    assert GetBank(f, BankName) == GetBank(g, BankName);
    assert GetBank(f, BankAccountName) == GetBank(g, BankAccountName);
    assert GetBank(f, AccountNumber) == GetBank(g, AccountNumber);
    assert GetBank(f, BranchName) == GetBank(g, BranchName);
    assert GetBank(f, SwiftCode) == GetBank(g, SwiftCode);
  }

  /** Typing back a field's old value leaves the form as it was. */
  lemma SetMobileRestores(f: MobileForm, field: MobileField, value: string)
    ensures SetMobile(SetMobile(f, field, value), field, GetMobile(f, field)) == f
  {
    MobileFormsEqualByFields(SetMobile(SetMobile(f, field, value), field, GetMobile(f, field)), f);
  }

  lemma SetBankRestores(f: BankForm, field: BankField, value: string)
    ensures SetBank(SetBank(f, field, value), field, GetBank(f, field)) == f
  {
    BankFormsEqualByFields(SetBank(SetBank(f, field, value), field, GetBank(f, field)), f);
  }

  /** An input of the mobile money form; its inputs exist only while that section is open. */
  function TypeMobile(s: State, field: MobileField, value: string): (r: State)
    ensures IsExpanded(s, Mobile) ==> r == s.(mobile := SetMobile(s.mobile, field, value))
    ensures !IsExpanded(s, Mobile) ==> r == s
  {
    if IsExpanded(s, Mobile) then s.(mobile := SetMobile(s.mobile, field, value)) else s
  }

  /** An input of the bank account form; its inputs exist only while that section is open. */
  function TypeBank(s: State, field: BankField, value: string): (r: State)
    ensures IsExpanded(s, Bank) ==> r == s.(bank := SetBank(s.bank, field, value))
    ensures !IsExpanded(s, Bank) ==> r == s
  {
    if IsExpanded(s, Bank) then s.(bank := SetBank(s.bank, field, value)) else s
  }

  function Shown(v: Visibility, field: PasswordField): bool
  {
    match field
    case Current => v.showCurrent
    case New => v.showNew
    case Confirm => v.showConfirm
  }

  /** The eye button beside a password input: flips that input's visibility only. */
  function ToggleVisibility(v: Visibility, field: PasswordField): (r: Visibility)
    ensures Shown(r, field) == !Shown(v, field)
    ensures forall other :: other != field ==> Shown(r, other) == Shown(v, other)
  {
    match field
    case Current => v.(showCurrent := !v.showCurrent)
    case New => v.(showNew := !v.showNew)
    case Confirm => v.(showConfirm := !v.showConfirm)
  }

  lemma ToggleVisibilityTwice(v: Visibility, field: PasswordField)
    ensures ToggleVisibility(ToggleVisibility(v, field), field) == v
  {
  }

  /** What pressing "Update Password" leads to. The three inputs are `required`, so the
      browser does not submit the form while one of them is empty. */
  datatype Outcome = Blocked | Mismatch | Changed

  /** `handlePasswordChange` behind the browser's required-field check. */
  function SubmitPassword(f: PasswordForm): (r: (Outcome, PasswordForm))
    ensures r.0 == Changed <==> f.currentPassword != "" && f.newPassword != "" && f.confirmPassword != "" && f.newPassword == f.confirmPassword
    ensures r.0 == Mismatch <==> f.currentPassword != "" && f.newPassword != "" && f.confirmPassword != "" && f.newPassword != f.confirmPassword
    ensures r.0 != Changed ==> r.1 == f
    ensures r.0 == Changed ==> r.1 == PasswordForm("", "", "")
  {
    if f.currentPassword == "" || f.newPassword == "" || f.confirmPassword == "" then (Blocked, f)
    else if f.newPassword != f.confirmPassword then (Mismatch, f)
    else (Changed, PasswordForm("", "", ""))
  }

  /** The current password is never compared with anything: any non-empty value works. */
  lemma CurrentPasswordIsNotChecked(f: PasswordForm, other: string)
    requires other != ""
    requires f.currentPassword != ""
    ensures SubmitPassword(f.(currentPassword := other)).0 == SubmitPassword(f).0
  {
  }

  /** A successful change empties the form, so pressing again is blocked until it is refilled. */
  lemma ResubmitAfterChangeIsBlocked(f: PasswordForm)
    requires SubmitPassword(f).0 == Changed
    ensures SubmitPassword(SubmitPassword(f).1).0 == Blocked
  {
  }
}

=== FILE: show_more.dfy ===
/**
 * The "show N more" / "show less" rule that the conference and district profile
 * pages share: a collapsed table shows its first four rows, an expanded one all rows,
 * and the two buttons only appear when there is something to hide.
 */
module ShowMore {
  import opened Wrappers

  /** How many rows a collapsed table shows. */
  const Limit := 4

  /** `showAll ? list : list.slice(0, 4)`. */
  function Displayed<T>(xs: seq<T>, showAll: bool): (r: seq<T>)
    ensures showAll ==> r == xs
    ensures !showAll ==> |r| == (if |xs| < Limit then |xs| else Limit)
    ensures r == xs[..|r|]
  {
    if showAll then xs
    else if |xs| < Limit then xs
    else xs[..Limit]
  }

  /** The "Show N more" button, with its N; `None` when it is not rendered. */
  function ShowMoreButton(n: nat, showAll: bool): (r: Option<nat>)
    ensures r.Some? <==> !showAll && n > Limit
    ensures r.Some? ==> r.value == n - Limit && r.value > 0
  {
    if !showAll && n > Limit then Some(n - Limit) else None
  }

  /** Whether the "Show less" button is rendered. */
  predicate ShowLessVisible(n: nat, showAll: bool)
  {
    showAll && n > Limit
  }

  /** The state a profile page keeps: whether its edit modal is open and whether its
      table is expanded. */
  datatype ProfileState = ProfileState(editOpen: bool, showAll: bool)

  /** A profile page opens with its edit modal closed and its table collapsed. */
  function Opening(): (s: ProfileState)
    ensures !s.editOpen && !s.showAll
    ensures Displayed(seq(Limit + 1, i => i), s.showAll) == seq(Limit, i => i)
  {
    ProfileState(false, false)
  }

  /** The profile's Edit button: opens the edit modal; the table stays as it was. */
  function OpenEdit(s: ProfileState): (r: ProfileState)
    ensures r.editOpen && r.showAll == s.showAll
  {
    s.(editOpen := true)
  }

  /** The edit modal's `onClose`: closes it; the table stays as it was. */
  function CloseEdit(s: ProfileState): (r: ProfileState)
    ensures !r.editOpen && r.showAll == s.showAll
  {
    s.(editOpen := false)
  }

  /** Opening and closing the edit modal gives back the page it started from. */
  lemma EditRoundTrip(s: ProfileState)
    requires !s.editOpen
    ensures CloseEdit(OpenEdit(s)) == s
  {
  }

  /** The count on the button is exactly the number of rows the collapsed table hides. */
  lemma ShowMoreCountsHiddenRows<T>(xs: seq<T>, showAll: bool)
    requires ShowMoreButton(|xs|, showAll).Some?
    ensures |Displayed(xs, showAll)| + ShowMoreButton(|xs|, showAll).value == |xs|
  {
  }

  /** Rows are hidden exactly when the "Show more" button is there to reveal them. */
  lemma HiddenRowsHaveAButton<T>(xs: seq<T>, showAll: bool)
    ensures |Displayed(xs, showAll)| < |xs| <==> ShowMoreButton(|xs|, showAll).Some?
  {
  }

  /** With more than four rows exactly one of the two buttons is shown; otherwise neither. */
  lemma OneButtonAtATime(n: nat, showAll: bool)
    ensures n > Limit ==> (ShowMoreButton(n, showAll).Some? != ShowLessVisible(n, showAll))
    ensures n <= Limit ==> ShowMoreButton(n, showAll).None? && !ShowLessVisible(n, showAll)
  {
  }

  /** Pressing "Show more" then "Show less" gives back the collapsed table; the reverse
      order gives back the expanded one. */
  lemma ToggleRoundTrip<T>(xs: seq<T>)
    ensures Displayed(xs, true) == xs
    ensures |xs| > Limit ==> Displayed(xs, false) == xs[..Limit] && Displayed(xs, false) != xs
  {
  }

  /** `id ? data[id] : null`: the empty or missing route parameter, and any unknown key,
      is the not-found branch. */
  function LookupKey<T>(data: map<string, T>, id: Option<string>): (r: Option<T>)
    ensures r.Some? <==> id.Some? && id.value != "" && id.value in data
    ensures r.Some? ==> r.value == data[id.value]
  {
    if id.Some? && id.value != "" && id.value in data then Some(data[id.value]) else None
  }
}

=== FILE: sidebar.dfy ===
/**
 * The navigation sidebar: which item is highlighted for the current path, where a
 * collapsed item links to, the fixed navigation table, and the sidebar's own toggles.
 */
module Sidebar {
  import opened Text

  datatype Link = Link(to: string, title: string)

  /** A navigation entry; an empty `children` stands for an absent list. */
  datatype NavItem = NavItem(to: string, title: string, children: seq<Link>)

  /** `pathname === to || pathname.startsWith(to + '/')`. */
  predicate IsActive(path: string, to: string)
  {
    path == to || StartsWith(path, to + "/")
  }

  /** The match is segment-aware: the route must be followed by the end of the path or by '/'. */
  lemma IsActiveIff(path: string, to: string)
    ensures IsActive(path, to) <==>
      |to| <= |path| && path[..|to|] == to && (|path| == |to| || path[|to|] == '/')
  {
    if |to| < |path| && path[..|to|] == to && path[|to|] == '/' {
      assert path[..|to| + 1] == to + "/";
    }
    if StartsWith(path, to + "/") {
      assert path[..|to|] == (to + "/")[..|to|];
    }
  }

  /** `/members` is highlighted on `/members/clergy` but not on `/membership`. */
  lemma MembersIsNotMembership()
    ensures IsActive("/members/clergy", "/members")
    ensures !IsActive("/membership", "/members")
  {
    IsActiveIff("/members/clergy", "/members");
    IsActiveIff("/membership", "/members");
    assert "/membership"[8] == 'h';
  }

  /** An active item stays active on any deeper path. */
  lemma ActiveOnExtension(path: string, to: string, segment: string)
    requires IsActive(path, to)
    ensures IsActive(path + "/" + segment, to)
  {
    var longer := path + "/" + segment;
    if path == to {
      assert longer[..|to| + 1] == to + "/";
    } else {
      StartsWithExtend(path, to + "/", "/" + segment);
      assert longer == path + ("/" + segment);
    }
  }

  /** If a child route lies under its parent, a path that activates the child activates the parent. */
  lemma ChildActiveMakesParentActive(path: string, parent: string, child: string)
    requires StartsWith(child, parent + "/")
    requires IsActive(path, child)
    ensures IsActive(path, parent)
  {
    if path != child {
      assert StartsWith(path, child) by {
        assert path[..|child|] == (child + "/")[..|child|];
      }
      StartsWithTransitive(path, child, parent + "/");
    }
  }

  predicate HasChildren(item: NavItem)
  {
    |item.children| > 0
  }

  /** `hasChildren ? children[0].to : to`: the route a collapsed item links to. */
  function CollapsedTarget(item: NavItem): (r: string)
    ensures HasChildren(item) ==> r == item.children[0].to
    ensures !HasChildren(item) ==> r == item.to
  {
    if HasChildren(item) then item.children[0].to else item.to
  }

  /** Every child route of an item begins with the item's route and a '/'. */
  predicate Nested(item: NavItem)
  {
    forall j :: 0 <= j < |item.children| ==> StartsWith(item.children[j].to, item.to + "/")
  }

  /** With nested routes, the collapsed link of a group leads to a path that highlights the group. */
  lemma CollapsedTargetIsActive(item: NavItem)
    requires Nested(item)
    ensures IsActive(CollapsedTarget(item), item.to)
  {
  }

  const Navigation: seq<NavItem> := [
    NavItem("/dashboard", "Dashboard", []),
    NavItem("/church-structure", "Church Structure", [
      Link("/church-structure/conferences", "Conferences"),
      Link("/church-structure/districts", "Districts"),
      Link("/church-structure/societies", "Local Societies")]),
    NavItem("/members", "Members", [
      Link("/members/clergy", "Clergy"),
      Link("/members/lay-officers", "Lay Officers"),
      Link("/members/staff", "Staff")]),
    NavItem("/finance", "Finance", [
      Link("/finance/collections", "Collections"),
      Link("/finance/payments", "Payments"),
      Link("/finance/reports", "Reports")]),
    NavItem("/administration", "Administration", [
      Link("/administration/hr", "HR"),
      Link("/administration/memos", "Memos"),
      Link("/administration/documents", "Documents"),
      Link("/administration/bulk-sms", "Bulk SMS")]),
    NavItem("/events", "Events & Calendar", []),
    NavItem("/reports", "Reports", []),
    NavItem("/users", "Users & Roles", []),
    NavItem("/settings", "Settings", [])
  ]

  /** Every group of the table nests its children under its own route. */
  lemma NavigationIsNested()
    ensures forall i :: 0 <= i < |Navigation| ==> Nested(Navigation[i])
  {
    ChurchStructureIsNested();
    MembersIsNested();
    FinanceIsNested();
    AdministrationIsNested();
  }

  lemma ChurchStructureIsNested()
    ensures Nested(Navigation[1])
  {
  }

  lemma MembersIsNested()
    ensures Nested(Navigation[2])
  {
  }

  lemma FinanceIsNested()
    ensures Nested(Navigation[3])
  {
  }

  lemma AdministrationIsNested()
    ensures Nested(Navigation[4])
  {
  }

  /** Being on any child page of the table highlights its group. */
  lemma CurrentChildHighlightsGroup(path: string, i: nat, j: nat)
    requires i < |Navigation| && j < |Navigation[i].children|
    requires IsActive(path, Navigation[i].children[j].to)
    ensures IsActive(path, Navigation[i].to)
  {
    NavigationIsNested();
    ChildActiveMakesParentActive(path, Navigation[i].to, Navigation[i].children[j].to);
  }

  /** The sidebar's state: the mobile drawer, the logout dialog, and the `collapsed` flag the
      layout keeps and flips through the sidebar's Minimize button. */
  datatype State = State(mobileOpen: bool, logoutOpen: bool, collapsed: bool)

  datatype Action = ToggleMobile | ClickOverlay | ToggleCollapse | AskLogout | CancelLogout | ConfirmLogout

  /** The route a transition navigates to, if any. */
  datatype Step = Step(state: State, route: string)

  function Initial(): (s: State)
    ensures !s.mobileOpen && !s.logoutOpen && !s.collapsed
  {
    State(false, false, false)
  }

  /** One click. The overlay is only there while the drawer is open, and closing an already
      closed drawer changes nothing. The logout button is only rendered while the sidebar is
      expanded, so a collapsed sidebar offers no way to ask for the dialog. */
  function Handle(s: State, a: Action): (r: Step)
    ensures a.ToggleMobile? ==> r == Step(s.(mobileOpen := !s.mobileOpen), "")
    ensures a.ClickOverlay? ==> r == Step(s.(mobileOpen := false), "")
    ensures a.ToggleCollapse? ==> r == Step(s.(collapsed := !s.collapsed), "")
    ensures a.AskLogout? ==> r.route == "" && (r.state.logoutOpen <==> s.logoutOpen || !s.collapsed)
    ensures a.AskLogout? ==> r.state.(logoutOpen := s.logoutOpen) == s
    ensures a.CancelLogout? ==> r == Step(s.(logoutOpen := false), "")
    ensures a.ConfirmLogout? ==> r == Step(s.(logoutOpen := false), "/login")
  {
    match a
    case ToggleMobile => Step(s.(mobileOpen := !s.mobileOpen), "")
    case ClickOverlay => Step(s.(mobileOpen := false), "")
    case ToggleCollapse => Step(s.(collapsed := !s.collapsed), "")
    case AskLogout => if s.collapsed then Step(s, "") else Step(s.(logoutOpen := true), "")
    case CancelLogout => Step(s.(logoutOpen := false), "")
    case ConfirmLogout => Step(s.(logoutOpen := false), "/login")
  }

  /** Two mobile toggles restore the drawer; an overlay click after a toggle that opened it closes it. */
  lemma MobileToggleRoundTrip(s: State)
    ensures Handle(Handle(s, ToggleMobile).state, ToggleMobile).state == s
    ensures !s.mobileOpen ==> Handle(Handle(s, ToggleMobile).state, ClickOverlay).state == s
  {
  }

  /** Two presses of Minimize restore the sidebar; the logout dialog can be asked for only
      after the sidebar is expanded again. */
  lemma CollapseRoundTrip(s: State)
    ensures Handle(Handle(s, ToggleCollapse).state, ToggleCollapse).state == s
    ensures s.collapsed && !s.logoutOpen ==> !Handle(s, AskLogout).state.logoutOpen
    ensures s.collapsed ==> Handle(Handle(s, ToggleCollapse).state, AskLogout).state.logoutOpen
  {
  }

  /** Each group header keeps its own open flag; a click flips only that one. */
  function ToggleGroup(open: seq<bool>, i: nat): (r: seq<bool>)
    requires i < |open|
    ensures |r| == |open|
    ensures r[i] == !open[i]
    ensures forall j :: 0 <= j < |open| && j != i ==> r[j] == open[j]
  {
    open[i := !open[i]]
  }

  lemma ToggleGroupTwice(open: seq<bool>, i: nat)
    requires i < |open|
    ensures ToggleGroup(ToggleGroup(open, i), i) == open
  {
  }
}

=== FILE: staff_details.dfy ===
/**
 * The staff profile page: the record whose id matches the route, its avatar letter,
 * years of service, and the save handler the edit modal calls; its status badge is
 * `Ui.ActiveBadge`.
 * The route parameter arrives already converted by `Number(id)`: `None` stands for
 * NaN, which matches no record.
 */
module StaffDetails {
  import opened Wrappers
  import opened KeyedList
  import opened Text
  import opened Numbers
  import opened Ui

  datatype Staff = Staff(
    id: int,
    name: string,
    department: string,
    position: string,
    email: string,
    phone: string,
    status: string,
    hireDate: string,
    bio: string)

  function StaffId(s: Staff): int
  {
    s.id
  }

  /** The year the page counts from. */
  const ReferenceYear := 2024

  /** `staffData.find(s => s.id === Number(id))`; `None` is the not-found branch. */
  function Lookup(records: seq<Staff>, id: Option<int>): (r: Option<Staff>)
    ensures r.Some? ==> r.value in records && id == Some(r.value.id)
    ensures r.None? <==> id.None? || forall s :: s in records ==> s.id != id.value
  {
    match id
    case None => None
    case Some(k) => FindById(records, k, StaffId)
  }

  /** `handleSaveStaff`: every record with the saved id is replaced; length and order are kept. */
  function Save(records: seq<Staff>, u: Staff): (r: seq<Staff>)
    ensures |r| == |records|
    ensures forall i :: 0 <= i < |records| ==> r[i] == (if records[i].id == u.id then u else records[i])
  {
    ReplaceById(records, u, StaffId)
  }

  /** After a save, the page shows the saved record for its id if the id was present. */
  lemma SaveThenLookup(records: seq<Staff>, u: Staff)
    requires exists i :: 0 <= i < |records| && records[i].id == u.id
    ensures Lookup(Save(records, u), Some(u.id)) == Some(u)
  {
    ReplaceThenFindById(records, u, StaffId);
  }

  /** What `name.split(' ')[1][0]` renders: a letter, nothing (an empty second word gives
      `undefined`), or a TypeError when the name has no second word. */
  datatype Avatar = Letter(c: char) | Blank | Throws

  /** The avatar: the first character of the second space-separated word of the name. */
  function AvatarOf(name: string): (r: Avatar)
    ensures r.Throws? <==> ' ' !in name
    ensures r.Letter? ==> r.c in name && r.c != ' '
  {
    var parts := Split(name, ' ');
    if |parts| < 2 then
      assert ' ' !in name by {
        if ' ' in name {
          SplitAtSeparator(name, ' ');
        }
      }
      Throws
    else
      assert ' ' in name by {
        if ' ' !in name {
          SplitWithoutSeparator(name, ' ');
        }
      }
      var w := parts[1];
      if |w| == 0 then Blank
      else
        assert w[0] in name;
        Letter(w[0])
  }

  /** For any name with a space, the avatar is read off what follows the first space: its
      first character, or nothing when that is the end or another space. */
  lemma AvatarOfSecondWord(first: string, rest: string)
    requires ' ' !in first
    ensures AvatarOf(first + " " + rest) ==
      if |rest| == 0 || rest[0] == ' ' then Blank else Letter(rest[0])
  {
    assert first + " " + rest == first + [' '] + rest;
    SplitAtFirst(first, ' ', rest);
  }

  /** For a titled name such as "Mr. Daniel Appiah" the letter is the given name's initial. */
  lemma AvatarOfTitledName(honorific: string, given: string, rest: string)
    requires ' ' !in honorific && ' ' !in given && |given| > 0
    ensures AvatarOf(honorific + " " + given + " " + rest) == Letter(given[0])
  {
    var name := honorific + " " + given + " " + rest;
    assert name == honorific + [' '] + (given + [' '] + rest);
    SplitAtFirst(honorific, ' ', given + [' '] + rest);
    SplitAtFirst(given, ' ', rest);
  }

  /** A one-word name makes the avatar throw. */
  lemma AvatarOfOneWordNameThrows(name: string)
    requires ' ' !in name
    ensures AvatarOf(name).Throws?
  {
  }

  /** `hireDate ? 2024 - parseInt(hireDate.split(' ')[1]) : 0`; `None` stands for NaN. */
  function YearsOfService(hireDate: string): (r: Option<int>)
    ensures hireDate == "" ==> r == Some(0)
    ensures hireDate != "" && ' ' !in hireDate ==> r == None
    ensures hireDate != "" && |Split(hireDate, ' ')| >= 2 ==>
      (r.Some? <==> ParseInt(Split(hireDate, ' ')[1]).Some?)
    ensures r.Some? && hireDate != "" ==>
      (|Split(hireDate, ' ')| >= 2 &&
       exists y :: ParseInt(Split(hireDate, ' ')[1]) == Some(y) && r.value == ReferenceYear - y)
  {
    if hireDate == "" then Some(0)
    else
      var parts := Split(hireDate, ' ');
      if |parts| < 2 then None
      else
        assert ' ' in hireDate by {
          if ' ' !in hireDate {
            SplitWithoutSeparator(hireDate, ' ');
          }
        }
        match ParseInt(parts[1])
        case None => None
        case Some(y) => Some(ReferenceYear - y)
  }

  /** An integer has no space in its numeral. */
  lemma NoSpaceInNumeral(y: int)
    ensures ' ' !in IntToString(y)
  {
    var s := IntToString(y);
    IntToStringShape(y);
    if y < 0 {
      assert s == [s[0]] + s[1..];
    }
  }

  /** A hire date written "Month Year" counts the years from that year to 2024. */
  lemma YearsOfServiceOfMonthYear(month: string, year: int)
    requires ' ' !in month
    ensures YearsOfService(month + " " + IntToString(year)) == Some(ReferenceYear - year)
  {
    var y := IntToString(year);
    assert Split(month + " " + y, ' ') == [month, y] by {
      NoSpaceInNumeral(year);
      SplitTwoWords(month, ' ', y);
    }
    assert ParseInt(y) == Some(year) by {
      ParseIntOfIntToString(year);
    }
  }
}

=== FILE: text.dfy ===
/**
 * The JavaScript string operations the pages use, over `string` (= `seq<char>`):
 * `split` on a one-character separator, `join`, `startsWith`, `padStart`,
 * ASCII case mapping and the `charAt(0).toUpperCase() + slice(1)` status labels.
 * A character here is a Unicode scalar value; JavaScript indexes UTF-16 code units, so
 * `s[0]` of a string led by a character outside the Basic Multilingual Plane is a whole
 * character in this model and a lone surrogate in JavaScript.
 */
module Text {
  import opened Seqs

  /** `s.split(sep)` for a one-character separator: always at least one part, none holding `sep`. */
  function Split(s: string, sep: char): (parts: seq<string>)
    ensures |parts| >= 1
    ensures forall i :: 0 <= i < |parts| ==> sep !in parts[i]
    ensures forall i, c :: 0 <= i < |parts| && c in parts[i] ==> c in s
  {
    if |s| == 0 then [""]
    else
      assert forall c :: c in s[1..] ==> c in s;
      if s[0] == sep then [""] + Split(s[1..], sep)
      else
        var rest := Split(s[1..], sep);
        [[s[0]] + rest[0]] + rest[1..]
  }

  /** `parts.join(sep)`. */
  function Join(parts: seq<string>, sep: string): string
  {
    if |parts| == 0 then ""
    else if |parts| == 1 then parts[0]
    else parts[0] + sep + Join(parts[1..], sep)
  }

  /** A join begins with its first part. */
  lemma JoinStartsWithFirst(parts: seq<string>, sep: string)
    requires |parts| > 0
    ensures |Join(parts, sep)| >= |parts[0]| && Join(parts, sep)[..|parts[0]|] == parts[0]
  {
    if |parts| > 1 {
      assert Join(parts, sep) == parts[0] + (sep + Join(parts[1..], sep));
    }
  }

  /** Joining the parts of a split with the same separator gives back the string. */
  lemma {:induction false} JoinSplit(s: string, sep: char)
    ensures Join(Split(s, sep), [sep]) == s
  {
    if |s| > 0 {
      JoinSplit(s[1..], sep);
      if s[0] == sep {
        JoinSplitAtSeparator(s, sep);
      } else {
        JoinSplitAtOther(s, sep);
      }
    }
  }

  /** The step of JoinSplit for a string that starts with the separator. */
  lemma JoinSplitAtSeparator(s: string, sep: char)
    requires |s| > 0 && s[0] == sep
    requires Join(Split(s[1..], sep), [sep]) == s[1..]
    ensures Join(Split(s, sep), [sep]) == s
  {
    var rest := Split(s[1..], sep);
    assert Split(s, sep) == [""] + rest;
    assert ([""] + rest)[1..] == rest;
    assert s == [sep] + s[1..];
  }

  /** The step of JoinSplit for a string that starts with another character. */
  lemma JoinSplitAtOther(s: string, sep: char)
    requires |s| > 0 && s[0] != sep
    requires Join(Split(s[1..], sep), [sep]) == s[1..]
    ensures Join(Split(s, sep), [sep]) == s
  {
    var rest := Split(s[1..], sep);
    var parts := Split(s, sep);
    var head := [s[0]] + rest[0];
    assert parts == [head] + rest[1..];
    assert s == [s[0]] + s[1..];
    if |rest| == 1 {
      assert Join(parts, [sep]) == head;
    } else {
      var tail := Join(rest[1..], [sep]);
      assert parts[0] == head && parts[1..] == rest[1..];
      assert Join(parts, [sep]) == head + [sep] + tail;
      assert s[1..] == rest[0] + [sep] + tail;
      Regroup(s[0], rest[0], sep, tail);
    }
  }

  /** Sequence concatenation regrouped around a first and a middle character. */
  lemma Regroup(a: char, b: string, c: char, d: string)
    ensures [a] + b + [c] + d == [a] + (b + [c] + d)
  {
  }

  /** A string without the separator splits into itself alone. */
  lemma {:induction false} SplitWithoutSeparator(s: string, sep: char)
    requires sep !in s
    ensures Split(s, sep) == [s]
  {
    if |s| > 0 {
      assert sep !in s[1..];
      SplitWithoutSeparator(s[1..], sep);
      assert [s[0]] + s[1..] == s;
    }
  }

  /** Splitting at the first separator: the word before it, then the split of the rest. */
  lemma {:induction false} SplitAtFirst(a: string, sep: char, b: string)
    requires sep !in a
    ensures Split(a + [sep] + b, sep) == [a] + Split(b, sep)
  {
    var s := a + [sep] + b;
    if |a| == 0 {
      assert s == [sep] + b;
      assert s[1..] == b;
    } else {
      assert s[1..] == a[1..] + [sep] + b;
      assert sep !in a[1..];
      SplitAtFirst(a[1..], sep, b);
      assert [a[0]] + a[1..] == a;
    }
  }

  /** Two words joined by one separator split into exactly those words. */
  lemma SplitTwoWords(a: string, sep: char, b: string)
    requires sep !in a && sep !in b
    ensures Split(a + [sep] + b, sep) == [a, b]
  {
    SplitAtFirst(a, sep, b);
    SplitWithoutSeparator(b, sep);
  }

  /** A string holding the separator splits into at least two parts. */
  lemma {:induction false} SplitAtSeparator(s: string, sep: char)
    requires sep in s
    ensures |Split(s, sep)| >= 2
  {
    if s[0] != sep {
      assert sep in s[1..] by {
        var i :| 0 <= i < |s| && s[i] == sep;
        assert s[1..][i - 1] == sep;
      }
      SplitAtSeparator(s[1..], sep);
    } else if |s| == 1 {
      assert Split(s[1..], sep) == [""];
    } else {
      assert |Split(s[1..], sep)| >= 1;
    }
  }

  /** The last part of a split. */
  function LastPart(s: string, sep: char): (w: string)
    ensures sep !in w
  {
    var parts := Split(s, sep);
    parts[|parts| - 1]
  }

  /** The last part of a split is the text after the last separator. */
  lemma {:induction false} LastPartAfterSeparator(s: string, sep: char, w: string)
    requires sep !in w
    ensures LastPart(s + [sep] + w, sep) == w
  {
    var x := s + [sep] + w;
    if |s| == 0 {
      SplitAtFirst(s, sep, w);
      SplitWithoutSeparator(w, sep);
    } else {
      assert x[1..] == s[1..] + [sep] + w;
      LastPartAfterSeparator(s[1..], sep, w);
      var rest := Split(x[1..], sep);
      assert sep in x[1..] by {
        assert x[1..][|s| - 1] == sep;
      }
      SplitAtSeparator(x[1..], sep);
      if x[0] != sep {
        assert Split(x, sep) == [[x[0]] + rest[0]] + rest[1..];
      }
    }
  }

  /** A string without the separator is its own last part. */
  lemma LastPartWithoutSeparator(s: string, sep: char)
    requires sep !in s
    ensures LastPart(s, sep) == s
  {
    SplitWithoutSeparator(s, sep);
  }

  /** A string holds something. */
  predicate NonEmpty(s: string)
  {
    |s| > 0
  }

  /** `parts.map(n => n[0]).join('')`: the first character of each part; an empty part
      gives `undefined`, which `join` writes as nothing. */
  function FirstChars(parts: seq<string>): (r: string)
    ensures |r| == |Filter(parts, NonEmpty)|
    ensures forall i :: 0 <= i < |r| ==> r[i] == Filter(parts, NonEmpty)[i][0]
  {
    if |parts| == 0 then ""
    else
      var rest := FirstChars(parts[1..]);
      var kept := Filter(parts[1..], NonEmpty);
      assert Filter(parts, NonEmpty) == (if NonEmpty(parts[0]) then [parts[0]] else []) + kept;
      if |parts[0]| > 0 then [parts[0][0]] + rest else rest
  }

  /** `name.split(' ').map(n => n[0]).join('')`: the initials shown in a user's avatar. */
  function Initials(name: string): (r: string)
    ensures forall i :: 0 <= i < |r| ==> r[i] in name && r[i] != ' '
    ensures |r| == |Filter(Split(name, ' '), NonEmpty)|
    ensures forall i :: 0 <= i < |r| ==> r[i] == Filter(Split(name, ' '), NonEmpty)[i][0]
  {
    var parts := Split(name, ' ');
    var r := FirstChars(parts);
    assert forall i :: 0 <= i < |r| ==> r[i] in name && r[i] != ' ' by {
      forall i | 0 <= i < |r|
        ensures r[i] in name && r[i] != ' '
      {
        var w := Filter(parts, NonEmpty)[i];
        assert w in parts;
      }
    }
    r
  }

  /** The initials of a two-word name are the first letters of the two words. */
  lemma InitialsOfTwoWords(a: string, b: string)
    requires |a| > 0 && |b| > 0
    requires ' ' !in a && ' ' !in b
    ensures Initials(a + " " + b) == [a[0], b[0]]
  {
    SplitTwoWords(a, ' ', b);
    assert FirstChars([a, b]) == [a[0]] + FirstChars([b]);
    assert [a, b][1..] == [b];
    assert FirstChars([b]) == [b[0]] + FirstChars([]);
  }

  /** `c.toLowerCase()` on ASCII letters; every other character is left alone. */
  function LowerChar(c: char): char
  {
    if 'A' <= c <= 'Z' then (c as int + 32) as char else c
  }

  /** `c.toUpperCase()` on ASCII letters; every other character is left alone. */
  function UpperChar(c: char): char
  {
    if 'a' <= c <= 'z' then (c as int - 32) as char else c
  }

  /** `s.toLowerCase()`, restricted to ASCII case mapping. */
  function Lower(s: string): (r: string)
    ensures |r| == |s|
    ensures forall i :: 0 <= i < |s| ==> r[i] == LowerChar(s[i])
  {
    if |s| == 0 then "" else [LowerChar(s[0])] + Lower(s[1..])
  }

  /** `s.charAt(0).toUpperCase() + s.slice(1)`: the label shown on a status badge. */
  function Capitalize(s: string): (r: string)
    ensures |r| == |s|
    ensures |s| > 0 ==> r[0] == UpperChar(s[0]) && r[1..] == s[1..]
  {
    if |s| == 0 then "" else [UpperChar(s[0])] + s[1..]
  }

  /** Capitalising an already capitalised label changes nothing. */
  lemma CapitalizeIdempotent(s: string)
    ensures Capitalize(Capitalize(s)) == Capitalize(s)
  {
  }

  /** A label that starts with a lower-case ASCII letter can be read back by lower-casing
      its first character. */
  lemma CapitalizeUndo(s: string)
    requires |s| > 0 && 'a' <= s[0] <= 'z'
    ensures [LowerChar(Capitalize(s)[0])] + Capitalize(s)[1..] == s
  {
    assert s == [s[0]] + s[1..];
  }

  /** `n` copies of `c`. */
  function Repeat(c: char, n: nat): (r: string)
    ensures |r| == n
    ensures forall i :: 0 <= i < n ==> r[i] == c
  {
    if n == 0 then "" else [c] + Repeat(c, n - 1)
  }

  /** `s.padStart(n, c)` for a one-character filler. */
  function PadStart(s: string, n: nat, c: char): (r: string)
    ensures |s| >= n ==> r == s
    ensures |s| < n ==> |r| == n
    ensures r[|r| - |s|..] == s
    ensures forall i :: 0 <= i < |r| - |s| ==> r[i] == c
  {
    if |s| >= n then s else Repeat(c, n - |s|) + s
  }

  /** `s.startsWith(p)`. */
  predicate StartsWith(s: string, p: string)
  {
    |p| <= |s| && s[..|p|] == p
  }

  /** A prefix of a prefix is a prefix. */
  lemma StartsWithTransitive(s: string, p: string, q: string)
    requires StartsWith(s, p) && StartsWith(p, q)
    ensures StartsWith(s, q)
  {
    assert s[..|q|] == s[..|p|][..|q|];
  }

  /** Extending a string at the end keeps all its prefixes. */
  lemma StartsWithExtend(s: string, p: string, t: string)
    requires StartsWith(s, p)
    ensures StartsWith(s + t, p)
  {
    assert (s + t)[..|p|] == s[..|p|];
  }
}

=== FILE: ui.dfy ===
/**
 * The badge variants the pages choose between, and the status label every status
 * badge shows: `status.charAt(0).toUpperCase() + status.slice(1)`.
 */
module Ui {
  import opened Text

  datatype Variant = Default | Primary | Success | Warning | Destructive | Outline

  /** What pressing a modal form's submit button leads to: nothing while the modal is not
      rendered; nothing while the browser's check of the `required` inputs stops the form;
      otherwise the result of the submit handler. */
  datatype Submission<T> = NotRendered | Blocked | Submitted(value: T)

  /** The label of a status badge: the status with its first character upper-cased. */
  function StatusLabel(status: string): (r: string)
    ensures |r| == |status|
    ensures |status| > 0 ==> r[0] == UpperChar(status[0]) && r[1..] == status[1..]
  {
    Capitalize(status)
  }

  /** The badge every profile and user row shows for a status: success exactly for
      "active", default otherwise, labelled with the capitalised status. */
  function ActiveBadge(status: string): (r: (Variant, string))
    ensures r.0 == Success <==> status == "active"
    ensures r.0 != Success ==> r.0 == Default
    ensures r.1 == StatusLabel(status)
  {
    (if status == "active" then Success else Default, StatusLabel(status))
  }

  /** The label of a lower-case status gives the status back when its first letter is lowered. */
  lemma StatusLabelRoundTrip(status: string)
    requires |status| > 0 && 'a' <= status[0] <= 'z'
    ensures [LowerChar(StatusLabel(status)[0])] + StatusLabel(status)[1..] == status
  {
    CapitalizeUndo(status);
  }

  /** Labelling a label changes nothing. */
  lemma StatusLabelIdempotent(status: string)
    ensures StatusLabel(StatusLabel(status)) == StatusLabel(status)
  {
    CapitalizeIdempotent(status);
  }
}

=== FILE: users_page.dfy ===
/**
 * The Users & Roles page: a user table with add and edit, a role list with add, and
 * the statistics cards above them. The user and role records come from the add/edit
 * modals, which are not part of this model; they arrive here as values.
 */
module UsersPage {
  import opened Wrappers
  import opened Seqs
  import opened KeyedList
  import opened Text
  import AddRoleModal

  datatype User = User(id: int, name: string, email: string, role: string, lastActive: string, status: string)

  function UserId(u: User): int
  {
    u.id
  }

  datatype State = State(
    users: seq<User>,
    roles: seq<AddRoleModal.Role>,
    addUserOpen: bool,
    editUserOpen: bool,
    addRoleOpen: bool,
    selectedUser: Option<User>)

  /** `handleAddUser`: one user more, at the end. */
  function AddUser(s: State, u: User): (r: State)
    ensures |r.users| == |s.users| + 1 && r.users[..|s.users|] == s.users && r.users[|s.users|] == u
    ensures r.(users := s.users) == s
  {
    s.(users := Append(s.users, u))
  }

  /** `handleEditUser`: the user is selected and the edit modal opens. */
  function EditUser(s: State, u: User): (r: State)
    ensures r.selectedUser == Some(u) && r.editUserOpen
    ensures r.(selectedUser := s.selectedUser, editUserOpen := s.editUserOpen) == s
  {
    s.(selectedUser := Some(u), editUserOpen := true)
  }

  /** `handleSaveUser`: every user with the same id is replaced; length and order are kept. */
  function SaveUser(s: State, u: User): (r: State)
    ensures |r.users| == |s.users|
    ensures forall i :: 0 <= i < |s.users| ==>
      r.users[i] == (if s.users[i].id == u.id then u else s.users[i])
    ensures r.(users := s.users) == s
  {
    s.(users := ReplaceById(s.users, u, UserId))
  }

  /** Saving a user unchanged leaves a table with unique ids as it was. */
  lemma SaveUnchangedUser(s: State, i: nat)
    requires i < |s.users|
    requires UniqueKeys(s.users, UserId)
    ensures SaveUser(s, s.users[i]) == s
  {
    ReplaceWithSelfIsIdentity(s.users, i, UserId);
  }

  /** `handleAddRole`: one role more, at the end. */
  function AddRole(s: State, role: AddRoleModal.Role): (r: State)
    ensures |r.roles| == |s.roles| + 1 && r.roles[..|s.roles|] == s.roles && r.roles[|s.roles|] == role
    ensures r.(roles := s.roles) == s
  {
    s.(roles := Append(s.roles, role))
  }

  predicate IsActive(u: User)
  {
    u.status == "active"
  }

  function ActiveOf(): User -> bool
  {
    u => IsActive(u)
  }

  /** How many users have status `active`, counted one by one. */
  function CountActive(users: seq<User>): (n: nat)
    ensures n <= |users|
    ensures n == |users| <==> forall i :: 0 <= i < |users| ==> users[i].status == "active"
    ensures n == 0 <==> forall i :: 0 <= i < |users| ==> users[i].status != "active"
  {
    if |users| == 0 then 0
    else
      var rest := users[1..];
      assert forall i :: 1 <= i < |users| ==> users[i] == rest[i - 1];
      (if IsActive(users[0]) then 1 else 0) + CountActive(rest)
  }

  /** The "Active Now" card: `users.filter(u => u.status === 'active').length`. */
  function ActiveCount(users: seq<User>): (n: nat)
    ensures n == CountActive(users)
  {
    ActiveIsCount(users);
    |Filter(users, ActiveOf())|
  }

  lemma {:induction false} ActiveIsCount(users: seq<User>)
    ensures |Filter(users, ActiveOf())| == CountActive(users)
  {
    if |users| > 0 {
      ActiveIsCount(users[1..]);
    }
  }

  /** "Active Now" never exceeds "Total Users", and equals it exactly when every user is active. */
  lemma ActiveNeverExceedsTotal(users: seq<User>)
    ensures ActiveCount(users) <= |users|
    ensures ActiveCount(users) == |users| <==> forall i :: 0 <= i < |users| ==> users[i].status == "active"
  {
  }

  /** Adding a user raises the active count by one exactly when the new user is active. */
  lemma ActiveCountAfterAdd(s: State, u: User)
    ensures ActiveCount(AddUser(s, u).users) == ActiveCount(s.users) + (if u.status == "active" then 1 else 0)
  {
    FilterAppend(s.users, [u], ActiveOf());
    assert [u][1..] == [];
  }

  /** The avatar text of a user: the first letter of every word of the name. */
  function Avatar(u: User): (r: string)
    ensures forall i :: 0 <= i < |r| ==> r[i] in u.name && r[i] != ' '
    ensures |r| == |Filter(Split(u.name, ' '), NonEmpty)|
    ensures forall i :: 0 <= i < |r| ==> r[i] == Filter(Split(u.name, ' '), NonEmpty)[i][0]
  {
    Initials(u.name)
  }

  /** A first and a last name give two initials. */
  lemma AvatarOfTwoWordName(u: User, first: string, last: string)
    requires u.name == first + " " + last
    requires |first| > 0 && |last| > 0 && ' ' !in first && ' ' !in last
    ensures Avatar(u) == [first[0], last[0]]
  {
    InitialsOfTwoWords(first, last);
  }
}

=== FILE: wrappers.dfy ===
/** Optional values: JavaScript's `null` / `undefined` next to a present value. */
module Wrappers {

  datatype Option<+T> = None | Some(value: T) {

    /** The value if present, the given default otherwise (JavaScript's `x ?? d`). */
    function GetOr(default: T): (r: T)
      ensures Some? ==> r == value
      ensures None? ==> r == default
    {
      match this
      case Some(v) => v
      case None => default
    }
  }
}
